=== FILE: README.md ===
# Relativit session and credential core, in Dafny

This project models the server side of Relativit's **session and credential
lifecycle** and the small pieces of client logic that depend on it. Each
operation is a pure function from a database snapshot to a new snapshot plus
a result (`Step<T>` for the services, `Handled<T>` for the HTTP handlers).
The operations covered are:

- **Sign-in.** One-time email codes, registration, password login, refresh
  tokens, logout, logout-all and password change (`auth.service.js`,
  `auth.routes.js`).
- **Credential vault.** Each user's AI-provider key is stored AES-256-GCM
  sealed. The provider, ciphertext and IV are written or cleared together.
  The vault also holds the trial-credit account (`auth.service.js`,
  `settings.routes.js`).
- **Metered AI router.** It picks the operator key or the user's own key,
  gates and debits trial credits, normalises roles, frames Gemini's
  content, logs usage, and extracts the issue tree from a reply, falling
  back when that fails (`ai.service.js`, `ai.routes.js`).
- **Encryption helpers.** Ciphertext-plus-tag framing in hex, the random
  refresh token, and the six-digit code with its fixed demo value
  (`encryption.js`).
- **Bearer-token middleware.** `Authorization: Bearer` parsing, as in
  section 2.1 of RFC 6750, plus access-token expiry and the client-IP and
  user-agent fallbacks (`auth.middleware.js`).
- **Client logic** (`App.jsx`):
  - retry once after `TOKEN_EXPIRED`;
  - the shared refresh and refresh-token replacement;
  - leaf counting in `calculateProgress` and `toggleNode`;
  - choosing the root screen.

Storage is held in memory. Users are a sequence indexed by id, codes a
sequence in insertion order, and refresh tokens a map keyed by the token
value. The audit and usage logs are append-only sequences.

Several things are parameters rather than computed:

- **Cryptography** (SHA-256, AES-GCM's counter mode and tag, bcrypt) is a
  record of function values, `Encryption.Primitives`. Every property that
  needs them to behave carries the ghost predicate `Encryption.Sound`:
  decryption inverts encryption, and a bcrypt hash verifies against its
  password.
- **Randomness** arrives as inputs: the bytes drawn for tokens, IVs and
  salts, and the `Math.random()` value.
- **JWT verification** is a `Decoder`.
- **`JSON.parse`** is a `Parser`.
- **Provider calls** arrive as an `Outcome`: the reply (text, model, token
  count) or the message of the error the call raised.
- **Mail delivery** is the optional error message it reports.
- **Time** is a `now` argument in milliseconds.

| file | module | source |
|---|---|---|
| base.dfy | Base | JavaScript string helpers (`trim`, `toLowerCase`, `length`, truthiness) |
| store.dfy | Store | the Prisma records, `sanitizeUser`, `generateAccessToken`, `logAudit` |
| http.dfy | Http | response and request shapes |
| encryption.dfy | Encryption | `utils/encryption.js` |
| auth_service.dfy | AuthService | `services/auth.service.js` |
| ai_service.dfy | AiService | `services/ai.service.js` |
| middleware.dfy | AuthMiddleware | `middleware/auth.middleware.js` |
| auth_routes.dfy | AuthRoutes | `routes/auth.routes.js` |
| ai_routes.dfy | AiRoutes | `routes/ai.routes.js` |
| settings_routes.dfy | SettingsRoutes | `routes/settings.routes.js` |
| issue_tree.dfy | IssueTree | the issue-tree node and the default tree |
| client.dfy | Client | `client/src/App.jsx` |

## Model

| member | source | states |
|---|---|---|
| Base.OrElse | src/features/app/server/src/middleware/auth.middleware.js:58-64 | `a \|\| b` on strings: the first operand when it is a non-empty string, otherwise the second |
| Base.TrimStart | src/features/app/server/src/routes/auth.routes.js:69-69 | the result is a suffix of the input, everything dropped is white space, and the result does not start with white space |
| Base.TrimEnd | src/features/app/server/src/routes/auth.routes.js:69-69 | the result is a prefix of the input, everything dropped is white space, and the result does not end with white space |
| Base.TrimShape | src/features/app/server/src/routes/auth.routes.js:69-69 | `trim()` yields a contiguous slice of its input that neither starts nor ends with white space |
| Base.TrimKeepsChars | src/features/app/server/src/middleware/auth.middleware.js:58-64 | trimming introduces no character that was not in the input |
| Base.TrimIdempotent | src/features/app/server/src/routes/auth.routes.js:69-69 | trimming twice is trimming once |
| Base.ToLower | src/features/app/server/src/services/auth.service.js:14-14 | lower-casing keeps the length and maps each character independently |
| Base.ToLowerIsLower | src/features/app/server/src/services/auth.service.js:14-14 | every character of a lower-cased string is already lower case |
| Base.ToLowerFixed | src/features/app/server/src/services/auth.service.js:14-14 | a string with no upper-case letter is its own lower-casing |
| Base.NormalizeEmailIdempotent | src/features/app/server/src/services/auth.service.js:14-14 | normalising a stored (already normalised) email changes nothing, so lookups by a stored email find the same record |
| Base.Utf16Length | src/features/app/server/src/routes/ai.routes.js:22-22 | JavaScript's `length` counts between one and two UTF-16 units per code point |
| Base.Utf16LengthAppend | src/features/app/server/src/routes/ai.routes.js:22-22 | the UTF-16 length of a concatenation is the sum of the lengths |
| Base.Utf16LengthBmp | src/features/app/server/src/routes/ai.routes.js:22-22 | for text inside the Basic Multilingual Plane, `length` is the number of characters |
| Base.ContainsInfix | src/features/app/server/src/routes/ai.routes.js:65-65 | `includes` finds a substring wherever it is placed |
| Base.BeforeFirst | src/features/app/server/src/middleware/auth.middleware.js:60-60 | `split(',')[0]` is the longest comma-free prefix, stopping exactly at the first comma |
| Store.FindUserByEmail | src/features/app/server/src/services/auth.service.js:144-146 | the lookup finds the first user with that email, and reports none exactly when no user has it |
| Store.UserById | src/features/app/server/src/services/auth.service.js:321-323 | `findUnique` by id finds a record exactly when the id exists, and it is that record |
| Store.AuditKeepsValid | src/features/app/server/src/services/auth.service.js:524-540 | an audit write preserves the database invariants (unique emails, owned tokens, key fields together) |
| Store.Sanitize | src/features/app/server/src/services/auth.service.js:505-519 | the returned user keeps id, email, name and trial fields; `hasApiKey` holds exactly when a key is stored or trial mode is on |
| Store.IssueAccessToken | src/features/app/server/src/services/auth.service.js:487-493 | an access token carries the user's id and email, is issued in the current second, and expires 15 minutes later |
| Http.Error | src/features/app/server/src/routes/auth.routes.js:14-16 | an error answer has the given status and message and no code or details |
| Http.CodedError | src/features/app/server/src/middleware/auth.middleware.js:21-23 | a coded error answer has the given status, message and code |
| Encryption.ToHex | src/features/app/server/src/utils/encryption.js:35-35 | hex rendering yields two lower-case hex digits per byte |
| Encryption.FromHex | src/features/app/server/src/utils/encryption.js:51-51 | hex decoding never yields more than one byte per two characters |
| Encryption.FromHexToHex | src/features/app/server/src/utils/encryption.js:51-51 | decoding the hex rendering of bytes gives the bytes back |
| Encryption.Encrypt | src/features/app/server/src/utils/encryption.js:13-37 | encryption succeeds exactly when a secret is configured, and otherwise fails with Node's message for an undefined hash input; the IV comes back as 32 hex characters that decode to the drawn IV, and the ciphertext is lower-case hex with at least the 32-character tag |
| Encryption.DeriveKey | src/features/app/server/src/utils/encryption.js:15 | a key is derived exactly when a secret is set; an undefined secret fails with Node's full `ERR_INVALID_ARG_TYPE` message |
| Encryption.SplitTag | src/features/app/server/src/utils/encryption.js:54-55 | the two halves put back together are the input; the tag is the last 32 characters, or all of a shorter input |
| Encryption.SplitTagOfFrame | src/features/app/server/src/utils/encryption.js:31-31 | splitting a ciphertext followed by a 32-character tag gives back the ciphertext and the tag |
| Encryption.Decrypt | src/features/app/server/src/utils/encryption.js:46-67 | fails, in order: no secret (Node's undefined-input message), an IV that decodes to no bytes ('Invalid initialization vector'), a tag length GCM refuses ('Invalid authentication tag length: n'), an odd-length ciphertext (Node's odd-hex message); a plaintext comes back only when the tag matches the computed tag, and it is the counter-mode decryption |
| Encryption.EncryptDecryptRoundTrip | src/features/app/server/src/utils/encryption.js:13-67 | with sound primitives, decrypting what encryption produced, with its IV and the same secret, returns the original text |
| Encryption.ForgedTagRejected | src/features/app/server/src/utils/encryption.js:59-64 | a full-length tag that differs from the true one makes decryption fail with the authentication error |
| Encryption.GenerateSecureToken | src/features/app/server/src/utils/encryption.js:74-76 | a token of n random bytes is 2n lower-case hex characters that decode back to those bytes |
| Encryption.Decimal | src/features/app/server/src/utils/encryption.js:88-88 | `toString()` of a natural number is a non-empty digit string |
| Encryption.DecimalRoundTrip | src/features/app/server/src/utils/encryption.js:88-88 | the decimal rendering consists of digits and reads back as the same number |
| Encryption.DecimalLength | src/features/app/server/src/utils/encryption.js:88-88 | a number between 10^k and 10^(k+1) has k+1 digits |
| Encryption.GenerateVerificationCode | src/features/app/server/src/utils/encryption.js:83-89 | the code is always six digits; it is '677485' in demo or development mode, and otherwise a number from 100000 to 999999 |
| Encryption.HashThenVerify | src/features/app/server/src/utils/encryption.js:94-105 | with sound primitives, a password verifies against its own bcrypt hash |
| AuthService.DropCodes | src/features/app/server/src/services/auth.service.js:25-28 | deleting the codes of one (email, purpose) pair keeps exactly the codes of other pairs, so none of that pair is left |
| AuthService.RequestVerificationCode | src/features/app/server/src/services/auth.service.js:13-60 | only the codes change; afterwards exactly one code exists for the normalised (email, purpose) pair, it is the newest and expires ten minutes from now, and codes of other pairs survive; the request fails only when mail fails in production, and reports whether the address has an account |
| AuthService.RequestedCodes | src/features/app/server/src/services/auth.service.js:14-39 | the new code list is the old one without the pair's codes, followed by the new code |
| AuthService.DemoRequest | src/features/app/server/src/services/auth.service.js:14-39 | in demo mode the appended code is the fixed demo code |
| AuthService.FindLiveCode | src/features/app/server/src/services/auth.service.js:69-76 | the search finds a code with matching email and value that is unused and expires strictly after now, and reports none exactly when no code is live |
| AuthService.GenerateTokens | src/features/app/server/src/services/auth.service.js:462-482 | a fresh 128-character refresh token is stored for 30 days with the caller's IP and user agent, next to an access token for the user; a token value already stored is refused and nothing changes |
| AuthService.GenerateTokensValid | src/features/app/server/src/services/auth.service.js:462-482 | issuing tokens preserves the database invariants |
| AuthService.RecordLogin | src/features/app/server/src/services/auth.service.js:97-101 | only the user's `lastLoginAt` changes among the records, and exactly one 'login' audit entry is appended; the usage log is untouched |
| AuthService.StartSession | src/features/app/server/src/services/auth.service.js:93-111 | a session for an existing user returns the access and refresh pair, stores the refresh token, stamps the login, appends one 'login' audit entry and leaves the codes and usage log alone; a duplicate token value changes nothing |
| AuthService.StartSessionValid | src/features/app/server/src/services/auth.service.js:93-111 | starting a session preserves the database invariants |
| AuthService.MarkUsed | src/features/app/server/src/services/auth.service.js:82-86 | marking one code used stamps that code and no other |
| AuthService.VerifyCode | src/features/app/server/src/services/auth.service.js:65-120 | without a live code the answer is 'Invalid or expired verification code' and nothing changes; otherwise that code is marked used; a new address gets `new_user` and nothing else changes; an existing user gets `existing_user` with tokens, a stored refresh token, a stamped login and one 'login' audit entry, the usage log untouched |
| AuthService.VerifyCodeValid | src/features/app/server/src/services/auth.service.js:65-120 | verifying a code preserves the database invariants |
| AuthService.VerifyCodeReplayRejected | src/features/app/server/src/services/auth.service.js:69-86 | once the only live code for an email and value is accepted, presenting it again, now or later, is rejected and changes nothing |
| AuthService.NoLiveAfterUse | src/features/app/server/src/services/auth.service.js:69-86 | after the only live code is marked used, no live code remains at any later time |
| AuthService.VerifyNewAddress | src/features/app/server/src/services/auth.service.js:112-119 | a live code for an address without an account yields `new_user`, and only that code is marked |
| AuthService.VerifyTwoLive | src/features/app/server/src/services/auth.service.js:69-86 | two live codes with the same value let that value be verified twice |
| AuthService.DemoCodeAcceptedTwice | src/features/app/server/src/services/auth.service.js:25-76 | because the purpose is not compared on verification, a login code and a signup code requested for one address in demo mode let the demo code be accepted twice |
| AuthService.OpenAccount | src/features/app/server/src/services/auth.service.js:157-177 | the new user (trimmed name, verified, hashed password) is appended under the next id, its tokens are issued under that id and one 'register' audit entry is appended; a duplicate token value throws after the user was created, with no audit entry; codes and usage never change |
| AuthService.OpenAccountValid | src/features/app/server/src/services/auth.service.js:157-177 | creating a user with a new email preserves the database invariants |
| AuthService.Register | src/features/app/server/src/services/auth.service.js:126-184 | refuses, in order: no used code for the email expires later than 15 minutes ago, email already registered, password under 8 UTF-16 units (each refusal changes nothing); otherwise it appends exactly one verified user and returns that user's session, appending one 'register' audit entry and leaving codes and usage alone |
| AuthService.AddUserValid | src/features/app/server/src/services/auth.service.js:157-168 | appending a user whose email is not yet taken keeps emails unique |
| AuthService.RegisterValid | src/features/app/server/src/services/auth.service.js:126-184 | registration preserves the database invariants |
| AuthService.Login | src/features/app/server/src/services/auth.service.js:189-222 | an unknown email and a wrong password give the same 'Invalid email or password' and change nothing; a correct password opens a session for the found user, appending one 'login' audit entry and leaving codes and usage alone |
| AuthService.LoginValid | src/features/app/server/src/services/auth.service.js:189-222 | logging in preserves the database invariants |
| AuthService.RegisterThenLogin | src/features/app/server/src/services/auth.service.js:126-222 | with sound primitives, a just-registered user can log in with the password they registered with |
| AuthService.RefreshAccessToken | src/features/app/server/src/services/auth.service.js:227-253 | never changes the database (no rotation); fails with not-found, then revoked, then expired, in that order; succeeds exactly for a stored, unrevoked, unexpired token, with an access token for its owner |
| AuthService.Logout | src/features/app/server/src/services/auth.service.js:258-267 | revokes only a token with that value that belongs to the caller, ignores unknown or foreign tokens, and appends one audit entry |
| AuthService.RevokeAll | src/features/app/server/src/services/auth.service.js:273-276 | exactly the given user's not-yet-revoked tokens get the revocation time; already revoked ones keep theirs, and no token is added or removed |
| AuthService.LogoutAll | src/features/app/server/src/services/auth.service.js:272-279 | every live token of the caller is revoked at `now`, already-revoked tokens keep their time, other users' tokens are untouched, and one audit entry is appended |
| AuthService.LogoutThenRefreshRevoked | src/features/app/server/src/services/auth.service.js:227-267 | after logout, refreshing with the caller's token fails as revoked, at any time |
| AuthService.LogoutAllThenRefreshRevoked | src/features/app/server/src/services/auth.service.js:227-279 | after logout-all, refreshing with any of the caller's tokens fails as revoked |
| AuthService.ChangePassword | src/features/app/server/src/services/auth.service.js:320-350 | refuses, in order: unknown user, wrong current password, new password under 8 units (changing nothing); otherwise it replaces only the hash, revokes exactly the user's live tokens at `now` (already-revoked ones keep their time), appends 'logout_all' then 'password_change' to the audit log and leaves codes and usage alone |
| AuthService.SaveApiKey | src/features/app/server/src/services/auth.service.js:355-376 | providers other than anthropic, openai and gemini are refused; a save succeeds exactly when the provider is known, an encryption key is configured and the user exists, and then it writes provider, ciphertext and IV together, appends one 'api_key_update' audit entry and changes nothing else; a failure changes nothing |
| AuthService.SavedKeyDecrypts | src/features/app/server/src/services/auth.service.js:355-376 | with sound primitives, the stored ciphertext and IV decrypt to the saved key |
| AuthService.RemoveApiKey | src/features/app/server/src/services/auth.service.js:444-457 | removal succeeds exactly for an existing user; it clears provider, ciphertext and IV together, appends one 'api_key_remove' audit entry, changes nothing else and preserves the invariants; a failure changes nothing |
| AuthService.EnableTrialMode | src/features/app/server/src/services/auth.service.js:405-439 | a first call sets trial mode with 0.5 credits and a start time, answers both with that start time and appends one 'trial_mode_enabled' audit entry, changing nothing else; a repeated call reports `alreadyEnabled` with the current balance, no start time, and changes nothing |
| AuthService.EnableTrialModeIdempotent | src/features/app/server/src/services/auth.service.js:405-439 | enabling trial mode twice is enabling it once, and the second call reports the balance the first set |
| AuthService.GetApiKeyStatus | src/features/app/server/src/services/auth.service.js:381-400 | `hasApiKey` holds exactly when a ciphertext is stored, `useTrialMode` reflects the user, and a missing user reports no provider and zero credits |
| AiService.GetApiKey | src/features/app/server/src/services/ai.service.js:74-114 | the operator key is used exactly when trial mode is on with a positive balance, and fails when no operator key is set; otherwise a stored ciphertext and IV are both required ('API key not configured') and decrypted |
| AiService.SavedKeyIsUsed | src/features/app/server/src/services/ai.service.js:74-114 | with sound primitives, after a save the router uses the saved provider and key unless the user is on a positive trial balance |
| AiService.RemovedKeyIsGone | src/features/app/server/src/services/ai.service.js:102-105 | after removal, outside a positive trial, the router reports 'API key not configured' |
| AiService.NormalizeRoles | src/features/app/server/src/services/ai.service.js:135-138 | 'ai' and 'assistant' become 'assistant', every other role and every content is unchanged, and the length is kept |
| AiService.NormalizeRolesIdempotent | src/features/app/server/src/services/ai.service.js:135-138 | normalising roles twice is normalising once |
| AiService.GeminiContents | src/features/app/server/src/services/ai.service.js:338-356 | Gemini gets the system prompt as a user turn, the fixed acknowledgement as a model turn, then one turn per message: 'model' exactly for 'assistant', 'user' otherwise; length n+2 |
| AiService.GeminiTurns | src/features/app/server/src/services/ai.service.js:341-344 | each message becomes one turn with its text and mapped role |
| AiService.ChatRolesReachGemini | src/features/app/server/src/services/ai.service.js:135-356 | after role normalisation, exactly the 'ai' and 'assistant' messages reach Gemini as model turns |
| AiService.Cost | src/features/app/server/src/services/ai.service.js:163-163 | the cost is never negative, is zero exactly when the token count is missing or zero, and is 0.5 per million tokens |
| AiService.LogUsage | src/features/app/server/src/services/ai.service.js:379-397 | a successful write appends one record with the given user, provider, model, endpoint, duration, success flag and error, the token count defaulting to 0 and a falsy cost stored as null; a failed write changes nothing; nothing but the usage log changes |
| AiService.OrUnknown | src/features/app/server/src/services/ai.service.js:187-187 | `model \|\| 'unknown'` is never empty and keeps a non-empty model |
| AiService.Chat | src/features/app/server/src/services/ai.service.js:119-190 | credential failure and a non-positive re-read trial balance fail before any call and change nothing; an unknown provider fails with 'Unknown provider'; a reply is returned with its text, model and tokens and, on trial, debits exactly its cost from that user only; no other user, token, code or audit entry changes; at most one usage record is written, matching success |
| AiService.CallForChat | src/features/app/server/src/services/ai.service.js:140-189 | after the gate: dispatch on the provider, debit on trial success, one usage record whenever logging works, and the failed call's message put in the cost column |
| AiService.ChatLoggingIsBestEffort | src/features/app/server/src/services/ai.service.js:379-397 | a failing usage write changes neither the chat's answer nor the users |
| AiService.ChatLogsOnce | src/features/app/server/src/services/ai.service.js:158-190 | past the gate, every chat writes exactly one usage record, on success or failure |
| AiService.SequentialGateNeverFires | src/features/app/server/src/services/ai.service.js:87-133 | run sequentially, the second credit read sees the same positive balance, so the chat behaves as with any positive reading |
| AiService.DebitCanOverdraw | src/features/app/server/src/services/ai.service.js:162-175 | the debit is not clamped: a balance of 0.25 and a million-token reply leave -0.25 |
| AiService.FirstIndex | src/features/app/server/src/services/ai.service.js:248-248 | finds the first occurrence of a character, or none exactly when it does not occur |
| AiService.LastIndex | src/features/app/server/src/services/ai.service.js:248-248 | finds the last occurrence of a character, or none exactly when it does not occur |
| AiService.JsonSpan | src/features/app/server/src/services/ai.service.js:248-248 | the regex `/\{[\s\S]*\}/` matches exactly when some '{' precedes some '}', and then yields the span from the first '{' to the last '}' |
| AiService.JsonSpanIsGreedy | src/features/app/server/src/services/ai.service.js:248-248 | braces inside the span, or two objects in one reply, are taken together: the span runs from the first '{' to the last '}' |
| AiService.ExtractIssues | src/features/app/server/src/services/ai.service.js:195-261 | apart from the role formatting listed under "## Left out", only a credential failure throws; otherwise the result is the parsed span when there is one and it parses, and `currentTree` in every other case (exhausted trial, unknown provider, provider error, no span, parse error); users are never changed, so no credits are debited |
| AiService.ValidateApiKey | src/features/app/server/src/services/ai.service.js:266-284 | a key is valid exactly when the provider is known and the test call answered; the error names an unknown provider or carries the call's message; `warning` and `isQuotaError` are never set |
| AiRoutes.FirstTooLong | src/features/app/server/src/routes/ai.routes.js:20-29 | finds the first user message over 1000 UTF-16 units, or none exactly when no user message is that long |
| AiRoutes.ChatError | src/features/app/server/src/routes/ai.routes.js:64-72 | an error mentioning 'API key' becomes 400 `API_KEY_ERROR` with its message; any other becomes 500 `AI_ERROR`, with 'Failed to get AI response' for an empty message |
| AiRoutes.CredentialErrorsAreKeyErrors | src/features/app/server/src/routes/ai.routes.js:64-67 | the missing-key, missing-operator-key and exhausted-credit errors all reach the client as 400 `API_KEY_ERROR` |
| AiRoutes.ChatRoute | src/features/app/server/src/routes/ai.routes.js:11-74 | refuses, in order: no messages (400), an over-long user message (400 with `maxLength` 1000 and its `actualLength`), a thread that is missing or not the caller's (404); a refused request changes nothing; an accepted one answers the reply's text, model and tokens, with `trialCredits` present exactly on trial and equal to the re-read balance, or the classified error |
| AiRoutes.Rejection | src/features/app/server/src/routes/ai.routes.js:15-41 | the request is refused exactly when it is not acceptable, with the first applicable refusal |
| AiRoutes.MessageLengthBoundary | src/features/app/server/src/routes/ai.routes.js:22-22 | a user message of exactly 1000 UTF-16 units is accepted and one of 1001 refused |
| AiRoutes.ExtractIssuesRoute | src/features/app/server/src/routes/ai.routes.js:80-118 | no messages gives 400 and a foreign or missing workspace 404; otherwise the answer is always a tree: the default tree when none is sent, the same tree with the error when the service throws, and the parsed tree when the reply's span parses; users never change |
| AuthRoutes.RequestCodeRoute | src/features/app/server/src/routes/auth.routes.js:10-29 | an email without '@' is refused with 400 and nothing changes; otherwise the service runs with purpose 'login' by default, and its failure becomes 500 |
| AuthRoutes.RequestCodeNeedsAt | src/features/app/server/src/routes/auth.routes.js:14-16 | any email without '@' is refused before anything is stored |
| AuthRoutes.VerifyCodeRoute | src/features/app/server/src/routes/auth.routes.js:35-55 | both email and code are required (400); any service failure becomes 400 with its message |
| AuthRoutes.RegisterRoute | src/features/app/server/src/routes/auth.routes.js:61-86 | email, name and password are required, and a trimmed name under 2 units is refused, before the service runs; service failures become 400 |
| AuthRoutes.RegisteredNameIsLongEnough | src/features/app/server/src/routes/auth.routes.js:69-75 | a successful registration appends one user whose stored name is at least 2 units long |
| AuthRoutes.LoginRoute | src/features/app/server/src/routes/auth.routes.js:92-112 | email and password are required (400); every service failure becomes 401 |
| AuthRoutes.LoginDoesNotRevealAccounts | src/features/app/server/src/routes/auth.routes.js:92-112 | a failed login with a fresh token value answers the same 401 'Invalid email or password' whether or not the address is registered, and changes nothing |
| AuthRoutes.RefreshRoute | src/features/app/server/src/routes/auth.routes.js:118-132 | a missing token gives 400; a refresh failure gives 401 `REFRESH_FAILED`; the database never changes |
| AuthRoutes.LogoutRoute | src/features/app/server/src/routes/auth.routes.js:138-147 | without authentication the middleware's 401 stands and nothing changes; otherwise the logout acts for the authenticated id only, and no other user's token changes |
| AuthRoutes.LogoutAllRoute | src/features/app/server/src/routes/auth.routes.js:153-161 | logout-all acts for the authenticated id only; no other user's token changes |
| AuthRoutes.ChangePasswordRoute | src/features/app/server/src/routes/auth.routes.js:195-209 | both passwords are required (400) after authentication; service failures become 400 |
| SettingsRoutes.EnableTrialRoute | src/features/app/server/src/routes/settings.routes.js:11-19 | succeeds exactly for an existing user, who is then in trial mode; failure is 500 |
| SettingsRoutes.ApiKeyStatusRoute | src/features/app/server/src/routes/settings.routes.js:25-33 | answers whether a key is stored, with the stored provider, trial flag and balance, and no key material |
| SettingsRoutes.StatusHidesKey | src/features/app/server/src/routes/settings.routes.js:25-33 | replacing the stored ciphertext and IV by any others leaves the status answer unchanged |
| SettingsRoutes.SaveApiKeyRoute | src/features/app/server/src/routes/settings.routes.js:39-85 | provider and key are required (400); an invalid key gives 400 'Invalid API key' with details and stores nothing; the database changes only for a known provider whose test call answered; no success carries a warning |
| SettingsRoutes.UnknownProviderRefusedBeforeStorage | src/features/app/server/src/routes/settings.routes.js:49-70 | an unknown provider is refused by validation, with 'Unknown provider' as details and the database unchanged, so the storage error 'Invalid provider' is never reached |
| SettingsRoutes.RemoveApiKeyRoute | src/features/app/server/src/routes/settings.routes.js:91-99 | succeeds exactly for an existing user, whose key fields are then cleared; failure is 500 |
| SettingsRoutes.ValidateKeyRoute | src/features/app/server/src/routes/settings.routes.js:105-119 | provider and key are required (400); otherwise the answer is the validation result, and the handler has no database to change |
| AuthMiddleware.VerifyAccessToken | src/features/app/server/src/middleware/auth.middleware.js:16-25 | a token is accepted exactly when it decodes and its `exp` second has not been reached, and expired exactly when it decodes and it has |
| AuthMiddleware.BearerToken | src/features/app/server/src/middleware/auth.middleware.js:8-14 | a token is extracted exactly when the header starts with 'Bearer ', and it is the rest of the header |
| AuthMiddleware.RequireAuth | src/features/app/server/src/middleware/auth.middleware.js:6-30 | no bearer header gives 401 'Access token required'; an expired token 401 `TOKEN_EXPIRED`; any other failure 401 'Invalid access token' without a code; success passes the decoded claims; every failure is 401 |
| AuthMiddleware.OptionalAuth | src/features/app/server/src/middleware/auth.middleware.js:35-53 | a user is attached exactly when the strict check would accept, and it is the same user |
| AuthMiddleware.AccessTokenLifetime | src/features/app/server/src/middleware/auth.middleware.js:16-25 | an access token issued at t is accepted while less than 15 minutes (minus the second it was issued in) have passed, and reported expired from 15 minutes on |
| AuthMiddleware.ForwardedEntry | src/features/app/server/src/middleware/auth.middleware.js:60-60 | the forwarded entry is the trimmed text before the first comma of x-forwarded-for |
| AuthMiddleware.ClientIp | src/features/app/server/src/middleware/auth.middleware.js:58-64 | the address is the first non-empty of the forwarded entry, x-real-ip, the connection address and the socket address, else 'unknown'; never empty |
| AuthMiddleware.ForwardedIpIsOneEntry | src/features/app/server/src/middleware/auth.middleware.js:58-64 | a forwarded address contains no comma and has no surrounding white space |
| AuthMiddleware.UserAgent | src/features/app/server/src/middleware/auth.middleware.js:69-71 | the user-agent header when present and non-empty, else 'unknown' |
| Client.RefreshTokens | src/features/app/client/src/App.jsx:60-92 | without a refresh token and no refresh under way it fails; otherwise a thrown fetch fails with its own message and a refused reply with the server's error or 'Refresh failed', keeping the tokens; a success replaces the access token, and the refresh token only when the reply carries one |
| Client.SharedRefreshAgrees | src/features/app/client/src/App.jsx:61-63 | a caller that joins a refresh under way ends with the same tokens and outcome as the caller that started it |
| Client.RefreshKeepsRefreshToken | src/features/app/client/src/App.jsx:81-83 | a refresh reply without a refresh token keeps the old one |
| Client.FailureMessage | src/features/app/client/src/App.jsx:129-131 | the thrown message is the reply's error, else its details, else 'Request failed'; never empty |
| Client.Settle | src/features/app/client/src/App.jsx:129-138 | a reply settles as success exactly when it is OK, and otherwise fails with its message |
| Client.Request | src/features/app/client/src/App.jsx:94-138 | the endpoint is called once or twice, twice exactly when the first answer is 401 `TOKEN_EXPIRED` and the refresh succeeds; a failed refresh clears both tokens and throws 'Session expired. Please log in again.' |
| Client.NoSecondRetry | src/features/app/client/src/App.jsx:109-127 | a second `TOKEN_EXPIRED` after the retry is not retried again: it fails with its own message |
| Client.SessionExpiryClearsTokens | src/features/app/client/src/App.jsx:109-127 | unless the server itself sent the session-expired text, a 'Session expired' failure means a `TOKEN_EXPIRED` answer was seen and both tokens were cleared |
| Client.LeafProgress | src/features/app/client/src/App.jsx:1166-1169 | a leaf counts once, as completed, active, or pending for any other status |
| Client.CountTotal | src/features/app/client/src/App.jsx:1162-1175 | completed + active + pending equals the number of leaves |
| Client.Visit | src/features/app/client/src/App.jsx:1165-1172 | a leaf adds its status to the tally and raises the total by one; an inner node leaves the tally and its total unchanged |
| Client.VisitStep | src/features/app/client/src/App.jsx:1165-1172 | one visit keeps tally plus pending count unchanged and shrinks the work left |
| Client.CalculateProgress | src/features/app/client/src/App.jsx:1162-1175 | a missing tree counts (0, 0, 0); otherwise the tally is the leaf count of the tree by status, and its total is the number of leaves |
| Client.ToggleNode | src/features/app/client/src/App.jsx:1154-1160 | toggling flips the membership of exactly that id and leaves every other id as it was |
| Client.ToggleTwice | src/features/app/client/src/App.jsx:1154-1160 | toggling the same id twice restores the set |
| Client.SelectScreen | src/features/app/client/src/App.jsx:1236-1254 | loading shows the spinner; then no user shows sign-in; a signed-in user sees the main app exactly when a key is usable, and key setup otherwise |
| Client.ScreenAfterLogin | src/features/app/client/src/App.jsx:228-239 | after login the main app shows exactly when the account has a stored key or trial mode, and key setup otherwise |
| Client.KeyFlagsAgree | src/features/app/client/src/App.jsx:186-239 | the key flag read at start-up from the sanitised user and the one derived at login from the key status agree |

## Left out

- **Floating point.** Trial credits and the cost are JavaScript doubles; the model uses `real`, so rounding of `tokens / 1000000 * 0.5` and of the decrement is not modelled.
- Base.ToLower: lower-cases ASCII letters only; JavaScript's `toLowerCase` also maps non-ASCII letters (and a few characters to two), so `NormalizeEmail` agrees with the source on ASCII addresses only.
- Base.Utf16Length: each code point counts one unit in the Basic Multilingual Plane and two outside it; Dafny strings cannot hold lone surrogates, so strings containing them are not represented.
- **Prisma.** Storage is in memory. Database errors other than the ones named (duplicate token value, update of a missing record) are not modelled. `findFirst` without an ordering is modelled as the first record in insertion order.
- **Concurrency.** Requests run one at a time. The credit read in `getApiKey` and the re-read in `chat`/`extractIssues` are separate reads in the source; the model takes the second reading as the `observed` parameter and makes no claim about interleavings (the balance may go negative: `AiService.DebitCanOverdraw`).
- **Cryptography.** SHA-256, AES-256-GCM and bcrypt are the uninterpreted functions of `Encryption.Primitives`, constrained only by `Encryption.Sound` where a property needs it. Salt rounds and cost factors are not modelled. JWT signing and verification are the `Decoder` parameter; signature checking is its business.
- **Randomness and time** (`crypto.randomBytes`, `Math.random`, `Date.now`) are parameters.
- **Email delivery** (`email.service.js`): only the error message the code mail may report is an input; the welcome mail sent after registration is not modelled.
- **Provider HTTP** (`callAnthropic`, `callOpenAI`, `callGemini`, the request headers, model names sent, `max_tokens`): the call's result is the `Outcome` parameter. The chat messages are not passed into it; what the provider would receive is modelled separately by `AiService.NormalizeRoles` and `AiService.GeminiContents`. A reply whose shape makes a property access throw is an `Errored` outcome.
- **Anthropic token count.** `input_tokens + output_tokens` is `NaN` when usage is missing; the model receives the count as `Option<nat>`, `None` standing for a missing or non-numeric count.
- Encryption.FromHex: like `Buffer.from(…, 'hex')` it stops at the first pair that is not two hex digits, but a ciphertext with non-hex digits in it reaches the counter-mode decryption as whatever bytes precede them; Node's exact handling of such ciphertext inside `decipher.update` is not modelled beyond odd length.
- AiService.ExtractIssues: the conversation text is built with `m.role.toUpperCase()` before the provider call and outside the `try` (ai.service.js:212-214), so a message whose role is not a string throws there and the route answers the tree with that error; messages are not an input of the model, which promises nothing for such a role.
- **Request bodies of the wrong JSON type** (a non-array `messages`, a numeric email) are not representable: fields are `Option` of the expected type, and a missing field is `None`.
- **Other routes and services**: `getCurrentUser` and `updateProfile` (`GET /me`, `PUT /profile`), `GET /usage`, the workspace, thread and message routes. Only the thread and workspace ownership check of the AI routes is modelled, as a map from id to owner.
- **`logAudit` failures** are swallowed by the source; the model always appends the entry.
- **The client's React state and rendering**, the start-up effect's network calls, and `localStorage`; only the token handling, progress count, node toggling and screen choice are modelled.
- **Express plumbing** (`index.js`): helmet, CORS, rate limits, JSON body parsing, start-up and shutdown.

=== FILE: ai_routes.dfy ===
/** `ai.routes.js`: validation of chat and issue-extraction requests,
    ownership checks on the thread or workspace they name, the trial
    balance reported after a chat, and the classification of errors. The
    handlers sit behind `requireAuth`; `userId` is the authenticated id. */
module AiRoutes {
  import opened Base
  import opened Encryption
  import opened Store
  import opened IssueTree
  import opened AuthService
  import opened AiService
  import opened Http

  const MESSAGES_REQUIRED := "Messages array is required"
  const MESSAGE_TOO_LONG := "Message is too long. Maximum 1,000 characters allowed."
  const MAX_MESSAGE_LENGTH: nat := 1000
  const THREAD_NOT_FOUND := "Thread not found"
  const WORKSPACE_NOT_FOUND := "Workspace not found"
  const AI_FAILED := "Failed to get AI response"
  const API_KEY_ERROR := "API_KEY_ERROR"
  const AI_ERROR := "AI_ERROR"

  /** A user message the route refuses to forward: longer than 1000
      UTF-16 code units, as JavaScript counts `content.length`. */
  predicate TooLong(m: Message) {
    m.role == "user" && Utf16Length(m.content) > MAX_MESSAGE_LENGTH
  }

  /** The first over-long user message, in order. */
  function FirstTooLong(messages: seq<Message>, from: nat): (r: Option<nat>)
    requires from <= |messages|
    ensures r.Some? ==> from <= r.value < |messages| && TooLong(messages[r.value])
    ensures r.Some? ==> forall i :: from <= i < r.value ==> !TooLong(messages[i])
    ensures r.None? <==> forall i :: from <= i < |messages| ==> !TooLong(messages[i])
    decreases |messages| - from
  {
    if from == |messages| then None
    else if TooLong(messages[from]) then Some(from)
    else FirstTooLong(messages, from + 1)
  }

  /** The body of a successful chat: `trialCredits` is `None` (null) unless
      the call ran on trial credits. */
  datatype ChatAnswer = ChatAnswer(response: string, model: string, tokens: Option<nat>, trialCredits: Option<real>)

  /** How the route answers a failed chat: a message mentioning an API key
      is the client's problem (400), anything else a server error (500). */
  function ChatError(message: string): (r: Response<ChatAnswer>)
    ensures Contains(message, API_KEY_PHRASE) ==> r == CodedError(400, message, API_KEY_ERROR)
    ensures !Contains(message, API_KEY_PHRASE) ==>
      r == CodedError(500, if |message| > 0 then message else AI_FAILED, AI_ERROR)
  {
    if Contains(message, API_KEY_PHRASE) then CodedError(400, message, API_KEY_ERROR)
    else CodedError(500, if |message| > 0 then message else AI_FAILED, AI_ERROR)
  }

  /** The credential and credit failures of the service all reach the
      client as API_KEY_ERROR. */
  lemma CredentialErrorsAreKeyErrors()
    ensures ChatError(KEY_NOT_CONFIGURED) == CodedError(400, KEY_NOT_CONFIGURED, API_KEY_ERROR)
    ensures ChatError(TRIAL_KEY_MISSING) == CodedError(400, TRIAL_KEY_MISSING, API_KEY_ERROR)
    ensures ChatError(CREDITS_EXHAUSTED) == CodedError(400, CREDITS_EXHAUSTED, API_KEY_ERROR)
  {
    ContainsInfix("", API_KEY_PHRASE, " not configured");
    assert "" + API_KEY_PHRASE + " not configured" == KEY_NOT_CONFIGURED;
    ContainsInfix("Trial mode is enabled but Relativit ", API_KEY_PHRASE, " is not configured");
    ContainsInfix("Trial credits exhausted. Please add your own ", API_KEY_PHRASE, " to continue.");
  }

  /** `user?.trialCredits || 0`, read after the call. */
  function ReportedCredits(db: Db, userId: UserId): real {
    if userId < |db.users| then db.users[userId].trialCredits else 0.0
  }

  /** The request passes the route's own checks: a non-empty message
      list with no over-long user message, and a thread, if named, that
      belongs to the caller. */
  predicate ChatAccepted(userId: UserId, messages: Option<seq<Message>>, threadId: Option<string>,
                         threads: map<string, UserId>) {
    && messages.Some? && |messages.value| > 0 && FirstTooLong(messages.value, 0).None?
    && (Truthy(threadId) ==> threadId.value in threads && threads[threadId.value] == userId)
  }

  /** POST /chat. `threads` maps each thread id to the owner of its
      workspace. */
  function ChatRoute(db: Db, p: Primitives, env: Env, userId: UserId, messages: Option<seq<Message>>,
                     threadId: Option<string>, threads: map<string, UserId>, observed: Option<real>,
                     outcome: Outcome, duration: nat, logOk: bool): (h: Handled<ChatAnswer>)
    ensures messages.None? || |messages.value| == 0 ==> h == Handled(db, Error(400, MESSAGES_REQUIRED))
    ensures messages.Some? && |messages.value| > 0 && FirstTooLong(messages.value, 0).Some? ==>
      var n := Utf16Length(messages.value[FirstTooLong(messages.value, 0).value].content);
      h == Handled(db, Fail(400, ErrorBody(MESSAGE_TOO_LONG, None, None, Some(MAX_MESSAGE_LENGTH), Some(n))))
    ensures h.response.Fail? && h.response.failure.maxLength.Some? ==>
      h.response.failure.actualLength.Some? && h.response.failure.actualLength.value > MAX_MESSAGE_LENGTH
    ensures messages.Some? && |messages.value| > 0 && FirstTooLong(messages.value, 0).None? && Truthy(threadId)
            && (threadId.value !in threads || threads[threadId.value] != userId) ==>
      h == Handled(db, Error(404, THREAD_NOT_FOUND))
    ensures h.db != db ==>
      && messages.Some? && |messages.value| > 0
      && (forall i :: 0 <= i < |messages.value| ==> !TooLong(messages.value[i]))
      && (Truthy(threadId) ==> threadId.value in threads && threads[threadId.value] == userId)
    ensures h.response.Ok? ==>
      var c := Chat(db, p, env, userId, messages.value, observed, outcome, duration, logOk);
      && c.result.Success? && h.db == c.db
      && h.response.body.response == c.result.value.response
      && (c.result.value.isTrialMode <==> h.response.body.trialCredits.Some?)
      && (c.result.value.isTrialMode ==> h.response.body.trialCredits == Some(h.db.users[userId].trialCredits))
    ensures ChatAccepted(userId, messages, threadId, threads) ==>
      var c := Chat(db, p, env, userId, messages.value, observed, outcome, duration, logOk);
      && (c.result.Failure? ==> h == Handled(c.db, ChatError(c.result.error)))
      && (c.result.Success? ==> h.db == c.db && h.response.Ok?
                                && h.response.body.model == c.result.value.model
                                && h.response.body.tokens == c.result.value.tokens)
  {
    match Rejection(userId, messages, threadId, threads)
    case Some(response) => Handled(db, response)
    case None => Answer(Chat(db, p, env, userId, messages.value, observed, outcome, duration, logOk), userId)
  }

  /** The route's own checks, in order: the message list, the length of
      each user message, then the thread's owner. */
  function Rejection(userId: UserId, messages: Option<seq<Message>>, threadId: Option<string>,
                     threads: map<string, UserId>): (r: Option<Response<ChatAnswer>>)
    ensures r.None? <==> ChatAccepted(userId, messages, threadId, threads)
    ensures messages.None? || |messages.value| == 0 ==> r == Some(Error(400, MESSAGES_REQUIRED))
    ensures messages.Some? && |messages.value| > 0 && FirstTooLong(messages.value, 0).Some? ==>
      var n := Utf16Length(messages.value[FirstTooLong(messages.value, 0).value].content);
      r == Some(Fail(400, ErrorBody(MESSAGE_TOO_LONG, None, None, Some(MAX_MESSAGE_LENGTH), Some(n))))
    ensures messages.Some? && |messages.value| > 0 && FirstTooLong(messages.value, 0).None? && Truthy(threadId)
            && (threadId.value !in threads || threads[threadId.value] != userId) ==>
      r == Some(Error(404, THREAD_NOT_FOUND))
  {
    if messages.None? || |messages.value| == 0 then Some(Error(400, MESSAGES_REQUIRED))
    else match FirstTooLong(messages.value, 0)
      case Some(i) =>
        Some(Fail(400, ErrorBody(MESSAGE_TOO_LONG, None, None, Some(MAX_MESSAGE_LENGTH),
                                 Some(Utf16Length(messages.value[i].content)))))
      case None =>
        if Truthy(threadId) && (threadId.value !in threads || threads[threadId.value] != userId) then
          Some(Error(404, THREAD_NOT_FOUND))
        else None
  }

  /** The response to what the service returned: the reply with the
      re-read balance on trial, or the classified error. */
  function Answer(c: Step<ChatReply>, userId: UserId): (h: Handled<ChatAnswer>)
    ensures h.db == c.db
    ensures c.result.Failure? ==> h.response == ChatError(c.result.error)
    ensures c.result.Success? ==>
      var reply := c.result.value;
      h.response == Ok(ChatAnswer(reply.response, reply.model, reply.tokens,
                                  if reply.isTrialMode then Some(ReportedCredits(c.db, userId)) else None))
  {
    match c.result
    case Failure(e) => Handled(c.db, ChatError(e))
    case Success(reply) =>
      var credits := if reply.isTrialMode then Some(ReportedCredits(c.db, userId)) else None;
      Handled(c.db, Ok(ChatAnswer(reply.response, reply.model, reply.tokens, credits)))
  }

  /** A user message of exactly 1000 code units is accepted; one more is
      refused. */
  lemma MessageLengthBoundary(content: string)
    ensures Utf16Length(content) == MAX_MESSAGE_LENGTH ==> FirstTooLong([Message("user", content)], 0).None?
    ensures Utf16Length(content) == MAX_MESSAGE_LENGTH + 1 ==> FirstTooLong([Message("user", content)], 0) == Some(0)
  {
  }

  /** The body of POST /extract-issues: a tree, and the error message when
      the service threw. */
  datatype ExtractAnswer = ExtractAnswer(tree: Node, error: Option<string>)

  function OrDefault(tree: Option<Node>): Node {
    if tree.Some? then tree.value else DEFAULT_TREE
  }

  /** The request passes the route's own checks: a message list, and a
      workspace, if named, that belongs to the caller. */
  predicate ExtractAccepted(userId: UserId, messages: Option<seq<Message>>, workspaceId: Option<string>,
                            workspaces: map<string, UserId>) {
    messages.Some? && (Truthy(workspaceId) ==> workspaceId.value in workspaces && workspaces[workspaceId.value] == userId)
  }

  /** POST /extract-issues. `workspaces` maps each workspace id to its
      owner. */
  function ExtractIssuesRoute(db: Db, p: Primitives, env: Env, userId: UserId, messages: Option<seq<Message>>,
                              currentTree: Option<Node>, workspaceId: Option<string>, workspaces: map<string, UserId>,
                              observed: Option<real>, outcome: Outcome, parse: Parser,
                              duration: nat, logOk: bool): (h: Handled<ExtractAnswer>)
    ensures messages.None? ==> h == Handled(db, Error(400, MESSAGES_REQUIRED))
    ensures messages.Some? && Truthy(workspaceId)
            && (workspaceId.value !in workspaces || workspaces[workspaceId.value] != userId) ==>
      h == Handled(db, Error(404, WORKSPACE_NOT_FOUND))
    ensures messages.Some? && (Truthy(workspaceId) ==> workspaceId.value in workspaces && workspaces[workspaceId.value] == userId) ==>
      h.response.Ok?
    ensures h.db.users == db.users
    ensures h.response.Ok? && h.response.body.error.Some? ==> h.response.body.tree == OrDefault(currentTree)
    ensures h.response.Ok? && h.response.body.tree != OrDefault(currentTree) ==>
      && outcome.Answered? && JsonSpan(outcome.reply.text).Some?
      && parse(JsonSpan(outcome.reply.text).value) == Success(h.response.body.tree)
    ensures ExtractAccepted(userId, messages, workspaceId, workspaces) ==>
      var tree := OrDefault(currentTree);
      && (GetApiKey(db, p, env, userId).Failure? ==>
            h.response == Ok(ExtractAnswer(tree, Some(GetApiKey(db, p, env, userId).error))))
      && (GatePassed(db, p, env, userId, observed) && KnownAiProvider(GetApiKey(db, p, env, userId).value.provider)
          && outcome.Answered? && JsonSpan(outcome.reply.text).Some?
          && parse(JsonSpan(outcome.reply.text).value).Success? ==>
            h.response == Ok(ExtractAnswer(parse(JsonSpan(outcome.reply.text).value).value, None)))
  {
    if messages.None? then Handled(db, Error(400, MESSAGES_REQUIRED))
    else if Truthy(workspaceId) && (workspaceId.value !in workspaces || workspaces[workspaceId.value] != userId) then
      Handled(db, Error(404, WORKSPACE_NOT_FOUND))
    else
      var s := ExtractIssues(db, p, env, userId, OrDefault(currentTree), observed, outcome, parse, duration, logOk);
      match s.result
      case Failure(e) => Handled(s.db, Ok(ExtractAnswer(OrDefault(currentTree), Some(e))))
      case Success(tree) => Handled(s.db, Ok(ExtractAnswer(tree, None)))
  }
}

=== FILE: ai_service.dfy ===
/** The metered AI router (`ai.service.js`): resolving which credential a
    request runs under, gating and debiting trial credits, normalising
    chat roles, framing Gemini requests, extracting an issue tree from a
    reply, validating a key, and logging usage. Provider replies arrive as
    inputs; the HTTP calls themselves are not part of this model. */
module AiService {
  import opened Base
  import opened Encryption
  import opened Store
  import opened IssueTree
  import opened AuthService

  const DEFAULT_PROVIDER := "anthropic"
  const GEMINI_MODEL := "gemini-1.5-flash"
  const GEMINI_ACK := "Understood. I will follow these instructions."
  const COST_PER_MILLION_TOKENS: real := 0.5

  /** The phrase the chat route looks for to classify an error as a key
      problem; each credential message below contains it. */
  const API_KEY_PHRASE := "API key"
  const TRIAL_KEY_MISSING := "Trial mode is enabled but Relativit " + API_KEY_PHRASE + " is not configured"
  const KEY_NOT_CONFIGURED := API_KEY_PHRASE + " not configured"
  const CREDITS_EXHAUSTED := "Trial credits exhausted. Please add your own " + API_KEY_PHRASE + " to continue."
  /** The TypeError `response.match` raises when no provider branch ran. */
  const NO_RESPONSE := "Cannot read properties of undefined (reading 'match')"

  /** The string a provider renders as in `Unknown provider: ${provider}`. */
  function ProviderText(provider: Option<string>): string {
    if provider.Some? then provider.value else "null"
  }

  function UnknownProvider(provider: Option<string>): string {
    "Unknown provider: " + ProviderText(provider)
  }

  // ------------------------------------------------ credential lookup

  datatype Credential = Credential(provider: Option<string>, apiKey: string, isTrialMode: bool)

  /** The user runs on the operator's key: trial mode is on and the balance
      is positive. */
  predicate OnTrial(db: Db, userId: UserId) {
    userId < |db.users| && db.users[userId].useTrialMode && db.users[userId].trialCredits > 0.0
  }

  /** `getApiKey(userId)`. */
  function GetApiKey(db: Db, p: Primitives, env: Env, userId: UserId): (r: Result<Credential>)
    ensures OnTrial(db, userId) ==>
      if Truthy(env.operatorApiKey)
      then r == Success(Credential(OrElse(env.operatorApiProvider, Some(DEFAULT_PROVIDER)), env.operatorApiKey.value, true))
      else r == Failure(TRIAL_KEY_MISSING)
    ensures !OnTrial(db, userId) && (userId >= |db.users| || !Truthy(db.users[userId].apiKeyEncrypted)
                                     || !Truthy(db.users[userId].apiKeyIv)) ==>
      r == Failure(KEY_NOT_CONFIGURED)
    ensures r.Success? ==> (r.value.isTrialMode <==> OnTrial(db, userId))
    ensures r.Success? && !r.value.isTrialMode ==>
      && r.value.provider == db.users[userId].apiProvider
      && Decrypt(p, db.users[userId].apiKeyEncrypted.value, db.users[userId].apiKeyIv.value, env.encryptionKey)
         == Success(r.value.apiKey)
  {
    if OnTrial(db, userId) then
      if !Truthy(env.operatorApiKey) then Failure(TRIAL_KEY_MISSING)
      else Success(Credential(OrElse(env.operatorApiProvider, Some(DEFAULT_PROVIDER)), env.operatorApiKey.value, true))
    else if userId >= |db.users| then Failure(KEY_NOT_CONFIGURED)
    else
      var u := db.users[userId];
      if !Truthy(u.apiKeyEncrypted) || !Truthy(u.apiKeyIv) then Failure(KEY_NOT_CONFIGURED)
      else
        var key :- Decrypt(p, u.apiKeyEncrypted.value, u.apiKeyIv.value, env.encryptionKey);
        Success(Credential(u.apiProvider, key, false))
  }

  /** A key the vault accepted is the key later requests run under, as long
      as the user is not on a positive trial balance. */
  lemma SavedKeyIsUsed(db: Db, p: Primitives, env: Env, userId: UserId, provider: string, apiKey: string, iv: Bytes)
    requires Sound(p) && |iv| == IV_LENGTH
    requires SaveApiKey(db, p, env, userId, provider, apiKey, iv).result.Success?
    ensures var db' := SaveApiKey(db, p, env, userId, provider, apiKey, iv).db;
      !OnTrial(db', userId) ==> GetApiKey(db', p, env, userId) == Success(Credential(Some(provider), apiKey, false))
  {
    var db' := SaveApiKey(db, p, env, userId, provider, apiKey, iv).db;
    SavedKeyDecrypts(db, p, env, userId, provider, apiKey, iv);
    var u := db'.users[userId];
    var sealed := Encrypt(p, apiKey, env.encryptionKey, iv).value;
    assert u.apiKeyEncrypted == Some(sealed.encrypted) && u.apiKeyIv == Some(sealed.iv);
    assert |sealed.iv| == 2 * IV_LENGTH;
  }

  /** Once the key is removed, a user off trial has no credential. */
  lemma RemovedKeyIsGone(db: Db, p: Primitives, env: Env, userId: UserId)
    requires RemoveApiKey(db, userId).result.Success?
    ensures var db' := RemoveApiKey(db, userId).db;
      !OnTrial(db', userId) ==> GetApiKey(db', p, env, userId) == Failure(KEY_NOT_CONFIGURED)
  {
  }

  // --------------------------------------------------------- messages

  datatype Message = Message(role: string, content: string)

  predicate IsAssistantRole(role: string) {
    role == "ai" || role == "assistant"
  }

  /** The role mapping `chat` applies before calling a provider. */
  function NormalizeRoles(messages: seq<Message>): (r: seq<Message>)
    ensures |r| == |messages|
    ensures forall i :: 0 <= i < |messages| ==>
      && r[i].content == messages[i].content
      && (IsAssistantRole(messages[i].role) ==> r[i].role == "assistant")
      && (!IsAssistantRole(messages[i].role) ==> r[i].role == messages[i].role)
  {
    if |messages| == 0 then []
    else
      var m := messages[0];
      [Message(if IsAssistantRole(m.role) then "assistant" else m.role, m.content)] + NormalizeRoles(messages[1..])
  }

  /** Normalising twice is normalising once. */
  lemma NormalizeRolesIdempotent(messages: seq<Message>)
    ensures NormalizeRoles(NormalizeRoles(messages)) == NormalizeRoles(messages)
  {
    var once := NormalizeRoles(messages);
    var twice := NormalizeRoles(once);
    assert forall i :: 0 <= i < |once| ==> twice[i] == once[i];
  }

  /** One entry of a Gemini `contents` array. */
  datatype Content = Content(role: string, text: string)

  function GeminiRole(role: string): string {
    if role == "assistant" then "model" else "user"
  }

  /** The `contents` `callGemini` sends: the system prompt as a user turn,
      the fixed acknowledgement as a model turn, then the conversation with
      'assistant' renamed 'model' and every other role sent as 'user'.
      `systemPrompt` is `options.systemPrompt || SYSTEM_PROMPT`, never
      empty, so the framing is always added. */
  function GeminiContents(messages: seq<Message>, systemPrompt: string): (r: seq<Content>)
    ensures |r| == |messages| + 2
    ensures r[0] == Content("user", systemPrompt) && r[1] == Content("model", GEMINI_ACK)
    ensures forall i :: 0 <= i < |messages| ==>
      && r[i + 2].text == messages[i].content
      && (r[i + 2].role == "model" <==> messages[i].role == "assistant")
      && (r[i + 2].role == "user" <==> messages[i].role != "assistant")
  {
    [Content("user", systemPrompt), Content("model", GEMINI_ACK)] + GeminiTurns(messages)
  }

  function GeminiTurns(messages: seq<Message>): (r: seq<Content>)
    ensures |r| == |messages|
    ensures forall i :: 0 <= i < |messages| ==>
      r[i] == Content(GeminiRole(messages[i].role), messages[i].content)
  {
    if |messages| == 0 then []
    else [Content(GeminiRole(messages[0].role), messages[0].content)] + GeminiTurns(messages[1..])
  }

  /** After `chat`'s normalisation, Gemini sees both 'ai' and 'assistant'
      turns as model turns. */
  lemma ChatRolesReachGemini(messages: seq<Message>, systemPrompt: string)
    ensures var r := GeminiContents(NormalizeRoles(messages), systemPrompt);
      forall i :: 0 <= i < |messages| ==> (r[i + 2].role == "model" <==> IsAssistantRole(messages[i].role))
  {
  }

  // --------------------------------------------------- provider replies

  /** What a provider call yielded: the reply text, the model it names and
      the token count it reports (`None` when the count is missing or not a
      number), or the message of the error it raised. */
  datatype Reply = Reply(text: string, model: string, tokens: Option<nat>)
  datatype Outcome = Answered(reply: Reply) | Errored(message: string)

  predicate KnownAiProvider(provider: Option<string>) {
    provider == Some("anthropic") || provider == Some("openai") || provider == Some("gemini")
  }

  /** `tokens ? (tokens / 1000000) * 0.5 : 0`, in exact arithmetic. */
  function Cost(tokens: Option<nat>): (c: real)
    ensures c >= 0.0
    ensures c == 0.0 <==> tokens.None? || tokens.value == 0
    ensures tokens.Some? ==> c * 2000000.0 == tokens.value as real
  {
    if tokens.None? || tokens.value == 0 then 0.0
    else (tokens.value as real / 1000000.0) * COST_PER_MILLION_TOKENS
  }

  // ----------------------------------------------------------- logging

  /** `logUsage(...)`: appends one record when the write succeeds
      (`logOk`); a failed write is swallowed. `tokens || 0` and
      `cost || null` are applied here. */
  function LogUsage(db: Db, logOk: bool, userId: UserId, provider: Option<string>, model: string,
                    endpoint: string, tokens: Option<nat>, duration: nat, success: bool,
                    cost: CostCell, error: Option<string>): (r: Db)
    ensures r.users == db.users && r.tokens == db.tokens && r.codes == db.codes && r.audit == db.audit
    ensures !logOk ==> r == db
    ensures logOk ==> |r.usage| == |db.usage| + 1 && r.usage[..|db.usage|] == db.usage
    ensures logOk ==>
      var rec := r.usage[|db.usage|];
      && rec.userId == userId && rec.endpoint == endpoint && rec.success == success && rec.error == error
      && rec.tokens == (if tokens.Some? then tokens.value else 0)
      && (rec.cost == NoCost <==> !TruthyCost(cost))
      && rec.provider == provider && rec.model == model && rec.duration == duration
      && (TruthyCost(cost) ==> rec.cost == cost)
  {
    if !logOk then db
    else
      var rec := UsageRecord(userId, provider, model, endpoint, if tokens.Some? then tokens.value else 0,
                             if TruthyCost(cost) then cost else NoCost, duration, success, error);
      db.(usage := db.usage + [rec])
  }

  /** JavaScript truthiness of the value handed in the cost slot. */
  predicate TruthyCost(c: CostCell) {
    match c
    case NoCost => false
    case Amount(a) => a != 0.0
    case Text(t) => |t| > 0
  }

  // -------------------------------------------------------------- chat

  datatype ChatReply = ChatReply(response: string, model: string, tokens: Option<nat>, isTrialMode: bool)

  /** The model a reply is recorded under: Gemini's is fixed. */
  function ReplyModel(provider: Option<string>, reply: Reply): string {
    if provider == Some("gemini") then GEMINI_MODEL else reply.model
  }

  /** A credential was found and, when it is the operator's, the re-read
      balance is positive: the provider is called. */
  predicate GatePassed(db: Db, p: Primitives, env: Env, userId: UserId, observed: Option<real>) {
    && GetApiKey(db, p, env, userId).Success?
    && (GetApiKey(db, p, env, userId).value.isTrialMode ==> observed.Some? && observed.value > 0.0)
  }

  /** `model || 'unknown'`. */
  function OrUnknown(model: string): (m: string)
    ensures |m| > 0
    ensures |model| > 0 ==> m == model
  {
    if |model| > 0 then model else "unknown"
  }

  /** `chat(userId, messages)`. `observed` is the balance the trial gate
      re-reads (`None` when the user is gone), `outcome` what the provider
      call yielded, `duration` the elapsed milliseconds and `logOk`
      whether the usage write succeeds. */
  function Chat(db: Db, p: Primitives, env: Env, userId: UserId, messages: seq<Message>,
                observed: Option<real>, outcome: Outcome, duration: nat, logOk: bool): (r: Step<ChatReply>)
    // credential failures and the trial gate happen before anything is written
    ensures GetApiKey(db, p, env, userId).Failure? ==>
      r == Step(db, Failure(GetApiKey(db, p, env, userId).error))
    ensures GetApiKey(db, p, env, userId).Success? && GetApiKey(db, p, env, userId).value.isTrialMode
            && (observed.None? || observed.value <= 0.0) ==>
      r == Step(db, Failure(CREDITS_EXHAUSTED))
    // the only user change is the trial debit, by exactly the cost, unclamped
    ensures r.db.tokens == db.tokens && r.db.codes == db.codes && r.db.audit == db.audit
    ensures |r.db.users| == |db.users|
    ensures forall i :: 0 <= i < |db.users| && (i != userId || !r.result.Success? || !r.result.value.isTrialMode) ==>
      r.db.users[i] == db.users[i]
    ensures r.result.Success? && r.result.value.isTrialMode ==>
      && OnTrial(db, userId) && userId < |r.db.users|
      && r.db.users[userId] == db.users[userId].(trialCredits := db.users[userId].trialCredits - Cost(r.result.value.tokens))
    // exactly one usage record once the gate is passed, on success or failure
    ensures r.db.usage == db.usage || (logOk && |r.db.usage| == |db.usage| + 1 && r.db.usage[..|db.usage|] == db.usage)
    ensures r.db.usage != db.usage ==> r.db.usage[|db.usage|].success == r.result.Success?
    // a failed call records its message in the cost column, not the error column
    ensures r.result.Failure? && r.db.usage != db.usage ==>
      var rec := r.db.usage[|db.usage|];
      && rec.model == "unknown" && rec.tokens == 0 && rec.error.None?
      && rec.cost == (if |r.result.error| > 0 then Text(r.result.error) else NoCost)
    ensures r.result.Success? ==>
      && KnownAiProvider(GetApiKey(db, p, env, userId).value.provider)
      && outcome.Answered?
      && r.result.value.response == outcome.reply.text
      && r.result.value.tokens == outcome.reply.tokens
      && r.result.value.isTrialMode == GetApiKey(db, p, env, userId).value.isTrialMode
    // past the gate, the provider decides: its answer, its error, or no branch at all
    ensures GatePassed(db, p, env, userId, observed) && KnownAiProvider(GetApiKey(db, p, env, userId).value.provider)
            && outcome.Answered? ==>
      r.result == Success(ChatReply(outcome.reply.text,
                                    ReplyModel(GetApiKey(db, p, env, userId).value.provider, outcome.reply),
                                    outcome.reply.tokens, GetApiKey(db, p, env, userId).value.isTrialMode))
    ensures GatePassed(db, p, env, userId, observed) && KnownAiProvider(GetApiKey(db, p, env, userId).value.provider)
            && outcome.Errored? ==>
      r.result == Failure(outcome.message)
    ensures GatePassed(db, p, env, userId, observed) && !KnownAiProvider(GetApiKey(db, p, env, userId).value.provider) ==>
      r.result == Failure(UnknownProvider(GetApiKey(db, p, env, userId).value.provider))
  {
    match GetApiKey(db, p, env, userId)
    case Failure(e) => Step(db, Failure(e))
    case Success(cred) =>
      if cred.isTrialMode && (observed.None? || observed.value <= 0.0) then Step(db, Failure(CREDITS_EXHAUSTED))
      else CallForChat(db, cred, userId, outcome, duration, logOk)
  }

  /** The part of `chat` after the gate: the provider branch, the trial
      debit and the usage record, for credential `cred`. */
  function CallForChat(db: Db, cred: Credential, userId: UserId, outcome: Outcome, duration: nat,
                       logOk: bool): (r: Step<ChatReply>)
    requires cred.isTrialMode ==> userId < |db.users|
    ensures r.db.tokens == db.tokens && r.db.codes == db.codes && r.db.audit == db.audit
    ensures |r.db.users| == |db.users|
    ensures forall i :: 0 <= i < |db.users| && (i != userId || !r.result.Success? || !cred.isTrialMode) ==>
      r.db.users[i] == db.users[i]
    ensures r.result.Success? && cred.isTrialMode ==>
      r.db.users[userId] == db.users[userId].(trialCredits := db.users[userId].trialCredits - Cost(r.result.value.tokens))
    ensures r.db.usage == db.usage || (logOk && |r.db.usage| == |db.usage| + 1 && r.db.usage[..|db.usage|] == db.usage)
    ensures logOk ==> r.db.usage != db.usage
    ensures r.db.usage != db.usage ==> r.db.usage[|db.usage|].success == r.result.Success?
    ensures r.result.Failure? && r.db.usage != db.usage ==>
      var rec := r.db.usage[|db.usage|];
      && rec.model == "unknown" && rec.tokens == 0 && rec.error.None?
      && rec.cost == (if |r.result.error| > 0 then Text(r.result.error) else NoCost)
    ensures KnownAiProvider(cred.provider) && outcome.Answered? ==>
      r.result == Success(ChatReply(outcome.reply.text, ReplyModel(cred.provider, outcome.reply),
                                    outcome.reply.tokens, cred.isTrialMode))
    ensures KnownAiProvider(cred.provider) && outcome.Errored? ==> r.result == Failure(outcome.message)
    ensures !KnownAiProvider(cred.provider) ==> r.result == Failure(UnknownProvider(cred.provider))
  {
    var failure :=
      if !KnownAiProvider(cred.provider) then Some(UnknownProvider(cred.provider))
      else if outcome.Errored? then Some(outcome.message)
      else None;
    if failure.Some? then
      var msg := failure.value;
      var logged := LogUsage(db, logOk, userId, cred.provider, "unknown", "chat", Some(0), duration, false,
                             Text(msg), None);
      Step(logged, Failure(msg))
    else
      var reply := outcome.reply;
      var model := ReplyModel(cred.provider, reply);
      var cost := Cost(reply.tokens);
      var debited :=
        if cred.isTrialMode
        then db.(users := db.users[userId := db.users[userId].(trialCredits := db.users[userId].trialCredits - cost)])
        else db;
      var logged := LogUsage(debited, logOk, userId, cred.provider, model, "chat", reply.tokens, duration, true,
                             Amount(cost), None);
      Step(logged, Success(ChatReply(reply.text, model, reply.tokens, cred.isTrialMode)))
  }

  /** Usage logging is best-effort: whether the write succeeds changes
      neither the answer nor the user records. */
  lemma ChatLoggingIsBestEffort(db: Db, p: Primitives, env: Env, userId: UserId, messages: seq<Message>,
                                observed: Option<real>, outcome: Outcome, duration: nat)
    ensures var a := Chat(db, p, env, userId, messages, observed, outcome, duration, true);
      var b := Chat(db, p, env, userId, messages, observed, outcome, duration, false);
      a.result == b.result && a.db.users == b.db.users && b.db.usage == db.usage
  {
  }

  /** Once the gate is passed and logging works, every call writes exactly
      one usage record. */
  lemma ChatLogsOnce(db: Db, p: Primitives, env: Env, userId: UserId, messages: seq<Message>,
                     observed: Option<real>, outcome: Outcome, duration: nat)
    requires GetApiKey(db, p, env, userId).Success?
    requires GetApiKey(db, p, env, userId).value.isTrialMode ==> observed.Some? && observed.value > 0.0
    ensures |Chat(db, p, env, userId, messages, observed, outcome, duration, true).db.usage| == |db.usage| + 1
  {
  }

  /** Run sequentially, the re-read balance is the stored one, and the
      credential lookup already required it to be positive: the call goes
      exactly as it would with any positive reading, so the gate never
      fires. */
  lemma SequentialGateNeverFires(db: Db, p: Primitives, env: Env, userId: UserId, messages: seq<Message>,
                                 outcome: Outcome, duration: nat, logOk: bool, positive: real)
    requires userId < |db.users| && positive > 0.0
    ensures Chat(db, p, env, userId, messages, Some(db.users[userId].trialCredits), outcome, duration, logOk)
         == Chat(db, p, env, userId, messages, Some(positive), outcome, duration, logOk)
  {
    var cred := GetApiKey(db, p, env, userId);
    if cred.Success? && cred.value.isTrialMode {
      assert OnTrial(db, userId);
    }
  }

  /** The debit is not clamped: a balance smaller than one call's cost ends
      below zero. */
  lemma DebitCanOverdraw(p: Primitives, outcome: Outcome)
    requires outcome == Answered(Reply("ok", "claude", Some(1000000)))
    ensures var u := User("a@b.c", "Ann", None, "h", true, None, None, None, None, true, 0.25, None, 0, None);
      var db := Db([u], [], map[], [], []);
      var env := Env(None, None, None, Some("sk"), None);
      var r := Chat(db, p, env, 0, [Message("user", "hi")], Some(0.25), outcome, 0, true);
      r.result.Success? && r.db.users[0].trialCredits == -0.25
  {
    var u := User("a@b.c", "Ann", None, "h", true, None, None, None, None, true, 0.25, None, 0, None);
    var db := Db([u], [], map[], [], []);
    var env := Env(None, None, None, Some("sk"), None);
    assert OnTrial(db, 0);
    assert GetApiKey(db, p, env, 0) == Success(Credential(Some(DEFAULT_PROVIDER), "sk", true));
    assert Cost(Some(1000000)) == 0.5;
  }

  // ---------------------------------------------------- issue extraction

  /** Index of the first occurrence of `c` in `s`, if any. */
  function FirstIndex(s: string, c: char): (r: Option<nat>)
    ensures r.Some? ==> r.value < |s| && s[r.value] == c
    ensures r.Some? ==> forall i :: 0 <= i < r.value ==> s[i] != c
    ensures r.None? <==> c !in s
  {
    if |s| == 0 then None
    else if s[0] == c then Some(0)
    else match FirstIndex(s[1..], c)
      case None => None
      case Some(k) => Some(k + 1)
  }

  /** Index of the last occurrence of `c` in `s`, if any. */
  function LastIndex(s: string, c: char): (r: Option<nat>)
    ensures r.Some? ==> r.value < |s| && s[r.value] == c
    ensures r.Some? ==> forall i :: r.value < i < |s| ==> s[i] != c
    ensures r.None? <==> c !in s
  {
    if |s| == 0 then None
    else if s[|s| - 1] == c then Some(|s| - 1)
    else LastIndex(s[..|s| - 1], c)
  }

  lemma FirstIndexAt(s: string, c: char, i: nat)
    requires i < |s| && s[i] == c && forall k :: 0 <= k < i ==> s[k] != c
    ensures FirstIndex(s, c) == Some(i)
  {
    assert c in s;
  }

  lemma LastIndexAt(s: string, c: char, j: nat)
    requires j < |s| && s[j] == c && forall k :: j < k < |s| ==> s[k] != c
    ensures LastIndex(s, c) == Some(j)
  {
    assert c in s;
  }

  /** `s` has an opening brace somewhere before a closing one. */
  predicate HasBracePair(s: string) {
    exists i, j :: 0 <= i < j < |s| && s[i] == '{' && s[j] == '}'
  }

  /** The match of the greedy `/\{[\s\S]*\}/`: from the first '{' to the
      last '}' after it, not a balanced block. */
  function JsonSpan(s: string): (r: Option<string>)
    ensures r.None? <==> !HasBracePair(s)
    ensures r.Some? ==>
      exists i, j :: 0 <= i < j < |s| && r.value == s[i..j + 1] && SpanBounds(s, i, j)
  {
    match (FirstIndex(s, '{'), LastIndex(s, '}'))
    case (Some(i), Some(j)) =>
      if i < j then
        assert SpanBounds(s, i, j);
        Some(s[i..j + 1])
      else
        assert !HasBracePair(s) by {
          forall a, b | 0 <= a < b < |s| && s[a] == '{' ensures s[b] != '}' {
            assert i <= a;
          }
        }
        None
    case _ => None
  }

  /** `s[i]` is the first '{' and `s[j]` the last '}'. */
  predicate SpanBounds(s: string, i: nat, j: nat)
    requires i < j < |s|
  {
    && s[i] == '{' && s[j] == '}'
    && (forall k :: 0 <= k < i ==> s[k] != '{')
    && (forall k :: j < k < |s| ==> s[k] != '}')
  }

  /** The span keeps everything between the outermost braces, balanced or
      not: two objects in one reply, or stray braces inside, are taken
      together. */
  lemma JsonSpanIsGreedy(before: string, inner: string, after: string)
    requires '{' !in before && '}' !in after
    ensures JsonSpan(before + "{" + inner + "}" + after) == Some("{" + inner + "}")
  {
    var s := before + "{" + inner + "}" + after;
    var i := |before|;
    var j := |before| + 1 + |inner|;
    assert s[..i] == before;
    assert s[j + 1..] == after;
    assert s[i..j + 1] == "{" + inner + "}";
    forall k | 0 <= k < i
      ensures s[k] != '{'
    {
      assert s[k] == s[..i][k];
    }
    forall k | j < k < |s|
      ensures s[k] != '}'
    {
      assert s[k] == s[j + 1..][k - j - 1];
    }
    SpanOf(s, i, j);
  }

  /** The span runs from the first '{' to the last '}'. */
  lemma SpanOf(s: string, i: nat, j: nat)
    requires i < j < |s| && SpanBounds(s, i, j)
    ensures JsonSpan(s) == Some(s[i..j + 1])
  {
    FirstIndexAt(s, '{', i);
    LastIndexAt(s, '}', j);
  }

  /** The outcome of `JSON.parse`: a tree, or the SyntaxError's message. */
  type Parser = string -> Result<Node>

  /** `extractIssues(userId, messages, currentTree)`. Only the credential
      lookup can throw; every later failure falls back to `currentTree`. */
  function ExtractIssues(db: Db, p: Primitives, env: Env, userId: UserId, currentTree: Node,
                         observed: Option<real>, outcome: Outcome, parse: Parser,
                         duration: nat, logOk: bool): (r: Step<Node>)
    ensures r.db.users == db.users && r.db.tokens == db.tokens && r.db.codes == db.codes && r.db.audit == db.audit
    ensures GetApiKey(db, p, env, userId).Failure? <==> r.result.Failure?
    ensures r.result.Failure? ==> r == Step(db, Failure(GetApiKey(db, p, env, userId).error))
    ensures r.result.Success? && r.result.value != currentTree ==>
      && KnownAiProvider(GetApiKey(db, p, env, userId).value.provider)
      && outcome.Answered? && JsonSpan(outcome.reply.text).Some?
      && parse(JsonSpan(outcome.reply.text).value) == Success(r.result.value)
    ensures GetApiKey(db, p, env, userId).Success? && GetApiKey(db, p, env, userId).value.isTrialMode
            && (observed.None? || observed.value <= 0.0) ==>
      r == Step(db, Success(currentTree))
    ensures GetApiKey(db, p, env, userId).Success? && KnownAiProvider(GetApiKey(db, p, env, userId).value.provider)
            && outcome.Answered? && !HasBracePair(outcome.reply.text) ==>
      r == Step(db, Success(currentTree))
    ensures r.db.usage == db.usage || (logOk && |r.db.usage| == |db.usage| + 1 && r.db.usage[..|db.usage|] == db.usage)
    ensures r.db.usage != db.usage ==> r.db.usage[|db.usage|].cost == NoCost
    // a reply whose outermost braces parse replaces the tree; one that does not parse keeps it
    ensures GatePassed(db, p, env, userId, observed) && KnownAiProvider(GetApiKey(db, p, env, userId).value.provider)
            && outcome.Answered? && JsonSpan(outcome.reply.text).Some? ==>
      if parse(JsonSpan(outcome.reply.text).value).Success?
      then r.result == Success(parse(JsonSpan(outcome.reply.text).value).value)
      else r.result == Success(currentTree)
    ensures GatePassed(db, p, env, userId, observed) && (!KnownAiProvider(GetApiKey(db, p, env, userId).value.provider)
                                                         || outcome.Errored?) ==>
      r.result == Success(currentTree)
  {
    match GetApiKey(db, p, env, userId)
    case Failure(e) => Step(db, Failure(e))
    case Success(cred) =>
      if cred.isTrialMode && (observed.None? || observed.value <= 0.0) then Step(db, Success(currentTree))
      else
        var failure :=
          if !KnownAiProvider(cred.provider) then Some(NO_RESPONSE)
          else if outcome.Errored? then Some(outcome.message)
          else None;
        if failure.Some? then
          Step(LogUsage(db, logOk, userId, cred.provider, "unknown", "extract_issues", Some(0), duration, false,
                        NoCost, Some(failure.value)),
               Success(currentTree))
        else
          var model := ReplyModel(cred.provider, outcome.reply);
          match JsonSpan(outcome.reply.text)
          case None => Step(db, Success(currentTree))
          case Some(span) =>
            match parse(span)
            case Failure(e) =>
              Step(LogUsage(db, logOk, userId, cred.provider, OrUnknown(model), "extract_issues", Some(0), duration, false,
                            NoCost, Some(e)),
                   Success(currentTree))
            case Success(tree) =>
              Step(LogUsage(db, logOk, userId, cred.provider, OrUnknown(model), "extract_issues", Some(0), duration, true,
                            NoCost, None),
                   Success(tree))
  }

  // -------------------------------------------------------- validation

  /** What `validateApiKey` returns. It never sets `warning` or
      `isQuotaError`. */
  datatype Validation = Validation(valid: bool, error: Option<string>, warning: bool, isQuotaError: bool)

  /** `validateApiKey(provider, apiKey)`, with `outcome` the result of the
      one test message sent to a known provider. */
  function ValidateApiKey(provider: string, outcome: Outcome): (v: Validation)
    ensures v.valid <==> KnownProvider(provider) && outcome.Answered?
    ensures !v.warning && !v.isQuotaError
    ensures !KnownProvider(provider) ==> v.error == Some(UnknownProvider(Some(provider)))
    ensures KnownProvider(provider) && outcome.Errored? ==> v.error == Some(outcome.message)
    ensures v.valid ==> v.error.None?
  {
    if !KnownProvider(provider) then Validation(false, Some(UnknownProvider(Some(provider))), false, false)
    else if outcome.Errored? then Validation(false, Some(outcome.message), false, false)
    else Validation(true, None, false, false)
  }
}

=== FILE: auth_routes.dfy ===
/** `auth.routes.js`: request validation for the authentication endpoints
    and the mapping of service errors to HTTP statuses. Each handler
    returns the database after the call and the response it sends. */
module AuthRoutes {
  import opened Base
  import opened Encryption
  import opened Store
  import opened AuthService
  import opened Http
  import opened AuthMiddleware

  const DEFAULT_CODE_KIND := "login"
  const EMAIL_REQUIRED := "Valid email is required"
  const SEND_FAILED := "Failed to send verification code"
  const EMAIL_AND_CODE_REQUIRED := "Email and code are required"
  const REGISTRATION_FIELDS_REQUIRED := "Email, name, and password are required"
  const NAME_TOO_SHORT := "Name must be at least 2 characters"
  const LOGIN_FIELDS_REQUIRED := "Email and password are required"
  const REFRESH_TOKEN_REQUIRED := "Refresh token is required"
  const REFRESH_FAILED := "REFRESH_FAILED"
  const PASSWORDS_REQUIRED := "Current and new passwords are required"
  const MIN_NAME_LENGTH: nat := 2

  datatype CodeSent = CodeSent(userExists: bool)

  /** `email && email.includes('@')`. */
  predicate PlausibleEmail(email: Option<string>) {
    Truthy(email) && Contains(email.value, "@")
  }

  /** POST /request-code. `kind` is the body's `type`, 'login' when absent. */
  function RequestCodeRoute(db: Db, env: Env, email: Option<string>, kind: Option<string>, random: real,
                            mailError: Option<string>, now: nat): (h: Handled<CodeSent>)
    requires 0.0 <= random < 1.0
    ensures !PlausibleEmail(email) ==> h == Handled(db, Error(400, EMAIL_REQUIRED))
    ensures PlausibleEmail(email) ==>
      var s := RequestVerificationCode(db, env, email.value, if kind.Some? then kind.value else DEFAULT_CODE_KIND,
                                       random, mailError, now);
      && h.db == s.db
      && (s.result.Failure? ==> h.response == Error(500, SEND_FAILED))
      && (s.result.Success? ==> h.response == Ok(CodeSent(s.result.value.userExists)))
  {
    if !PlausibleEmail(email) then Handled(db, Error(400, EMAIL_REQUIRED))
    else
      var s := RequestVerificationCode(db, env, email.value, if kind.Some? then kind.value else DEFAULT_CODE_KIND,
                                       random, mailError, now);
      if s.result.Failure? then Handled(s.db, Error(500, SEND_FAILED))
      else Handled(s.db, Ok(CodeSent(s.result.value.userExists)))
  }

  /** An address without '@' never reaches the code store. */
  lemma RequestCodeNeedsAt(db: Db, env: Env, email: string, kind: Option<string>, random: real,
                           mailError: Option<string>, now: nat)
    requires 0.0 <= random < 1.0
    requires '@' !in email
    ensures RequestCodeRoute(db, env, Some(email), kind, random, mailError, now) == Handled(db, Error(400, EMAIL_REQUIRED))
  {
    forall i | 0 <= i <= |email| - 1
      ensures !OccursAt(email, "@", i)
    {
      assert email[i..i + 1][0] == email[i];
    }
  }

  /** POST /verify-code. */
  function VerifyCodeRoute(db: Db, req: Request, email: Option<string>, code: Option<string>, now: nat,
                           entropy: Bytes): (h: Handled<Verified>)
    requires |entropy| == REFRESH_TOKEN_BYTES
    ensures !Truthy(email) || !Truthy(code) ==> h == Handled(db, Error(400, EMAIL_AND_CODE_REQUIRED))
    ensures Truthy(email) && Truthy(code) ==>
      var s := VerifyCode(db, email.value, code.value, now, entropy, ClientIp(req), UserAgent(req));
      && h.db == s.db
      && (s.result.Failure? ==> h.response == Error(400, s.result.error))
      && (s.result.Success? ==> h.response == Ok(s.result.value))
  {
    if !Truthy(email) || !Truthy(code) then Handled(db, Error(400, EMAIL_AND_CODE_REQUIRED))
    else
      var s := VerifyCode(db, email.value, code.value, now, entropy, ClientIp(req), UserAgent(req));
      match s.result
      case Failure(e) => Handled(s.db, Error(400, e))
      case Success(v) => Handled(s.db, Ok(v))
  }

  /** POST /register. */
  function RegisterRoute(db: Db, p: Primitives, req: Request, email: Option<string>, name: Option<string>,
                         password: Option<string>, now: nat, salt: Bytes, entropy: Bytes): (h: Handled<Session>)
    requires |entropy| == REFRESH_TOKEN_BYTES
    ensures !Truthy(email) || !Truthy(name) || !Truthy(password) ==>
      h == Handled(db, Error(400, REGISTRATION_FIELDS_REQUIRED))
    ensures Truthy(email) && Truthy(name) && Truthy(password) && Utf16Length(Trim(name.value)) < MIN_NAME_LENGTH ==>
      h == Handled(db, Error(400, NAME_TOO_SHORT))
    ensures Truthy(email) && Truthy(name) && Truthy(password) && Utf16Length(Trim(name.value)) >= MIN_NAME_LENGTH ==>
      var s := Register(db, p, email.value, name.value, password.value, now, salt, entropy, ClientIp(req), UserAgent(req));
      && h.db == s.db
      && (s.result.Failure? ==> h.response == Error(400, s.result.error))
      && (s.result.Success? ==> h.response == Ok(s.result.value))
  {
    if !Truthy(email) || !Truthy(name) || !Truthy(password) then Handled(db, Error(400, REGISTRATION_FIELDS_REQUIRED))
    else if Utf16Length(Trim(name.value)) < MIN_NAME_LENGTH then Handled(db, Error(400, NAME_TOO_SHORT))
    else
      var s := Register(db, p, email.value, name.value, password.value, now, salt, entropy, ClientIp(req), UserAgent(req));
      match s.result
      case Failure(e) => Handled(s.db, Error(400, e))
      case Success(v) => Handled(s.db, Ok(v))
  }

  /** Every account the route creates has a name of at least two UTF-16
      code units once trimmed, which is the name it stores. */
  lemma RegisteredNameIsLongEnough(db: Db, p: Primitives, req: Request, email: Option<string>, name: Option<string>,
                                   password: Option<string>, now: nat, salt: Bytes, entropy: Bytes)
    requires |entropy| == REFRESH_TOKEN_BYTES
    requires RegisterRoute(db, p, req, email, name, password, now, salt, entropy).response.Ok?
    ensures var h := RegisterRoute(db, p, req, email, name, password, now, salt, entropy);
      |h.db.users| == |db.users| + 1 && Utf16Length(h.db.users[|db.users|].name) >= MIN_NAME_LENGTH
  {
    var s := Register(db, p, email.value, name.value, password.value, now, salt, entropy, ClientIp(req), UserAgent(req));
    assert s.result.Success?;
    RegisteredUsers(db, p, email.value, name.value, password.value, now, salt, entropy, ClientIp(req), UserAgent(req));
    var user := NewAccount(p, NormalizeEmail(email.value), name.value, password.value, salt, now);
    assert s.db.users[|db.users|] == user;
  }

  /** POST /login: every service failure is a 401. */
  function LoginRoute(db: Db, p: Primitives, req: Request, email: Option<string>, password: Option<string>,
                      now: nat, entropy: Bytes): (h: Handled<Session>)
    requires |entropy| == REFRESH_TOKEN_BYTES
    ensures !Truthy(email) || !Truthy(password) ==> h == Handled(db, Error(400, LOGIN_FIELDS_REQUIRED))
    ensures Truthy(email) && Truthy(password) ==>
      var s := Login(db, p, email.value, password.value, now, entropy, ClientIp(req), UserAgent(req));
      && h.db == s.db
      && (s.result.Failure? ==> h.response == Error(401, s.result.error))
      && (s.result.Success? ==> h.response == Ok(s.result.value))
  {
    if !Truthy(email) || !Truthy(password) then Handled(db, Error(400, LOGIN_FIELDS_REQUIRED))
    else
      var s := Login(db, p, email.value, password.value, now, entropy, ClientIp(req), UserAgent(req));
      match s.result
      case Failure(e) => Handled(s.db, Error(401, e))
      case Success(v) => Handled(s.db, Ok(v))
  }

  /** A wrong password and an unknown address get the same answer, so the
      response does not reveal which addresses are registered. */
  lemma LoginDoesNotRevealAccounts(db: Db, p: Primitives, req: Request, email: string, password: string,
                                   now: nat, entropy: Bytes)
    requires |entropy| == REFRESH_TOKEN_BYTES && |email| > 0 && |password| > 0
    requires LoginRoute(db, p, req, Some(email), Some(password), now, entropy).response.Fail?
    requires GenerateSecureToken(REFRESH_TOKEN_BYTES, entropy) !in db.tokens
    ensures LoginRoute(db, p, req, Some(email), Some(password), now, entropy) == Handled(db, Error(401, INVALID_LOGIN))
  {
  }

  /** POST /refresh: every refresh failure is a 401 tagged REFRESH_FAILED. */
  function RefreshRoute(db: Db, token: Option<string>, now: nat): (h: Handled<Refreshed>)
    requires Valid(db)
    ensures h.db == db
    ensures !Truthy(token) ==> h.response == Error(400, REFRESH_TOKEN_REQUIRED)
    ensures Truthy(token) ==>
      var s := RefreshAccessToken(db, token.value, now);
      && (s.result.Failure? ==> h.response == CodedError(401, s.result.error, REFRESH_FAILED))
      && (s.result.Success? ==> h.response == Ok(s.result.value))
  {
    if !Truthy(token) then Handled(db, Error(400, REFRESH_TOKEN_REQUIRED))
    else
      match RefreshAccessToken(db, token.value, now).result
      case Failure(e) => Handled(db, CodedError(401, e, REFRESH_FAILED))
      case Success(v) => Handled(db, Ok(v))
  }

  /** POST /logout behind `requireAuth`: only the authenticated user's
      token can be revoked. */
  function LogoutRoute(db: Db, req: Request, decode: Decoder, token: Option<string>, now: nat): (h: Handled<()>)
    ensures RequireAuth(req, decode, now).Fail? ==>
      h == Handled(db, Fail(RequireAuth(req, decode, now).status, RequireAuth(req, decode, now).failure))
    ensures RequireAuth(req, decode, now).Ok? ==>
      h == Handled(Logout(db, token, RequireAuth(req, decode, now).body.id, now), Ok(()))
    ensures forall t :: t in db.tokens && (RequireAuth(req, decode, now).Fail? ||
                                          db.tokens[t].userId != RequireAuth(req, decode, now).body.id) ==>
      t in h.db.tokens && h.db.tokens[t] == db.tokens[t]
  {
    match RequireAuth(req, decode, now)
    case Fail(status, body) => Handled(db, Fail(status, body))
    case Ok(claims) => Handled(Logout(db, token, claims.id, now), Ok(()))
  }

  /** POST /logout-all behind `requireAuth`. */
  function LogoutAllRoute(db: Db, req: Request, decode: Decoder, now: nat): (h: Handled<()>)
    ensures RequireAuth(req, decode, now).Fail? ==>
      h == Handled(db, Fail(RequireAuth(req, decode, now).status, RequireAuth(req, decode, now).failure))
    ensures RequireAuth(req, decode, now).Ok? ==>
      h == Handled(LogoutAll(db, RequireAuth(req, decode, now).body.id, now), Ok(()))
    ensures forall t :: t in db.tokens && (RequireAuth(req, decode, now).Fail? ||
                                          db.tokens[t].userId != RequireAuth(req, decode, now).body.id) ==>
      t in h.db.tokens && h.db.tokens[t] == db.tokens[t]
  {
    match RequireAuth(req, decode, now)
    case Fail(status, body) => Handled(db, Fail(status, body))
    case Ok(claims) => Handled(LogoutAll(db, claims.id, now), Ok(()))
  }

  /** PUT /password behind `requireAuth`; service errors become 400. */
  function ChangePasswordRoute(db: Db, p: Primitives, req: Request, decode: Decoder, current: Option<string>,
                               newPassword: Option<string>, now: nat, salt: Bytes): (h: Handled<()>)
    ensures RequireAuth(req, decode, now).Fail? ==>
      h == Handled(db, Fail(RequireAuth(req, decode, now).status, RequireAuth(req, decode, now).failure))
    ensures RequireAuth(req, decode, now).Ok? && (!Truthy(current) || !Truthy(newPassword)) ==>
      h == Handled(db, Error(400, PASSWORDS_REQUIRED))
    ensures RequireAuth(req, decode, now).Ok? && Truthy(current) && Truthy(newPassword) ==>
      var s := ChangePassword(db, p, RequireAuth(req, decode, now).body.id, current.value, newPassword.value, now, salt);
      && h.db == s.db
      && (s.result.Failure? ==> h.response == Error(400, s.result.error))
      && (s.result.Success? ==> h.response == Ok(()))
  {
    match RequireAuth(req, decode, now)
    case Fail(status, body) => Handled(db, Fail(status, body))
    case Ok(claims) =>
      if !Truthy(current) || !Truthy(newPassword) then Handled(db, Error(400, PASSWORDS_REQUIRED))
      else
        var s := ChangePassword(db, p, claims.id, current.value, newPassword.value, now, salt);
        match s.result
        case Failure(e) => Handled(s.db, Error(400, e))
        case Success(_) => Handled(s.db, Ok(()))
  }
}

=== FILE: auth_service.dfy ===
/** The session orchestrator, verification-code store, token service and
    credential vault (`AuthService`). Every operation is a transition of the
    in-memory database. An operation that writes and then throws keeps the
    writes made before the throw, so each returns the new database together
    with its result. Times are milliseconds. */
module AuthService {
  import opened Base
  import opened Encryption
  import opened Store

  const CODE_TTL_MS: nat := 600000                 // 10 minutes
  const REGISTRATION_WINDOW_MS: nat := 900000      // 15 minutes
  const REFRESH_TOKEN_TTL_MS: nat := 2592000000    // 30 days
  const REFRESH_TOKEN_BYTES: nat := 64
  const MIN_PASSWORD_LENGTH: nat := 8
  const TRIAL_GRANT: real := 0.5

  const INVALID_CODE := "Invalid or expired verification code"
  const NOT_VERIFIED := "Email not verified. Please start the signup process again."
  const ALREADY_REGISTERED := "An account with this email already exists"
  const PASSWORD_TOO_SHORT := "Password must be at least 8 characters"
  const INVALID_LOGIN := "Invalid email or password"
  const INVALID_REFRESH := "Invalid refresh token"
  const REFRESH_REVOKED := "Refresh token has been revoked"
  const REFRESH_EXPIRED := "Refresh token has expired"
  const USER_NOT_FOUND := "User not found"
  const WRONG_PASSWORD := "Current password is incorrect"
  const NEW_PASSWORD_TOO_SHORT := "New password must be at least 8 characters"
  const INVALID_PROVIDER := "Invalid provider"
  const RECORD_NOT_FOUND := "Record to update not found."
  const TOKEN_TAKEN := "Unique constraint failed on the fields: (`token`)"

  /** The database after an operation, and what the operation returned or
      threw. */
  datatype Step<+T> = Step(db: Db, result: Result<T>)

  /** The API-key providers `saveApiKey` accepts. */
  predicate KnownProvider(p: string) {
    p == "anthropic" || p == "openai" || p == "gemini"
  }

  // ------------------------------------------------ verification codes

  predicate CodeFor(c: VerificationCode, email: string, kind: string) {
    c.email == email && c.kind == kind
  }

  /** Number of stored codes for the pair (email, kind). */
  function CountCodes(codes: seq<VerificationCode>, email: string, kind: string): nat {
    if |codes| == 0 then 0
    else CountCodes(codes[..|codes| - 1], email, kind)
         + (if CodeFor(codes[|codes| - 1], email, kind) then 1 else 0)
  }

  /** `verificationCode.deleteMany({ where: { email, type } })`: keeps, in
      order, every code of another pair. */
  function DropCodes(codes: seq<VerificationCode>, email: string, kind: string): (r: seq<VerificationCode>)
    ensures forall c :: c in r <==> c in codes && !CodeFor(c, email, kind)
    ensures CountCodes(r, email, kind) == 0
  {
    if |codes| == 0 then []
    else
      var last := codes[|codes| - 1];
      var rest := DropCodes(codes[..|codes| - 1], email, kind);
      assert codes == codes[..|codes| - 1] + [last];
      if CodeFor(last, email, kind) then rest
      else
        assert (rest + [last])[..|rest|] == rest;
        rest + [last]
  }

  /** Appending a code for a pair that has none leaves exactly one. */
  lemma OneCodeAppended(kept: seq<VerificationCode>, created: VerificationCode, email: string, kind: string)
    requires CountCodes(kept, email, kind) == 0 && CodeFor(created, email, kind)
    ensures CountCodes(kept + [created], email, kind) == 1
  {
    assert (kept + [created])[..|kept|] == kept;
  }

  datatype CodeRequested = CodeRequested(userExists: bool, email: string)

  /** `requestVerificationCode(email, type)`. `random` is the
      `Math.random()` draw of the code generator and `mailError` the error
      the mail collaborator reports (`None` when the mail was sent). */
  function RequestVerificationCode(db: Db, env: Env, email: string, kind: string, random: real,
                                   mailError: Option<string>, now: nat): (r: Step<CodeRequested>)
    requires 0.0 <= random < 1.0
    ensures r.db == db.(codes := r.db.codes)
    ensures CountCodes(r.db.codes, NormalizeEmail(email), kind) == 1
    ensures |r.db.codes| > 0 && Issued(r.db.codes[|r.db.codes| - 1], NormalizeEmail(email), kind, env, now)
    ensures forall k :: k in db.codes && !CodeFor(k, NormalizeEmail(email), kind) ==> k in r.db.codes
    ensures forall k :: k in r.db.codes ==>
      k == r.db.codes[|r.db.codes| - 1] || (k in db.codes && !CodeFor(k, NormalizeEmail(email), kind))
    ensures r.result.Failure? <==> mailError.Some? && env.nodeEnv == Some("production")
    ensures r.result.Success? ==>
      r.result.value.email == NormalizeEmail(email)
      && (r.result.value.userExists <==> FindUserByEmail(db.users, NormalizeEmail(email)).Some?)
  {
    var e := NormalizeEmail(email);
    var existing := FindUserByEmail(db.users, e);
    var code := GenerateVerificationCode(env, random);
    var created := VerificationCode(e, existing, code, kind, now + CODE_TTL_MS, None);
    assert Issued(created, e, kind, env, now);
    var kept := DropCodes(db.codes, e, kind);
    var codes := kept + [created];
    OneCodeAppended(kept, created, e, kind);
    var result :=
      if mailError.Some? && env.nodeEnv == Some("production") then
        Failure("Failed to send verification email: " + mailError.value)
      else
        Success(CodeRequested(existing.Some?, e));
    Step(db.(codes := codes), result)
  }

  /** A freshly issued code for the pair: unused, valid for ten minutes,
      six digits, and the fixed demo code in development or demo mode. */
  predicate Issued(c: VerificationCode, email: string, kind: string, env: Env, now: nat) {
    && CodeFor(c, email, kind) && c.usedAt.None? && c.expiresAt == now + CODE_TTL_MS
    && |c.code| == 6 && IsDigits(c.code)
    && (FixedCodeMode(env) ==> c.code == DEMO_CODE)
  }

  /** A code `verifyCode` will accept: same email and value, unused, and
      expiring strictly after `now`. The purpose is not compared. */
  predicate Live(c: VerificationCode, email: string, code: string, now: nat) {
    c.email == email && c.code == code && c.usedAt.None? && c.expiresAt > now
  }

  /** `verificationCode.findFirst(...)` for a live code: the first one. */
  function FindLiveCode(codes: seq<VerificationCode>, email: string, code: string, now: nat, from: nat): (r: Option<nat>)
    requires from <= |codes|
    ensures r.Some? ==> from <= r.value < |codes| && Live(codes[r.value], email, code, now)
    ensures r.None? <==> forall i :: from <= i < |codes| ==> !Live(codes[i], email, code, now)
    decreases |codes| - from
  {
    if from == |codes| then None
    else if Live(codes[from], email, code, now) then Some(from)
    else FindLiveCode(codes, email, code, now, from + 1)
  }

  /** Number of live codes matching (email, code) at `now`. */
  function CountLive(codes: seq<VerificationCode>, email: string, code: string, now: nat): nat {
    if |codes| == 0 then 0
    else CountLive(codes[..|codes| - 1], email, code, now)
         + (if Live(codes[|codes| - 1], email, code, now) then 1 else 0)
  }

  /** Consuming one live code lowers the number of live matches by one. */
  lemma {:induction false} CountLiveAfterUse(codes: seq<VerificationCode>, i: nat, email: string, code: string, now: nat)
    requires i < |codes| && Live(codes[i], email, code, now)
    ensures CountLive(codes[i := codes[i].(usedAt := Some(now))], email, code, now)
            == CountLive(codes, email, code, now) - 1
  {
    var n := |codes|;
    var upd := codes[i := codes[i].(usedAt := Some(now))];
    if i == n - 1 {
      assert upd[..n - 1] == codes[..n - 1];
    } else {
      assert upd[..n - 1] == codes[..n - 1][i := codes[i].(usedAt := Some(now))];
      CountLiveAfterUse(codes[..n - 1], i, email, code, now);
    }
  }

  /** Codes only die as time passes: fewer live matches later. */
  lemma {:induction false} CountLiveMonotone(codes: seq<VerificationCode>, email: string, code: string, now: nat, later: nat)
    requires now <= later
    ensures CountLive(codes, email, code, later) <= CountLive(codes, email, code, now)
  {
    if |codes| > 0 {
      CountLiveMonotone(codes[..|codes| - 1], email, code, now, later);
    }
  }

  /** No live match counted means `findFirst` finds nothing. */
  lemma {:induction false} NoLiveCode(codes: seq<VerificationCode>, email: string, code: string, now: nat)
    requires CountLive(codes, email, code, now) == 0
    ensures FindLiveCode(codes, email, code, now, 0).None?
  {
    if |codes| > 0 {
      var init := codes[..|codes| - 1];
      NoLiveCode(init, email, code, now);
      assert FindLiveCode(init, email, code, now, 0).None?;
      forall i | 0 <= i < |codes|
        ensures !Live(codes[i], email, code, now)
      {
        if i < |codes| - 1 {
          assert codes[i] == init[i];
        }
      }
    }
  }

  // ------------------------------------------------------------ tokens

  datatype TokenPair = TokenPair(access: AccessClaims, refreshToken: string)

  /** `generateTokens(user, ipAddress, userAgent)`: signs an access token
      and stores a new refresh token (`entropy` is the 64 random bytes drawn
      for it) that expires after 30 days. The store rejects a duplicate
      token value. */
  function GenerateTokens(db: Db, id: UserId, now: nat, entropy: Bytes, ip: string, ua: string): (r: Step<TokenPair>)
    requires id < |db.users| && |entropy| == REFRESH_TOKEN_BYTES
    ensures var value := GenerateSecureToken(REFRESH_TOKEN_BYTES, entropy);
      && |value| == 2 * REFRESH_TOKEN_BYTES
      && (value in db.tokens ==> r == Step(db, Failure(TOKEN_TAKEN)))
      && (value !in db.tokens ==>
            && r.result.Success?
            && r.result.value.refreshToken == value
            && r.result.value.access == IssueAccessToken(id, db.users[id].email, now)
            && r.db == db.(tokens := db.tokens[value := RefreshToken(id, now + REFRESH_TOKEN_TTL_MS, None, ip, ua)]))
  {
    var access := IssueAccessToken(id, db.users[id].email, now);
    var value := GenerateSecureToken(REFRESH_TOKEN_BYTES, entropy);
    if value in db.tokens then Step(db, Failure(TOKEN_TAKEN))
    else
      var stored := RefreshToken(id, now + REFRESH_TOKEN_TTL_MS, None, ip, ua);
      Step(db.(tokens := db.tokens[value := stored]), Success(TokenPair(access, value)))
  }

  /** Storing a token for an existing user keeps the database valid. */
  lemma GenerateTokensValid(db: Db, id: UserId, now: nat, entropy: Bytes, ip: string, ua: string)
    requires Valid(db) && id < |db.users| && |entropy| == REFRESH_TOKEN_BYTES
    ensures Valid(GenerateTokens(db, id, now, entropy, ip, ua).db)
  {
  }

  /** Records a login of user `id`: stamps `lastLoginAt` and appends the
      audit entry. */
  function RecordLogin(db: Db, id: UserId, now: nat): (r: Db)
    requires id < |db.users|
    ensures r.users == db.users[id := db.users[id].(lastLoginAt := Some(now))]
    ensures r.tokens == db.tokens && r.codes == db.codes && r.usage == db.usage
    ensures r.audit == db.audit + [AuditEntry(id, "login")]
  {
    Audit(db.(users := db.users[id := db.users[id].(lastLoginAt := Some(now))]), id, "login")
  }

  lemma RecordLoginValid(db: Db, id: UserId, now: nat)
    requires Valid(db) && id < |db.users|
    ensures Valid(RecordLogin(db, id, now))
  {
    var r := RecordLogin(db, id, now);
    assert forall i :: 0 <= i < |db.users| ==> r.users[i].email == db.users[i].email;
    assert forall i :: 0 <= i < |db.users| ==> KeyFieldsTogether(r.users[i]) == KeyFieldsTogether(db.users[i]);
  }

  /** The session opening shared by `verifyCode` (existing user) and
      `login`: `generateTokens`, then the `lastLoginAt` stamp and the
      'login' audit entry. A duplicate token value throws before the
      stamp. */
  function StartSession(db: Db, id: UserId, now: nat, entropy: Bytes, ip: string, ua: string): (r: Step<TokenPair>)
    requires id < |db.users| && |entropy| == REFRESH_TOKEN_BYTES
    ensures var value := GenerateSecureToken(REFRESH_TOKEN_BYTES, entropy);
      && (value in db.tokens ==> r == Step(db, Failure(TOKEN_TAKEN)))
      && (value !in db.tokens ==>
            && r.result == Success(TokenPair(IssueAccessToken(id, db.users[id].email, now), value))
            && r.db.tokens == db.tokens[value := RefreshToken(id, now + REFRESH_TOKEN_TTL_MS, None, ip, ua)]
            && r.db.users == db.users[id := db.users[id].(lastLoginAt := Some(now))]
            && r.db.codes == db.codes && r.db.usage == db.usage
            && r.db.audit == db.audit + [AuditEntry(id, "login")])
  {
    var issued := GenerateTokens(db, id, now, entropy, ip, ua);
    if issued.result.Failure? then Step(issued.db, Failure(issued.result.error))
    else Step(RecordLogin(issued.db, id, now), issued.result)
  }

  lemma StartSessionValid(db: Db, id: UserId, now: nat, entropy: Bytes, ip: string, ua: string)
    requires Valid(db) && id < |db.users| && |entropy| == REFRESH_TOKEN_BYTES
    ensures Valid(StartSession(db, id, now, entropy, ip, ua).db)
  {
    var issued := GenerateTokens(db, id, now, entropy, ip, ua);
    GenerateTokensValid(db, id, now, entropy, ip, ua);
    if issued.result.Success? {
      RecordLoginValid(issued.db, id, now);
    }
  }

  // ------------------------------------------------------ verification

  /** What `verifyCode` returns: tokens and the user for a known email, or
      the verified email of someone who still has to register. */
  datatype Verified =
    | ExistingUser(access: AccessClaims, refreshToken: string, user: SafeUser)
    | NewUser(email: string)

  /** Marks code `i` used at `now`. */
  function MarkUsed(codes: seq<VerificationCode>, i: nat, now: nat): (r: seq<VerificationCode>)
    requires i < |codes|
    ensures |r| == |codes| && r[i].usedAt == Some(now)
    ensures forall j :: 0 <= j < |codes| && j != i ==> r[j] == codes[j]
  {
    codes[i := codes[i].(usedAt := Some(now))]
  }

  /** `verifyCode(email, code, ipAddress, userAgent)`. */
  function VerifyCode(db: Db, email: string, code: string, now: nat, entropy: Bytes, ip: string, ua: string): (r: Step<Verified>)
    requires |entropy| == REFRESH_TOKEN_BYTES
    ensures var found := FindLiveCode(db.codes, NormalizeEmail(email), code, now, 0);
      && (found.None? ==> r == Step(db, Failure(INVALID_CODE)))
      && (found.Some? ==> r.db.codes == MarkUsed(db.codes, found.value, now))
    ensures var e := NormalizeEmail(email);
      FindLiveCode(db.codes, e, code, now, 0).Some? && FindUserByEmail(db.users, e).None? ==>
        r.db == db.(codes := r.db.codes) && r.result == Success(NewUser(e))
    ensures var e := NormalizeEmail(email);
      var user := FindUserByEmail(db.users, e);
      var value := GenerateSecureToken(REFRESH_TOKEN_BYTES, entropy);
      (FindLiveCode(db.codes, e, code, now, 0).Some? && user.Some? && value !in db.tokens) ==>
        && r.result == Success(ExistingUser(IssueAccessToken(user.value, e, now), value,
                                            Sanitize(user.value, db.users[user.value])))
        && r.db.tokens == db.tokens[value := RefreshToken(user.value, now + REFRESH_TOKEN_TTL_MS, None, ip, ua)]
        && r.db.users == db.users[user.value := db.users[user.value].(lastLoginAt := Some(now))]
        && r.db.usage == db.usage && r.db.audit == db.audit + [AuditEntry(user.value, "login")]
    ensures var e := NormalizeEmail(email);
      var user := FindUserByEmail(db.users, e);
      (FindLiveCode(db.codes, e, code, now, 0).Some? && user.Some?
       && GenerateSecureToken(REFRESH_TOKEN_BYTES, entropy) in db.tokens) ==>
        r.result == Failure(TOKEN_TAKEN) && r.db == db.(codes := r.db.codes)
  {
    var e := NormalizeEmail(email);
    match FindLiveCode(db.codes, e, code, now, 0)
    case None => Step(db, Failure(INVALID_CODE))
    case Some(i) =>
      var db1 := db.(codes := MarkUsed(db.codes, i, now));
      match FindUserByEmail(db1.users, e)
      case None => Step(db1, Success(NewUser(e)))
      case Some(id) =>
        var s := StartSession(db1, id, now, entropy, ip, ua);
        match s.result
        case Failure(msg) => Step(s.db, Failure(msg))
        case Success(pair) => Step(s.db, Success(ExistingUser(pair.access, pair.refreshToken, Sanitize(id, db.users[id]))))
  }

  /** Verification either leaves the database alone, only uses the code
      up, or also opens a session for the user the email belongs to. */
  lemma VerifyCodeDb(db: Db, email: string, code: string, now: nat, entropy: Bytes, ip: string, ua: string)
    requires |entropy| == REFRESH_TOKEN_BYTES
    ensures var e := NormalizeEmail(email);
      var found := FindLiveCode(db.codes, e, code, now, 0);
      var user := FindUserByEmail(db.users, e);
      VerifyCode(db, email, code, now, entropy, ip, ua).db
        == if found.None? then db
           else if user.None? then db.(codes := MarkUsed(db.codes, found.value, now))
           else StartSession(db.(codes := MarkUsed(db.codes, found.value, now)), user.value, now, entropy, ip, ua).db
  {
  }

  lemma VerifyCodeValid(db: Db, email: string, code: string, now: nat, entropy: Bytes, ip: string, ua: string)
    requires Valid(db) && |entropy| == REFRESH_TOKEN_BYTES
    ensures Valid(VerifyCode(db, email, code, now, entropy, ip, ua).db)
  {
    var e := NormalizeEmail(email);
    var found := FindLiveCode(db.codes, e, code, now, 0);
    var user := FindUserByEmail(db.users, e);
    VerifyCodeDb(db, email, code, now, entropy, ip, ua);
    if found.Some? {
      var db1 := db.(codes := MarkUsed(db.codes, found.value, now));
      assert Valid(db1) by { assert db1.users == db.users && db1.tokens == db.tokens; }
      if user.Some? {
        StartSessionValid(db1, user.value, now, entropy, ip, ua);
      }
    }
  }

  /** One-time use: when a single live code matched, verifying the same
      email and code again, now or later, is rejected. */
  lemma VerifyCodeReplayRejected(db: Db, email: string, code: string, now: nat, later: nat,
                                 entropy: Bytes, entropy2: Bytes, ip: string, ua: string)
    requires |entropy| == REFRESH_TOKEN_BYTES && |entropy2| == REFRESH_TOKEN_BYTES
    requires now <= later
    requires CountLive(db.codes, NormalizeEmail(email), code, now) == 1
    ensures VerifyCode(db, email, code, now, entropy, ip, ua).result.Success? ==>
      var db' := VerifyCode(db, email, code, now, entropy, ip, ua).db;
      VerifyCode(db', email, code, later, entropy2, ip, ua) == Step(db', Failure(INVALID_CODE))
  {
    var e := NormalizeEmail(email);
    var found := FindLiveCode(db.codes, e, code, now, 0);
    if found.Some? {
      var db' := VerifyCode(db, email, code, now, entropy, ip, ua).db;
      NoLiveAfterUse(db.codes, found.value, e, code, now, later);
      assert FindLiveCode(db'.codes, e, code, later, 0).None?;
    }
  }

  /** Once the only live match is used, none is left now or later. */
  lemma NoLiveAfterUse(codes: seq<VerificationCode>, i: nat, email: string, code: string, now: nat, later: nat)
    requires i < |codes| && Live(codes[i], email, code, now)
    requires CountLive(codes, email, code, now) == 1 && now <= later
    ensures FindLiveCode(MarkUsed(codes, i, now), email, code, later, 0).None?
  {
    var codes' := MarkUsed(codes, i, now);
    assert codes' == codes[i := codes[i].(usedAt := Some(now))];
    CountLiveAfterUse(codes, i, email, code, now);
    CountLiveMonotone(codes', email, code, now, later);
    NoLiveCode(codes', email, code, later);
  }

  /** The codes after `requestVerificationCode`: the other pairs' codes in
      order, then the new one. */
  lemma RequestedCodes(db: Db, env: Env, email: string, kind: string, random: real,
                       mailError: Option<string>, now: nat)
    requires 0.0 <= random < 1.0
    ensures var e := NormalizeEmail(email);
      var r := RequestVerificationCode(db, env, email, kind, random, mailError, now);
      && r.db == db.(codes := r.db.codes)
      && r.db.codes == DropCodes(db.codes, e, kind)
           + [VerificationCode(e, FindUserByEmail(db.users, e), GenerateVerificationCode(env, random),
                               kind, now + CODE_TTL_MS, None)]
  {
  }

  lemma DropOther(c: VerificationCode, email: string, kind: string)
    requires !CodeFor(c, email, kind)
    ensures DropCodes([c], email, kind) == [c]
  {
    assert [c][..0] == [];
  }

  lemma AppendToNone(c: VerificationCode, email: string, kind: string)
    ensures DropCodes([], email, kind) + [c] == [c]
  {
  }

  lemma AppendToOther(c1: VerificationCode, c2: VerificationCode, email: string, kind: string)
    requires !CodeFor(c1, email, kind)
    ensures DropCodes([c1], email, kind) + [c2] == [c1, c2]
  {
    DropOther(c1, email, kind);
  }

  /** With two live matches for a new address, the code verifies twice. */
  lemma VerifyTwoLive(db: Db, email: string, code: string, now: nat, entropy: Bytes, ip: string, ua: string)
    requires |entropy| == REFRESH_TOKEN_BYTES
    requires var e := NormalizeEmail(email);
      && |db.codes| == 2 && Live(db.codes[0], e, code, now) && Live(db.codes[1], e, code, now)
      && FindUserByEmail(db.users, e).None?
    ensures var v1 := VerifyCode(db, email, code, now, entropy, ip, ua);
      var v2 := VerifyCode(v1.db, email, code, now, entropy, ip, ua);
      v1.result == Success(NewUser(NormalizeEmail(email))) && v2.result == Success(NewUser(NormalizeEmail(email)))
  {
    var e := NormalizeEmail(email);
    assert FindLiveCode(db.codes, e, code, now, 0) == Some(0);
    VerifyNewAddress(db, email, code, now, entropy, ip, ua);
    var db1 := db.(codes := MarkUsed(db.codes, 0, now));
    assert FindLiveCode(db1.codes, e, code, now, 0) == Some(1) by {
      assert !Live(db1.codes[0], e, code, now) && db1.codes[1] == db.codes[1];
      assert FindLiveCode(db1.codes, e, code, now, 1) == Some(1);
    }
    VerifyNewAddress(db1, email, code, now, entropy, ip, ua);
  }

  /** A live match for an address with no account verifies it and uses
      the first match up. */
  lemma VerifyNewAddress(db: Db, email: string, code: string, now: nat, entropy: Bytes, ip: string, ua: string)
    requires |entropy| == REFRESH_TOKEN_BYTES
    requires FindLiveCode(db.codes, NormalizeEmail(email), code, now, 0).Some?
    requires FindUserByEmail(db.users, NormalizeEmail(email)).None?
    ensures var v := VerifyCode(db, email, code, now, entropy, ip, ua);
      && v.result == Success(NewUser(NormalizeEmail(email)))
      && v.db == db.(codes := MarkUsed(db.codes, FindLiveCode(db.codes, NormalizeEmail(email), code, now, 0).value, now))
  {
  }

  /** Because `verifyCode` ignores the purpose while
      `requestVerificationCode` only replaces codes of the same purpose, a
      login code and a signup code requested for one address in demo mode
      (both the fixed demo code) let that code be verified twice. */
  lemma DemoCodeAcceptedTwice(db: Db, env: Env, email: string, r1: real, r2: real, now: nat,
                              entropy: Bytes, ip: string, ua: string)
    requires FixedCodeMode(env)
    requires 0.0 <= r1 < 1.0 && 0.0 <= r2 < 1.0 && |entropy| == REFRESH_TOKEN_BYTES
    requires db.codes == [] && FindUserByEmail(db.users, NormalizeEmail(email)).None?
    ensures var db1 := RequestVerificationCode(db, env, email, "login", r1, None, now).db;
      var db2 := RequestVerificationCode(db1, env, email, "signup", r2, None, now).db;
      var v1 := VerifyCode(db2, email, DEMO_CODE, now, entropy, ip, ua);
      var v2 := VerifyCode(v1.db, email, DEMO_CODE, now, entropy, ip, ua);
      v1.result == Success(NewUser(NormalizeEmail(email))) && v2.result == Success(NewUser(NormalizeEmail(email)))
  {
    var db2 := TwoDemoRequests(db, env, email, "login", "signup", r1, r2, now);
    VerifyTwoLive(db2, email, DEMO_CODE, now, entropy, ip, ua);
  }

  /** The demo code a request issues for `email` and `kind` at `now`. */
  function DemoCode(email: string, kind: string, now: nat): VerificationCode {
    VerificationCode(email, None, DEMO_CODE, kind, now + CODE_TTL_MS, None)
  }

  /** Two demo-mode requests for one new address and two purposes leave
      both demo codes, each live, and no account. */
  lemma TwoDemoRequests(db: Db, env: Env, email: string, k1: string, k2: string, r1: real, r2: real, now: nat)
    returns (db2: Db)
    requires FixedCodeMode(env) && k1 != k2
    requires 0.0 <= r1 < 1.0 && 0.0 <= r2 < 1.0
    requires db.codes == [] && FindUserByEmail(db.users, NormalizeEmail(email)).None?
    ensures db2 == RequestVerificationCode(RequestVerificationCode(db, env, email, k1, r1, None, now).db,
                                           env, email, k2, r2, None, now).db
    ensures var e := NormalizeEmail(email);
      && |db2.codes| == 2 && Live(db2.codes[0], e, DEMO_CODE, now) && Live(db2.codes[1], e, DEMO_CODE, now)
      && FindUserByEmail(db2.users, e).None?
  {
    var e := NormalizeEmail(email);
    var db1 := FirstDemoRequest(db, env, email, k1, r1, now);
    db2 := SecondDemoRequest(db1, env, email, k1, k2, r2, now);
  }

  lemma FirstDemoRequest(db: Db, env: Env, email: string, kind: string, random: real, now: nat)
    returns (db1: Db)
    requires FixedCodeMode(env) && 0.0 <= random < 1.0
    requires db.codes == [] && FindUserByEmail(db.users, NormalizeEmail(email)).None?
    ensures db1 == RequestVerificationCode(db, env, email, kind, random, None, now).db
    ensures db1 == db.(codes := [DemoCode(NormalizeEmail(email), kind, now)])
  {
    var e := NormalizeEmail(email);
    DemoRequest(db, env, email, kind, random, now);
    AppendToNone(DemoCode(e, kind, now), e, kind);
    db1 := db.(codes := [DemoCode(e, kind, now)]);
  }

  lemma SecondDemoRequest(db: Db, env: Env, email: string, k1: string, k2: string, random: real, now: nat)
    returns (db2: Db)
    requires FixedCodeMode(env) && 0.0 <= random < 1.0 && k1 != k2
    requires db.codes == [DemoCode(NormalizeEmail(email), k1, now)]
    requires FindUserByEmail(db.users, NormalizeEmail(email)).None?
    ensures db2 == RequestVerificationCode(db, env, email, k2, random, None, now).db
    ensures db2 == db.(codes := [DemoCode(NormalizeEmail(email), k1, now), DemoCode(NormalizeEmail(email), k2, now)])
  {
    var e := NormalizeEmail(email);
    DemoRequest(db, env, email, k2, random, now);
    AppendToOther(DemoCode(e, k1, now), DemoCode(e, k2, now), e, k2);
    db2 := db.(codes := [DemoCode(e, k1, now), DemoCode(e, k2, now)]);
  }

  /** In demo mode, a request for an address with no account appends the
      demo code after the other pairs' codes. */
  lemma DemoRequest(db: Db, env: Env, email: string, kind: string, random: real, now: nat)
    requires FixedCodeMode(env) && 0.0 <= random < 1.0
    requires FindUserByEmail(db.users, NormalizeEmail(email)).None?
    ensures var e := NormalizeEmail(email);
      RequestVerificationCode(db, env, email, kind, random, None, now).db
        == db.(codes := DropCodes(db.codes, e, kind) + [DemoCode(e, kind, now)])
  {
    RequestedCodes(db, env, email, kind, random, None, now);
  }

  // ------------------------------------------------------ registration

  /** Some code for `email` was used and expires later than 15 minutes
      before `now`. The purpose is not compared. */
  predicate RecentlyVerified(codes: seq<VerificationCode>, email: string, now: nat) {
    exists i :: 0 <= i < |codes| && RecentUse(codes[i], email, now)
  }

  predicate RecentUse(c: VerificationCode, email: string, now: nat) {
    c.email == email && c.usedAt.Some? && c.expiresAt > now - REGISTRATION_WINDOW_MS
  }

  datatype Session = Session(access: AccessClaims, refreshToken: string, user: SafeUser)

  /** The user record `register` creates. */
  function NewAccount(p: Primitives, email: string, name: string, password: string, salt: Bytes, now: nat): User {
    User(email, Trim(name), None, HashPassword(p, password, salt), true, Some(now),
         None, None, None, false, 0.0, None, now, Some(now))
  }

  /** The tail of `register` once the checks have passed: creates the user
      under the next id, issues its tokens and writes the 'register' audit
      entry. A duplicate token value throws after the user was created. */
  function OpenAccount(db: Db, user: User, now: nat, entropy: Bytes, ip: string, ua: string): (r: Step<TokenPair>)
    requires |entropy| == REFRESH_TOKEN_BYTES
    ensures r.db.users == db.users + [user] && r.db.codes == db.codes && r.db.usage == db.usage
    ensures var value := GenerateSecureToken(REFRESH_TOKEN_BYTES, entropy);
      && (value in db.tokens ==>
            r.result == Failure(TOKEN_TAKEN) && r.db.tokens == db.tokens && r.db.audit == db.audit)
      && (value !in db.tokens ==>
            && r.result == Success(TokenPair(IssueAccessToken(|db.users|, user.email, now), value))
            && r.db.tokens == db.tokens[value := RefreshToken(|db.users|, now + REFRESH_TOKEN_TTL_MS, None, ip, ua)]
            && r.db.audit == db.audit + [AuditEntry(|db.users|, "register")])
  {
    var id := |db.users|;
    var db1 := db.(users := db.users + [user]);
    assert db1.users[id] == user;
    var issued := GenerateTokens(db1, id, now, entropy, ip, ua);
    if issued.result.Failure? then Step(issued.db, Failure(issued.result.error))
    else Step(Audit(issued.db, id, "register"), issued.result)
  }

  lemma OpenAccountValid(db: Db, user: User, now: nat, entropy: Bytes, ip: string, ua: string)
    requires Valid(db) && KeyFieldsTogether(user) && FindUserByEmail(db.users, user.email).None?
    requires |entropy| == REFRESH_TOKEN_BYTES
    ensures Valid(OpenAccount(db, user, now, entropy, ip, ua).db)
  {
    var id := |db.users|;
    var db1 := db.(users := db.users + [user]);
    AddUserValid(db, user);
    GenerateTokensValid(db1, id, now, entropy, ip, ua);
    var issued := GenerateTokens(db1, id, now, entropy, ip, ua);
    if issued.result.Success? {
      AuditKeepsValid(issued.db, id, "register");
    }
  }

  /** `register(email, name, password, ipAddress, userAgent)`. */
  function Register(db: Db, p: Primitives, email: string, name: string, password: string, now: nat,
                    salt: Bytes, entropy: Bytes, ip: string, ua: string): (r: Step<Session>)
    requires |entropy| == REFRESH_TOKEN_BYTES
    ensures var e := NormalizeEmail(email);
      && (!RecentlyVerified(db.codes, e, now) ==> r == Step(db, Failure(NOT_VERIFIED)))
      && (RecentlyVerified(db.codes, e, now) && FindUserByEmail(db.users, e).Some? ==>
            r == Step(db, Failure(ALREADY_REGISTERED)))
      && (RecentlyVerified(db.codes, e, now) && FindUserByEmail(db.users, e).None?
          && Utf16Length(password) < MIN_PASSWORD_LENGTH ==>
            r == Step(db, Failure(PASSWORD_TOO_SHORT)))
    ensures var e := NormalizeEmail(email);
      (RecentlyVerified(db.codes, e, now) && FindUserByEmail(db.users, e).None?
       && Utf16Length(password) >= MIN_PASSWORD_LENGTH) ==>
        && r.db.users == db.users + [NewAccount(p, e, name, password, salt, now)]
        && r.db.codes == db.codes && r.db.usage == db.usage
    ensures var e := NormalizeEmail(email);
      var id := |db.users|;
      var value := GenerateSecureToken(REFRESH_TOKEN_BYTES, entropy);
      (RecentlyVerified(db.codes, e, now) && FindUserByEmail(db.users, e).None?
       && Utf16Length(password) >= MIN_PASSWORD_LENGTH && value !in db.tokens) ==>
        && r.result == Success(Session(IssueAccessToken(id, e, now), value,
                                       Sanitize(id, NewAccount(p, e, name, password, salt, now))))
        && r.db.tokens == db.tokens[value := RefreshToken(id, now + REFRESH_TOKEN_TTL_MS, None, ip, ua)]
        && r.db.audit == db.audit + [AuditEntry(id, "register")]
    ensures r.result.Success? ==>
      var id := |db.users|;
      && r.result.value.user == Sanitize(id, NewAccount(p, NormalizeEmail(email), name, password, salt, now))
      && r.result.value.access.id == id
      && r.result.value.refreshToken in r.db.tokens
      && r.db.tokens[r.result.value.refreshToken].userId == id
  {
    var e := NormalizeEmail(email);
    if !RecentlyVerified(db.codes, e, now) then Step(db, Failure(NOT_VERIFIED))
    else if FindUserByEmail(db.users, e).Some? then Step(db, Failure(ALREADY_REGISTERED))
    else if Utf16Length(password) < MIN_PASSWORD_LENGTH then Step(db, Failure(PASSWORD_TOO_SHORT))
    else
      var user := NewAccount(p, e, name, password, salt, now);
      var s := OpenAccount(db, user, now, entropy, ip, ua);
      match s.result
      case Failure(msg) => Step(s.db, Failure(msg))
      case Success(pair) => Step(s.db, Success(Session(pair.access, pair.refreshToken, Sanitize(|db.users|, user))))
  }

  /** Appending a user whose email is not yet taken and whose key fields
      agree keeps the database valid. */
  lemma AddUserValid(db: Db, user: User)
    requires Valid(db) && KeyFieldsTogether(user)
    requires FindUserByEmail(db.users, user.email).None?
    ensures Valid(db.(users := db.users + [user]))
  {
    var users := db.users + [user];
    forall i, j | 0 <= i < j < |users|
      ensures users[i].email != users[j].email
    {
      if j == |db.users| {
        assert users[i] == db.users[i];
      } else {
        assert users[i] == db.users[i] && users[j] == db.users[j];
      }
    }
  }

  /** The three checks `register` makes before it creates anything. */
  predicate MayRegister(db: Db, email: string, password: string, now: nat) {
    && RecentlyVerified(db.codes, email, now)
    && FindUserByEmail(db.users, email).None?
    && Utf16Length(password) >= MIN_PASSWORD_LENGTH
  }

  /** Registration either leaves the database alone or is `OpenAccount`. */
  lemma RegisterDb(db: Db, p: Primitives, email: string, name: string, password: string, now: nat,
                   salt: Bytes, entropy: Bytes, ip: string, ua: string)
    requires |entropy| == REFRESH_TOKEN_BYTES
    ensures var e := NormalizeEmail(email);
      Register(db, p, email, name, password, now, salt, entropy, ip, ua).db
        == if MayRegister(db, e, password, now)
           then OpenAccount(db, NewAccount(p, e, name, password, salt, now), now, entropy, ip, ua).db
           else db
  {
  }

  /** Registration creates a user under a fresh email, so emails stay
      unique. */
  lemma RegisterValid(db: Db, p: Primitives, email: string, name: string, password: string, now: nat,
                      salt: Bytes, entropy: Bytes, ip: string, ua: string)
    requires Valid(db) && |entropy| == REFRESH_TOKEN_BYTES
    ensures Valid(Register(db, p, email, name, password, now, salt, entropy, ip, ua).db)
  {
    var e := NormalizeEmail(email);
    RegisterDb(db, p, email, name, password, now, salt, entropy, ip, ua);
    if MayRegister(db, e, password, now) {
      OpenAccountValid(db, NewAccount(p, e, name, password, salt, now), now, entropy, ip, ua);
    }
  }

  // ------------------------------------------------------------- login

  /** `login(email, password, ipAddress, userAgent)`. */
  function Login(db: Db, p: Primitives, email: string, password: string, now: nat,
                 entropy: Bytes, ip: string, ua: string): (r: Step<Session>)
    requires |entropy| == REFRESH_TOKEN_BYTES
    ensures var found := FindUserByEmail(db.users, NormalizeEmail(email));
      && (found.None? ==> r == Step(db, Failure(INVALID_LOGIN)))
      && (found.Some? && !VerifyPassword(p, password, db.users[found.value].passwordHash) ==>
            r == Step(db, Failure(INVALID_LOGIN)))
    ensures var found := FindUserByEmail(db.users, NormalizeEmail(email));
      var value := GenerateSecureToken(REFRESH_TOKEN_BYTES, entropy);
      (found.Some? && VerifyPassword(p, password, db.users[found.value].passwordHash) && value !in db.tokens) ==>
        && r.result == Success(Session(IssueAccessToken(found.value, NormalizeEmail(email), now), value,
                                       Sanitize(found.value, db.users[found.value])))
        && r.db.tokens == db.tokens[value := RefreshToken(found.value, now + REFRESH_TOKEN_TTL_MS, None, ip, ua)]
        && r.db.users == db.users[found.value := db.users[found.value].(lastLoginAt := Some(now))]
        && r.db.codes == db.codes && r.db.usage == db.usage
        && r.db.audit == db.audit + [AuditEntry(found.value, "login")]
    ensures var found := FindUserByEmail(db.users, NormalizeEmail(email));
      (found.Some? && VerifyPassword(p, password, db.users[found.value].passwordHash)
       && GenerateSecureToken(REFRESH_TOKEN_BYTES, entropy) in db.tokens) ==>
        r == Step(db, Failure(TOKEN_TAKEN))
  {
    var e := NormalizeEmail(email);
    match FindUserByEmail(db.users, e)
    case None => Step(db, Failure(INVALID_LOGIN))
    case Some(id) =>
      if !VerifyPassword(p, password, db.users[id].passwordHash) then Step(db, Failure(INVALID_LOGIN))
      else
        var s := StartSession(db, id, now, entropy, ip, ua);
        match s.result
        case Failure(msg) => Step(s.db, Failure(msg))
        case Success(pair) => Step(s.db, Success(Session(pair.access, pair.refreshToken, Sanitize(id, db.users[id]))))
  }

  /** Login either leaves the database alone or opens a session. */
  lemma LoginDb(db: Db, p: Primitives, email: string, password: string, now: nat,
                entropy: Bytes, ip: string, ua: string)
    requires |entropy| == REFRESH_TOKEN_BYTES
    ensures var found := FindUserByEmail(db.users, NormalizeEmail(email));
      Login(db, p, email, password, now, entropy, ip, ua).db
        == if found.Some? && VerifyPassword(p, password, db.users[found.value].passwordHash)
           then StartSession(db, found.value, now, entropy, ip, ua).db
           else db
  {
  }

  lemma LoginValid(db: Db, p: Primitives, email: string, password: string, now: nat,
                   entropy: Bytes, ip: string, ua: string)
    requires Valid(db) && |entropy| == REFRESH_TOKEN_BYTES
    ensures Valid(Login(db, p, email, password, now, entropy, ip, ua).db)
  {
    var found := FindUserByEmail(db.users, NormalizeEmail(email));
    LoginDb(db, p, email, password, now, entropy, ip, ua);
    if found.Some? && VerifyPassword(p, password, db.users[found.value].passwordHash) {
      StartSessionValid(db, found.value, now, entropy, ip, ua);
    }
  }

  /** A freshly registered account can log in with the password it was
      registered with (given an unused refresh-token value). */
  lemma RegisterThenLogin(db: Db, p: Primitives, email: string, name: string, password: string, now: nat,
                          salt: Bytes, entropy: Bytes, later: nat, entropy2: Bytes, ip: string, ua: string)
    requires Sound(p)
    requires |entropy| == REFRESH_TOKEN_BYTES && |entropy2| == REFRESH_TOKEN_BYTES
    requires Register(db, p, email, name, password, now, salt, entropy, ip, ua).result.Success?
    requires GenerateSecureToken(REFRESH_TOKEN_BYTES, entropy2)
             !in Register(db, p, email, name, password, now, salt, entropy, ip, ua).db.tokens
    ensures var db' := Register(db, p, email, name, password, now, salt, entropy, ip, ua).db;
      Login(db', p, email, password, later, entropy2, ip, ua).result.Success?
  {
    var e := NormalizeEmail(email);
    var user := NewAccount(p, e, name, password, salt, now);
    var db' := Register(db, p, email, name, password, now, salt, entropy, ip, ua).db;
    RegisteredUsers(db, p, email, name, password, now, salt, entropy, ip, ua);
    HashThenVerify(p, password, salt);
    LoginAppended(db', db.users, user, p, email, password, later, entropy2, ip, ua);
  }

  /** A successful registration passed its checks and appended the new
      account. */
  lemma RegisteredUsers(db: Db, p: Primitives, email: string, name: string, password: string, now: nat,
                        salt: Bytes, entropy: Bytes, ip: string, ua: string)
    requires |entropy| == REFRESH_TOKEN_BYTES
    requires Register(db, p, email, name, password, now, salt, entropy, ip, ua).result.Success?
    ensures var e := NormalizeEmail(email);
      && MayRegister(db, e, password, now)
      && Register(db, p, email, name, password, now, salt, entropy, ip, ua).db.users
           == db.users + [NewAccount(p, e, name, password, salt, now)]
  {
  }

  /** The last user of a table whose other users have different emails
      logs in with a password its hash accepts. */
  lemma LoginAppended(db: Db, users: seq<User>, user: User, p: Primitives, email: string, password: string,
                      now: nat, entropy: Bytes, ip: string, ua: string)
    requires |entropy| == REFRESH_TOKEN_BYTES
    requires db.users == users + [user] && user.email == NormalizeEmail(email)
    requires FindUserByEmail(users, user.email).None?
    requires VerifyPassword(p, password, user.passwordHash)
    requires GenerateSecureToken(REFRESH_TOKEN_BYTES, entropy) !in db.tokens
    ensures Login(db, p, email, password, now, entropy, ip, ua).result.Success?
  {
    FindAppended(users, user);
  }

  /** A user appended under a fresh email is the one a lookup finds. */
  lemma FindAppended(users: seq<User>, user: User)
    requires FindUserByEmail(users, user.email).None?
    ensures FindUserByEmail(users + [user], user.email) == Some(|users|)
  {
    var all := users + [user];
    assert all[|users|].email == user.email;
    assert forall i :: 0 <= i < |users| ==> all[i] == users[i];
  }

  // ----------------------------------------------------------- refresh

  datatype Refreshed = Refreshed(access: AccessClaims, user: SafeUser)

  /** `refreshAccessToken(refreshToken)`: checks existence, then
      revocation, then expiry, and issues a new access token without
      rotating or otherwise changing the stored refresh token. */
  function RefreshAccessToken(db: Db, token: string, now: nat): (r: Step<Refreshed>)
    requires Valid(db)
    ensures r.db == db
    ensures token !in db.tokens ==> r.result == Failure(INVALID_REFRESH)
    ensures token in db.tokens && db.tokens[token].revokedAt.Some? ==> r.result == Failure(REFRESH_REVOKED)
    ensures token in db.tokens && db.tokens[token].revokedAt.None? && db.tokens[token].expiresAt < now ==>
      r.result == Failure(REFRESH_EXPIRED)
    ensures r.result.Success? <==>
      token in db.tokens && db.tokens[token].revokedAt.None? && db.tokens[token].expiresAt >= now
    ensures r.result.Success? ==>
      var id := db.tokens[token].userId;
      && r.result.value.access == IssueAccessToken(id, db.users[id].email, now)
      && r.result.value.user == Sanitize(id, db.users[id])
  {
    if token !in db.tokens then Step(db, Failure(INVALID_REFRESH))
    else
      var stored := db.tokens[token];
      if stored.revokedAt.Some? then Step(db, Failure(REFRESH_REVOKED))
      else if stored.expiresAt < now then Step(db, Failure(REFRESH_EXPIRED))
      else
        var user := db.users[stored.userId];
        Step(db, Success(Refreshed(IssueAccessToken(stored.userId, user.email, now), Sanitize(stored.userId, user))))
  }

  // ------------------------------------------------------------ logout

  /** `logout(refreshToken, userId)`: revokes the token only when it
      belongs to `userId` (re-stamping `revokedAt` if already revoked); an
      unknown or foreign token is silently ignored. */
  function Logout(db: Db, token: Option<string>, userId: UserId, now: nat): (r: Db)
    ensures r.users == db.users && r.codes == db.codes && r.usage == db.usage
    ensures r.audit == db.audit + [AuditEntry(userId, "logout")]
    ensures r.tokens.Keys == db.tokens.Keys
    ensures forall t :: t in db.tokens ==>
      if Truthy(token) && t == token.value && db.tokens[t].userId == userId
      then r.tokens[t] == db.tokens[t].(revokedAt := Some(now))
      else r.tokens[t] == db.tokens[t]
    ensures Valid(db) ==> Valid(r)
  {
    var tokens :=
      if Truthy(token) && token.value in db.tokens && db.tokens[token.value].userId == userId
      then db.tokens[token.value := db.tokens[token.value].(revokedAt := Some(now))]
      else db.tokens;
    Audit(db.(tokens := tokens), userId, "logout")
  }

  /** Revokes every not-yet-revoked token of `userId`. */
  function RevokeAll(tokens: map<string, RefreshToken>, userId: UserId, now: nat): (r: map<string, RefreshToken>)
    ensures r.Keys == tokens.Keys
    ensures forall t :: t in tokens ==>
      if tokens[t].userId == userId && tokens[t].revokedAt.None?
      then r[t] == tokens[t].(revokedAt := Some(now))
      else r[t] == tokens[t]
  {
    map t | t in tokens ::
      if tokens[t].userId == userId && tokens[t].revokedAt.None?
      then tokens[t].(revokedAt := Some(now))
      else tokens[t]
  }

  /** `logoutAll(userId)`: afterwards no token of `userId` is usable and no
      other user's token has changed. */
  function LogoutAll(db: Db, userId: UserId, now: nat): (r: Db)
    ensures r.users == db.users && r.codes == db.codes && r.usage == db.usage
    ensures r.audit == db.audit + [AuditEntry(userId, "logout_all")]
    ensures r.tokens.Keys == db.tokens.Keys
    ensures forall t :: t in r.tokens && r.tokens[t].userId == userId ==> r.tokens[t].revokedAt.Some?
    ensures forall t :: t in db.tokens && db.tokens[t].userId != userId ==> r.tokens[t] == db.tokens[t]
    ensures r.tokens == RevokeAll(db.tokens, userId, now)
    ensures Valid(db) ==> Valid(r)
  {
    Audit(db.(tokens := RevokeAll(db.tokens, userId, now)), userId, "logout_all")
  }

  /** After `logout` with a token the user owns, refreshing with it fails as
      revoked, at any time. */
  lemma LogoutThenRefreshRevoked(db: Db, token: string, userId: UserId, now: nat, later: nat)
    requires Valid(db)
    requires token in db.tokens && db.tokens[token].userId == userId && token != ""
    ensures RefreshAccessToken(Logout(db, Some(token), userId, now), token, later).result == Failure(REFRESH_REVOKED)
  {
  }

  /** After `logoutAll`, every refresh token of the user fails as revoked. */
  lemma LogoutAllThenRefreshRevoked(db: Db, token: string, userId: UserId, now: nat, later: nat)
    requires Valid(db)
    requires token in db.tokens && db.tokens[token].userId == userId
    ensures RefreshAccessToken(LogoutAll(db, userId, now), token, later).result == Failure(REFRESH_REVOKED)
  {
  }

  // --------------------------------------------------- password change

  /** `changePassword(userId, currentPassword, newPassword)`: on success
      the hash is replaced and every refresh token of the user revoked. */
  function ChangePassword(db: Db, p: Primitives, userId: UserId, current: string, newPassword: string,
                          now: nat, salt: Bytes): (r: Step<()>)
    ensures userId >= |db.users| ==> r == Step(db, Failure(USER_NOT_FOUND))
    ensures userId < |db.users| && !VerifyPassword(p, current, db.users[userId].passwordHash) ==>
      r == Step(db, Failure(WRONG_PASSWORD))
    ensures (userId < |db.users| && VerifyPassword(p, current, db.users[userId].passwordHash)
             && Utf16Length(newPassword) < MIN_PASSWORD_LENGTH) ==>
      r == Step(db, Failure(NEW_PASSWORD_TOO_SHORT))
    ensures r.result.Success? <==>
      userId < |db.users| && VerifyPassword(p, current, db.users[userId].passwordHash)
      && Utf16Length(newPassword) >= MIN_PASSWORD_LENGTH
    ensures r.result.Success? ==>
      && r.db.users == db.users[userId := db.users[userId].(passwordHash := HashPassword(p, newPassword, salt))]
      && r.db.codes == db.codes
      && r.db.tokens.Keys == db.tokens.Keys
      && (forall t :: t in r.db.tokens && r.db.tokens[t].userId == userId ==> r.db.tokens[t].revokedAt.Some?)
      && (forall t :: t in db.tokens && db.tokens[t].userId != userId ==> r.db.tokens[t] == db.tokens[t])
      && r.db.tokens == RevokeAll(db.tokens, userId, now)
      && r.db.usage == db.usage
      && r.db.audit == db.audit + [AuditEntry(userId, "logout_all"), AuditEntry(userId, "password_change")]
    ensures Valid(db) ==> Valid(r.db)
  {
    if userId >= |db.users| then Step(db, Failure(USER_NOT_FOUND))
    else
      var user := db.users[userId];
      if !VerifyPassword(p, current, user.passwordHash) then Step(db, Failure(WRONG_PASSWORD))
      else if Utf16Length(newPassword) < MIN_PASSWORD_LENGTH then Step(db, Failure(NEW_PASSWORD_TOO_SHORT))
      else
        var db1 := db.(users := db.users[userId := user.(passwordHash := HashPassword(p, newPassword, salt))]);
        var db2 := LogoutAll(db1, userId, now);
        Step(Audit(db2, userId, "password_change"), Success(()))
  }

  // -------------------------------------------------- credential vault

  /** `saveApiKey(userId, provider, apiKey)`, with `iv` the random IV the
      encryption draws. Provider, ciphertext and IV are written together. */
  function SaveApiKey(db: Db, p: Primitives, env: Env, userId: UserId, provider: string, apiKey: string,
                      iv: Bytes): (r: Step<()>)
    requires |iv| == IV_LENGTH
    ensures !KnownProvider(provider) ==> r == Step(db, Failure(INVALID_PROVIDER))
    ensures r.result.Success? <==> KnownProvider(provider) && env.encryptionKey.Some? && userId < |db.users|
    ensures r.result.Failure? ==> r.db == db
    ensures r.result.Success? ==>
      var sealed := Encrypt(p, apiKey, env.encryptionKey, iv).value;
      && |r.db.users| == |db.users|
      && r.db.users == db.users[userId := db.users[userId].(
           apiProvider := Some(provider), apiKeyEncrypted := Some(sealed.encrypted), apiKeyIv := Some(sealed.iv))]
      && r.db.tokens == db.tokens && r.db.codes == db.codes && r.db.usage == db.usage
      && r.db.audit == db.audit + [AuditEntry(userId, "api_key_update")]
    ensures Valid(db) ==> Valid(r.db)
  {
    if !KnownProvider(provider) then Step(db, Failure(INVALID_PROVIDER))
    else
      match Encrypt(p, apiKey, env.encryptionKey, iv)
      case Failure(e) => Step(db, Failure(e))
      case Success(sealed) =>
        if userId >= |db.users| then Step(db, Failure(RECORD_NOT_FOUND))
        else
          var user := db.users[userId].(apiProvider := Some(provider), apiKeyEncrypted := Some(sealed.encrypted),
                                        apiKeyIv := Some(sealed.iv));
          Step(Audit(db.(users := db.users[userId := user]), userId, "api_key_update"), Success(()))
  }

  /** A saved key decrypts back to the key the user supplied. */
  lemma SavedKeyDecrypts(db: Db, p: Primitives, env: Env, userId: UserId, provider: string, apiKey: string, iv: Bytes)
    requires Sound(p) && |iv| == IV_LENGTH
    requires SaveApiKey(db, p, env, userId, provider, apiKey, iv).result.Success?
    ensures var u := SaveApiKey(db, p, env, userId, provider, apiKey, iv).db.users[userId];
      Decrypt(p, u.apiKeyEncrypted.value, u.apiKeyIv.value, env.encryptionKey) == Success(apiKey)
  {
    EncryptDecryptRoundTrip(p, apiKey, env.encryptionKey.value, iv);
  }

  /** `removeApiKey(userId)`: clears provider, ciphertext and IV together. */
  function RemoveApiKey(db: Db, userId: UserId): (r: Step<()>)
    ensures r.result.Success? <==> userId < |db.users|
    ensures r.result.Failure? ==> r.db == db
    ensures r.result.Success? ==>
      && r.db.users == db.users[userId := db.users[userId].(apiProvider := None, apiKeyEncrypted := None, apiKeyIv := None)]
      && r.db.tokens == db.tokens && r.db.codes == db.codes && r.db.usage == db.usage
      && r.db.audit == db.audit + [AuditEntry(userId, "api_key_remove")]
    ensures Valid(db) ==> Valid(r.db)
  {
    if userId >= |db.users| then Step(db, Failure(RECORD_NOT_FOUND))
    else
      var user := db.users[userId].(apiProvider := None, apiKeyEncrypted := None, apiKeyIv := None);
      Step(Audit(db.(users := db.users[userId := user]), userId, "api_key_remove"), Success(()))
  }

  // -------------------------------------------------------- trial mode

  /** The answer of `enableTrialMode`; only a first enable carries the
      start time. */
  datatype TrialGrant = TrialGrant(trialCredits: real, alreadyEnabled: bool, trialStartedAt: Option<nat>)

  /** `enableTrialMode(userId)`: grants 0.5 credits the first time;
      afterwards reports the current balance and changes nothing. */
  function EnableTrialMode(db: Db, userId: UserId, now: nat): (r: Step<TrialGrant>)
    ensures userId < |db.users| && db.users[userId].useTrialMode ==>
      r == Step(db, Success(TrialGrant(db.users[userId].trialCredits, true, None)))
    ensures userId >= |db.users| ==> r == Step(db, Failure(RECORD_NOT_FOUND))
    ensures userId < |db.users| && !db.users[userId].useTrialMode ==>
      && r.result == Success(TrialGrant(TRIAL_GRANT, false, Some(now)))
      && r.db.users == db.users[userId := db.users[userId].(
           useTrialMode := true, trialCredits := TRIAL_GRANT, trialStartedAt := Some(now))]
      && r.db.tokens == db.tokens && r.db.codes == db.codes && r.db.usage == db.usage
      && r.db.audit == db.audit + [AuditEntry(userId, "trial_mode_enabled")]
    ensures Valid(db) ==> Valid(r.db)
  {
    if userId < |db.users| && db.users[userId].useTrialMode then
      Step(db, Success(TrialGrant(db.users[userId].trialCredits, true, None)))
    else if userId >= |db.users| then Step(db, Failure(RECORD_NOT_FOUND))
    else
      var user := db.users[userId].(useTrialMode := true, trialCredits := TRIAL_GRANT, trialStartedAt := Some(now));
      Step(Audit(db.(users := db.users[userId := user]), userId, "trial_mode_enabled"), Success(TrialGrant(TRIAL_GRANT, false, Some(now))))
  }

  /** Enabling trial mode twice is enabling it once: the second call
      reports `alreadyEnabled`, leaves the database alone and returns the
      balance the first call set. */
  lemma EnableTrialModeIdempotent(db: Db, userId: UserId, now: nat, later: nat)
    requires EnableTrialMode(db, userId, now).result.Success?
    ensures var first := EnableTrialMode(db, userId, now);
      var second := EnableTrialMode(first.db, userId, later);
      && second.db == first.db
      && second.result.Success? && second.result.value.alreadyEnabled
      && second.result.value.trialCredits == first.db.users[userId].trialCredits
  {
  }

  datatype ApiKeyStatus = ApiKeyStatus(hasApiKey: bool, provider: Option<string>, useTrialMode: bool,
                                       trialCredits: real, trialStartedAt: Option<nat>)

  /** `getApiKeyStatus(userId)`; a missing user reads as no key and no
      trial. */
  function GetApiKeyStatus(db: Db, userId: UserId): (s: ApiKeyStatus)
    ensures s.hasApiKey <==> userId < |db.users| && Truthy(db.users[userId].apiKeyEncrypted)
    ensures s.useTrialMode <==> userId < |db.users| && db.users[userId].useTrialMode
    ensures userId >= |db.users| ==> s.trialCredits == 0.0 && s.provider.None?
  {
    match UserById(db, userId)
    case None => ApiKeyStatus(false, None, false, 0.0, None)
    case Some(u) => ApiKeyStatus(Truthy(u.apiKeyEncrypted), u.apiProvider, u.useTrialMode, u.trialCredits, u.trialStartedAt)
  }
}

=== FILE: base.dfy ===
/** Shared vocabulary: optional values, results carrying an error message
    (the server's thrown `Error(message)`), and the few JavaScript string
    operations the core relies on (`trim`, `toLowerCase`, `startsWith`,
    `includes`, `split(',')[0]`) together with JavaScript truthiness. */
module Base {

  datatype Option<+T> = None | Some(value: T)

  /** A computation that either yields a value or throws an `Error` whose
      message is `error`. */
  datatype Result<+T> = Success(value: T) | Failure(error: string) {
    predicate IsFailure() { Failure? }

    function PropagateFailure<U>(): Result<U>
      requires Failure?
    {
      Failure(error)
    }

    function Extract(): T
      requires Success?
    {
      value
    }
  }

  /** JavaScript truthiness of a string that may be `undefined`/`null`:
      the empty string is falsy like a missing one. */
  predicate Truthy(s: Option<string>) {
    s.Some? && |s.value| > 0
  }

  /** The process environment variables the core reads; `None` is an
      unset variable. */
  datatype Env = Env(
    nodeEnv: Option<string>,              // NODE_ENV
    demoMode: Option<string>,             // DEMO_MODE
    encryptionKey: Option<string>,        // ENCRYPTION_KEY
    operatorApiKey: Option<string>,       // RELATIVIT_API_KEY
    operatorApiProvider: Option<string>   // RELATIVIT_API_PROVIDER
  )

  /** `a || b` on optional strings. */
  function OrElse(a: Option<string>, b: Option<string>): (r: Option<string>)
    ensures Truthy(a) ==> r == a
    ensures !Truthy(a) ==> r == b
  {
    if Truthy(a) then a else b
  }

  /** ECMAScript WhiteSpace and LineTerminator code points, the set
      `String.prototype.trim` removes. */
  predicate IsSpace(c: char) {
    || c == '\t' || c == '\n' || c == '\U{000B}' || c == '\U{000C}' || c == '\r' || c == ' '
    || c == '\U{00A0}' || c == '\U{1680}' || ('\U{2000}' <= c <= '\U{200A}')
    || c == '\U{2028}' || c == '\U{2029}' || c == '\U{202F}' || c == '\U{205F}'
    || c == '\U{3000}' || c == '\U{FEFF}'
  }

  /** Removes leading white space: the result is a suffix of `s` and all
      that was dropped is white space. */
  function TrimStart(s: string): (r: string)
    ensures |r| <= |s| && r == s[|s| - |r|..]
    ensures forall i :: 0 <= i < |s| - |r| ==> IsSpace(s[i])
    ensures |r| == 0 || !IsSpace(r[0])
  {
    if |s| > 0 && IsSpace(s[0]) then TrimStart(s[1..]) else s
  }

  /** Removes trailing white space: the result is a prefix of `s` and all
      that was dropped is white space. */
  function TrimEnd(s: string): (r: string)
    ensures |r| <= |s| && r == s[..|r|]
    ensures forall i :: |r| <= i < |s| ==> IsSpace(s[i])
    ensures |r| == 0 || !IsSpace(r[|r| - 1])
  {
    if |s| > 0 && IsSpace(s[|s| - 1]) then TrimEnd(s[..|s| - 1]) else s
  }

  /** `String.prototype.trim`. */
  function Trim(s: string): string {
    TrimEnd(TrimStart(s))
  }

  /** The trimmed string has no white space at either end and is a
      contiguous piece of the input. */
  lemma TrimShape(s: string)
    ensures var r := Trim(s); var k := |s| - |TrimStart(s)|;
      && (|r| == 0 || (!IsSpace(r[0]) && !IsSpace(r[|r| - 1])))
      && 0 <= k <= |s| - |r| && r == s[k..k + |r|]
  {
    TrimEnds(s);
    TrimSlice(s);
  }

  lemma TrimSlice(s: string)
    ensures var r := Trim(s); var k := |s| - |TrimStart(s)|;
      0 <= k <= |s| - |r| && r == s[k..k + |r|]
  {
    var t := TrimStart(s);
    var k := |s| - |t|;
    assert t == s[k..];
    var r := TrimEnd(t);
    assert r == t[..|r|];
    PrefixOfSuffix(s, k, |r|);
  }

  lemma PrefixOfSuffix(s: string, k: nat, n: nat)
    requires k + n <= |s|
    ensures s[k..][..n] == s[k..k + n]
  {
  }

  /** Neither end of a trimmed string is white space. */
  lemma TrimEnds(s: string)
    ensures |Trim(s)| == 0 || (!IsSpace(Trim(s)[0]) && !IsSpace(Trim(s)[|Trim(s)| - 1]))
  {
    var t := TrimStart(s);
    var r := TrimEnd(t);
    assert r == t[..|r|];
    if |r| > 0 {
      assert r[0] == t[0];
    }
  }

  /** Trimming only removes characters. */
  lemma TrimKeepsChars(s: string)
    ensures forall c :: c in Trim(s) ==> c in s
  {
    TrimSlice(s);
    SliceKeepsChars(s, |s| - |TrimStart(s)|, |Trim(s)|);
  }

  lemma SliceKeepsChars(s: string, k: nat, n: nat)
    requires k + n <= |s|
    ensures forall c :: c in s[k..k + n] ==> c in s
  {
    forall c | c in s[k..k + n]
      ensures c in s
    {
      var i :| 0 <= i < n && s[k..k + n][i] == c;
      assert s[k + i] == c;
    }
  }

  /** Trimming twice is trimming once. */
  lemma TrimIdempotent(s: string)
    ensures Trim(Trim(s)) == Trim(s)
  {
    var r := Trim(s);
    TrimShape(s);
    assert TrimStart(r) == r;
    assert TrimEnd(r) == r;
  }

  /** `toLowerCase` on one character (ASCII letters only). */
  function LowerChar(c: char): char {
    if 'A' <= c <= 'Z' then (c as int + 32) as char else c
  }

  /** `String.prototype.toLowerCase`, restricted to the ASCII letters. */
  function ToLower(s: string): (r: string)
    ensures |r| == |s|
    ensures forall i :: 0 <= i < |s| ==> r[i] == LowerChar(s[i])
  {
    if |s| == 0 then [] else [LowerChar(s[0])] + ToLower(s[1..])
  }

  /** `email.toLowerCase().trim()`, the key under which the server stores
      users and verification codes. */
  function NormalizeEmail(email: string): string {
    Trim(ToLower(email))
  }

  /** Lower-casing leaves a string whose letters are already lower case
      unchanged. */
  lemma ToLowerFixed(s: string)
    requires forall c :: c in s ==> LowerChar(c) == c
    ensures ToLower(s) == s
  {
    assert forall i :: 0 <= i < |s| ==> ToLower(s)[i] == s[i];
  }

  /** Every character of a lower-cased string is lower case. */
  lemma ToLowerIsLower(s: string)
    ensures forall c :: c in ToLower(s) ==> LowerChar(c) == c
  {
    var l := ToLower(s);
    forall i | 0 <= i < |l|
      ensures LowerChar(l[i]) == l[i]
    {
      LowerCharIdempotent(s[i]);
    }
  }

  /** Normalising an already normalised address changes nothing, so a
      lookup by a stored email finds the same record. */
  lemma NormalizeEmailIdempotent(email: string)
    ensures NormalizeEmail(NormalizeEmail(email)) == NormalizeEmail(email)
  {
    var l := ToLower(email);
    var n := Trim(l);
    ToLowerIsLower(email);
    TrimKeepsChars(l);
    ToLowerFixed(n);
    TrimIdempotent(l);
  }

  lemma LowerCharIdempotent(c: char)
    ensures LowerChar(LowerChar(c)) == LowerChar(c)
  {
  }

  /** The weight of one character in JavaScript's `length`: characters
      outside the Basic Multilingual Plane take a surrogate pair. */
  function Utf16Units(c: char): nat {
    if c as int > 0xFFFF then 2 else 1
  }

  /** JavaScript's `s.length`: the number of UTF-16 code units. */
  function Utf16Length(s: string): (n: nat)
    ensures |s| <= n <= 2 * |s|
  {
    if |s| == 0 then 0 else Utf16Units(s[0]) + Utf16Length(s[1..])
  }

  /** The unit count adds up over concatenation. */
  lemma {:induction false} Utf16LengthAppend(a: string, b: string)
    ensures Utf16Length(a + b) == Utf16Length(a) + Utf16Length(b)
  {
    if |a| == 0 {
      assert a + b == b;
    } else {
      assert (a + b)[0] == a[0] && (a + b)[1..] == a[1..] + b;
      Utf16LengthAppend(a[1..], b);
    }
  }

  /** Within the Basic Multilingual Plane the unit count is the character
      count. */
  lemma {:induction false} Utf16LengthBmp(s: string)
    requires forall i :: 0 <= i < |s| ==> s[i] as int <= 0xFFFF
    ensures Utf16Length(s) == |s|
  {
    if |s| > 0 {
      Utf16LengthBmp(s[1..]);
    }
  }

  /** `s.startsWith(p)`. */
  predicate StartsWith(s: string, p: string) {
    |p| <= |s| && s[..|p|] == p
  }

  /** `s.includes(sub)`. */
  predicate Contains(s: string, sub: string) {
    exists i :: 0 <= i <= |s| - |sub| && OccursAt(s, sub, i)
  }

  /** Whatever is written around `sub` still contains it. */
  lemma ContainsInfix(a: string, sub: string, b: string)
    ensures Contains(a + sub + b, sub)
  {
    var s := a + sub + b;
    assert s[|a|..|a| + |sub|] == sub;
    assert OccursAt(s, sub, |a|);
  }

  /** `sub` occurs in `s` starting at index `i`. */
  predicate OccursAt(s: string, sub: string, i: int) {
    0 <= i <= |s| - |sub| && s[i..i + |sub|] == sub
  }

  /** The part of `s` before its first `c`, or all of `s`: JavaScript's
      `s.split(c)[0]`. */
  function BeforeFirst(s: string, c: char): (r: string)
    ensures |r| <= |s| && r == s[..|r|]
    ensures c !in r
    ensures |r| < |s| ==> s[|r|] == c
  {
    if |s| == 0 || s[0] == c then [] else [s[0]] + BeforeFirst(s[1..], c)
  }
}

=== FILE: client.dfy ===
/** The non-visual logic of the web client (`App.jsx`): the API wrapper's
    retry-once-on-expiry rule and token refresh, the issue-tree progress
    count, node expansion toggling, and which screen the root shows. */
module Client {
  import opened Base
  import opened Store
  import opened IssueTree
  import opened AuthService

  const TOKEN_EXPIRED := "TOKEN_EXPIRED"
  const SESSION_EXPIRED := "Session expired. Please log in again."
  const NO_REFRESH_TOKEN := "No refresh token available"
  const REFRESH_FAILED := "Refresh failed"
  const REQUEST_FAILED := "Request failed"

  // ------------------------------------------------------ api wrapper

  /** The access and refresh tokens the client holds (mirrored in local
      storage); `None` is a cleared token. */
  datatype Tokens = Tokens(access: Option<string>, refresh: Option<string>)

  /** A server reply: its status and the JSON fields the client reads.
      `None` for a whole reply stands for a fetch that threw. */
  datatype Reply = Reply(status: nat, error: Option<string>, details: Option<string>, code: Option<string>,
                         accessToken: Option<string>, refreshToken: Option<string>)

  /** `response.ok`. */
  predicate IsOk(r: Reply) {
    200 <= r.status <= 299
  }

  /** `api.refreshAccessToken()`. `inFlight` says a refresh is already
      under way: the caller then awaits that shared promise, whose handler
      writes the new tokens into the one `api` object before it resolves,
      so the caller ends with the same tokens as the call that started it.
      `reply` is the answer to the POST /auth/refresh whose outcome is
      awaited, or `Failure(m)` when that fetch (or reading its JSON) threw
      with message `m`. */
  function RefreshTokens(t: Tokens, inFlight: bool, reply: Result<Reply>): (r: (Tokens, Result<Option<string>>))
    ensures !inFlight && !Truthy(t.refresh) ==> r == (t, Failure(NO_REFRESH_TOKEN))
    ensures (inFlight || Truthy(t.refresh)) && reply.Failure? ==> r == (t, Failure(reply.error))
    ensures (inFlight || Truthy(t.refresh)) && reply.Success? && !IsOk(reply.value) ==>
      r == (t, Failure(OrElse(reply.value.error, Some(REFRESH_FAILED)).value))
    ensures r.1.Failure? ==> r.0 == t
    ensures r.1.Success? <==> (inFlight || Truthy(t.refresh)) && reply.Success? && IsOk(reply.value)
    ensures r.1.Success? ==>
      && r.0.access == reply.value.accessToken && r.1.value == reply.value.accessToken
      && r.0.refresh == (if Truthy(reply.value.refreshToken) then reply.value.refreshToken else t.refresh)
  {
    if !inFlight && !Truthy(t.refresh) then (t, Failure(NO_REFRESH_TOKEN))
    else match reply
      case Failure(m) => (t, Failure(m))
      case Success(rep) =>
        if !IsOk(rep) then (t, Failure(OrElse(rep.error, Some(REFRESH_FAILED)).value))
        else
          var refresh := if Truthy(rep.refreshToken) then rep.refreshToken else t.refresh;
          (Tokens(rep.accessToken, refresh), Success(rep.accessToken))
  }

  /** A caller that joins a refresh under way ends with exactly the tokens
      and outcome of the caller that started it. */
  lemma SharedRefreshAgrees(t: Tokens, reply: Result<Reply>)
    requires Truthy(t.refresh)
    ensures RefreshTokens(t, true, reply) == RefreshTokens(t, false, reply)
  {
  }

  /** A refresh reply that omits the refresh token keeps the one held. */
  lemma RefreshKeepsRefreshToken(t: Tokens, reply: Reply)
    requires Truthy(t.refresh) && IsOk(reply) && !Truthy(reply.refreshToken)
    ensures RefreshTokens(t, false, Success(reply)).0 == Tokens(reply.accessToken, t.refresh)
  {
  }

  /** The first reply asks the client to refresh and try again. */
  predicate AsksForRefresh(r: Reply) {
    r.status == 401 && r.code == Some(TOKEN_EXPIRED)
  }

  /** The outcome of `api.request`: the tokens afterwards, the data or the
      thrown message, and how many times the endpoint itself was called. */
  datatype Requested = Requested(tokens: Tokens, result: Result<Reply>, calls: nat)

  /** `data.error || data.details || 'Request failed'`. */
  function FailureMessage(r: Reply): (m: string)
    ensures |m| > 0
    ensures Truthy(r.error) ==> m == r.error.value
    ensures !Truthy(r.error) && Truthy(r.details) ==> m == r.details.value
  {
    OrElse(r.error, OrElse(r.details, Some(REQUEST_FAILED))).value
  }

  /** The final reply becomes the result or the thrown message. */
  function Settle(r: Reply): (res: Result<Reply>)
    ensures res.Success? <==> IsOk(r)
    ensures res.Success? ==> res.value == r
    ensures res.Failure? ==> res.error == FailureMessage(r)
  {
    if IsOk(r) then Success(r) else Failure(FailureMessage(r))
  }

  /** `api.request(endpoint, options)`. `first` answers the first call,
      `inFlight`/`refreshReply` feed the refresh, and `retry` answers the
      second call (`None` when that fetch threw). */
  function Request(t: Tokens, first: Reply, inFlight: bool, refreshReply: Result<Reply>,
                   retry: Option<Reply>): (r: Requested)
    ensures 1 <= r.calls <= 2
    ensures r.calls == 2 <==> AsksForRefresh(first) && RefreshTokens(t, inFlight, refreshReply).1.Success?
    ensures !AsksForRefresh(first) ==> r == Requested(t, Settle(first), 1)
    ensures AsksForRefresh(first) && RefreshTokens(t, inFlight, refreshReply).1.Failure? ==>
      r == Requested(Tokens(None, None), Failure(SESSION_EXPIRED), 1)
    ensures r.calls == 2 ==>
      var t1 := RefreshTokens(t, inFlight, refreshReply).0;
      && (retry.None? ==> r == Requested(Tokens(None, None), Failure(SESSION_EXPIRED), 2))
      && (retry.Some? ==> r == Requested(t1, Settle(retry.value), 2))
  {
    if !AsksForRefresh(first) then Requested(t, Settle(first), 1)
    else
      var (t1, renewed) := RefreshTokens(t, inFlight, refreshReply);
      if renewed.Failure? then Requested(Tokens(None, None), Failure(SESSION_EXPIRED), 1)
      else if retry.None? then Requested(Tokens(None, None), Failure(SESSION_EXPIRED), 2)
      else Requested(t1, Settle(retry.value), 2)
  }

  /** A second expiry is not retried: it surfaces as an ordinary failure. */
  lemma NoSecondRetry(t: Tokens, first: Reply, inFlight: bool, refreshReply: Result<Reply>,
                      retry: Reply)
    requires AsksForRefresh(first) && AsksForRefresh(retry)
    requires RefreshTokens(t, inFlight, refreshReply).1.Success?
    ensures var r := Request(t, first, inFlight, refreshReply, Some(retry));
      r.calls == 2 && r.result == Failure(FailureMessage(retry))
  {
  }

  /** Whenever the client gives up on the session it forgets both tokens,
      and it gives up only after the server reported an expired token. */
  lemma SessionExpiryClearsTokens(t: Tokens, first: Reply, inFlight: bool,
                                  refreshReply: Result<Reply>, retry: Option<Reply>)
    ensures var r := Request(t, first, inFlight, refreshReply, retry);
      r.result == Failure(SESSION_EXPIRED) && (!IsOk(first) ==> FailureMessage(first) != SESSION_EXPIRED)
        && (retry.Some? && !IsOk(retry.value) ==> FailureMessage(retry.value) != SESSION_EXPIRED) ==>
      r.tokens == Tokens(None, None) && AsksForRefresh(first)
  {
  }

  // ---------------------------------------------------------- progress

  datatype Progress = Progress(completed: nat, active: nat, pending: nat)

  const NO_PROGRESS := Progress(0, 0, 0)

  function Add(a: Progress, b: Progress): Progress {
    Progress(a.completed + b.completed, a.active + b.active, a.pending + b.pending)
  }

  function Total(p: Progress): nat {
    p.completed + p.active + p.pending
  }

  /** How one leaf counts: any status other than 'completed' or 'active'
      is pending. */
  function LeafProgress(status: string): (p: Progress)
    ensures Total(p) == 1
    ensures p.completed == 1 <==> status == "completed"
    ensures p.active == 1 <==> status == "active"
    ensures p.pending == 1 <==> status != "completed" && status != "active"
  {
    if status == "completed" then Progress(1, 0, 0)
    else if status == "active" then Progress(0, 1, 0)
    else Progress(0, 0, 1)
  }

  /** The progress of a tree: the sum over its leaves; inner nodes do not
      count, whatever their status. */
  function Count(n: Node): Progress
    decreases n, 1
  {
    if |n.children| == 0 then LeafProgress(n.status) else CountAll(n.children)
  }

  function CountAll(ns: seq<Node>): Progress
    decreases ns, 0
  {
    if |ns| == 0 then NO_PROGRESS else Add(Count(ns[0]), CountAll(ns[1..]))
  }

  function Leaves(n: Node): nat
    decreases n, 1
  {
    if |n.children| == 0 then 1 else LeavesAll(n.children)
  }

  function LeavesAll(ns: seq<Node>): nat
    decreases ns, 0
  {
    if |ns| == 0 then 0 else Leaves(ns[0]) + LeavesAll(ns[1..])
  }

  /** The number of nodes, the measure the iterative count consumes. */
  function Size(n: Node): nat
    decreases n, 1
  {
    1 + SizeAll(n.children)
  }

  function SizeAll(ns: seq<Node>): nat
    decreases ns, 0
  {
    if |ns| == 0 then 0 else Size(ns[0]) + SizeAll(ns[1..])
  }

  /** completed + active + pending is the number of leaves. */
  lemma {:induction false} CountTotal(n: Node)
    ensures Total(Count(n)) == Leaves(n)
    decreases n, 1
  {
    if |n.children| > 0 {
      CountAllTotal(n.children);
    }
  }

  lemma {:induction false} CountAllTotal(ns: seq<Node>)
    ensures Total(CountAll(ns)) == LeavesAll(ns)
    decreases ns, 0
  {
    if |ns| > 0 {
      CountTotal(ns[0]);
      CountAllTotal(ns[1..]);
    }
  }

  lemma {:induction false} CountAllAppend(a: seq<Node>, b: seq<Node>)
    ensures CountAll(a + b) == Add(CountAll(a), CountAll(b))
    ensures SizeAll(a + b) == SizeAll(a) + SizeAll(b)
  {
    if |a| == 0 {
      assert a + b == b;
    } else {
      assert (a + b)[0] == a[0];
      assert (a + b)[1..] == a[1..] + b;
      CountAllAppend(a[1..], b);
    }
  }

  /** One step of the walk: a leaf's contribution is added to the running
      total; an inner node adds nothing. */
  function Visit(p: Progress, n: Node): (q: Progress)
    ensures |n.children| == 0 ==> q == Add(p, LeafProgress(n.status))
    ensures |n.children| > 0 ==> q == p
    ensures Total(q) == Total(p) + (if |n.children| == 0 then 1 else 0)
  {
    if |n.children| == 0 then Add(p, LeafProgress(n.status)) else p
  }

  /** Visiting the node on top of the stack replaces it by its children
      and, for a leaf, moves its contribution into the running total: the
      sum of total and stack is unchanged and the stack gets smaller. */
  lemma VisitStep(p: Progress, stack: seq<Node>)
    requires |stack| > 0
    ensures Add(Visit(p, stack[0]), CountAll(stack[0].children + stack[1..])) == Add(p, CountAll(stack))
    ensures SizeAll(stack[0].children + stack[1..]) < SizeAll(stack)
  {
    var n := stack[0];
    var rest := stack[1..];
    CountAllAppend(n.children, rest);
    assert CountAll(stack) == Add(Count(n), CountAll(rest));
    assert SizeAll(stack) == Size(n) + SizeAll(rest);
    var tail := CountAll(rest);
    if |n.children| == 0 {
      assert n.children + rest == rest;
      AddAssoc(p, LeafProgress(n.status), tail);
    } else {
      assert Count(n) == CountAll(n.children);
      assert CountAll(n.children + rest) == Add(Count(n), tail);
    }
  }

  lemma AddAssoc(a: Progress, b: Progress, c: Progress)
    ensures Add(Add(a, b), c) == Add(a, Add(b, c))
  {
  }

  lemma SingletonCount(n: Node)
    ensures Add(NO_PROGRESS, CountAll([n])) == Count(n)
  {
    assert [n][1..] == [];
  }

  /** `calculateProgress(tree)`: a depth-first walk with an explicit
      stack, visiting nodes in the order the source's recursive `count`
      does. */
  method CalculateProgress(tree: Option<Node>) returns (p: Progress)
    ensures tree.None? ==> p == NO_PROGRESS
    ensures tree.Some? ==> p == Count(tree.value)
    ensures tree.Some? ==> Total(p) == Leaves(tree.value)
  {
    if tree.None? {
      return NO_PROGRESS;
    }
    var root := tree.value;
    var stack := [root];
    p := NO_PROGRESS;
    SingletonCount(root);
    while |stack| > 0
      invariant Add(p, CountAll(stack)) == Count(root)
      decreases SizeAll(stack)
    {
      var n := stack[0];
      VisitStep(p, stack);
      p := Visit(p, n);
      stack := n.children + stack[1..];
    }
    EmptyStack(p, stack);
    CountTotal(root);
  }

  lemma EmptyStack(p: Progress, stack: seq<Node>)
    requires |stack| == 0
    ensures Add(p, CountAll(stack)) == p
  {
  }

  // ------------------------------------------------------- expansion

  /** `toggleNode(nodeId)` on the set of expanded node ids. */
  function ToggleNode(expanded: set<string>, id: string): (r: set<string>)
    ensures id in r <==> id !in expanded
    ensures forall x :: x != id ==> (x in r <==> x in expanded)
  {
    if id in expanded then expanded - {id} else expanded + {id}
  }

  /** Toggling the same node twice restores the set. */
  lemma ToggleTwice(expanded: set<string>, id: string)
    ensures ToggleNode(ToggleNode(expanded, id), id) == expanded
  {
  }

  // ----------------------------------------------------------- screens

  datatype Screen = LoadingScreen | AuthScreen | KeySetupScreen | MainScreen

  /** The root component's choice: the spinner while loading, whoever is
      signed in; the sign-in screen without a user; the main app only for a
      signed-in user with a usable key. */
  function SelectScreen(loading: bool, user: Option<SafeUser>, hasApiKey: bool): (s: Screen)
    ensures loading ==> s == LoadingScreen
    ensures !loading ==> s != LoadingScreen
    ensures !loading && user.None? ==> s == AuthScreen
    ensures s == MainScreen ==> user.Some? && hasApiKey
    ensures !loading && user.Some? ==> (s == MainScreen <==> hasApiKey) && s != AuthScreen
  {
    if loading then LoadingScreen
    else if user.None? then AuthScreen
    else if !hasApiKey then KeySetupScreen
    else MainScreen
  }

  /** `status.hasApiKey || status.useTrialMode`, what login stores. */
  function HasKeyFromStatus(s: ApiKeyStatus): bool {
    s.hasApiKey || s.useTrialMode
  }

  /** Right after login the client shows the main app exactly when the
      account has a stored key or trial mode on, and the key setup screen
      otherwise. */
  lemma ScreenAfterLogin(db: Db, id: UserId)
    requires id < |db.users|
    ensures var u := db.users[id];
      var s := SelectScreen(false, Some(Sanitize(id, u)), HasKeyFromStatus(GetApiKeyStatus(db, id)));
      && (s == MainScreen <==> Truthy(u.apiKeyEncrypted) || u.useTrialMode)
      && (s == KeySetupScreen <==> !Truthy(u.apiKeyEncrypted) && !u.useTrialMode)
  {
  }

  /** The two ways the client learns whether a key is usable agree: the
      flag in the sanitised user (read at start-up) and the one derived
      from the key status (read at login). */
  lemma KeyFlagsAgree(db: Db, id: UserId)
    requires id < |db.users|
    ensures Sanitize(id, db.users[id]).hasApiKey == HasKeyFromStatus(GetApiKeyStatus(db, id))
  {
  }
}

=== FILE: encryption.dfy ===
/** The encryption utility: AES-256-GCM framing of secrets as hex strings,
    random token and verification-code generation, and password hashing.
    The primitives themselves (SHA-256, the AES counter-mode keystream, the
    GCM authentication tag, bcrypt) are abstract functions collected in
    `Primitives`, constrained only by the facts in `Sound`. */
module Encryption {
  import opened Base

  newtype byte = x: int | 0 <= x < 256
  type Bytes = seq<byte>

  /** Length in bytes of the random IV `encrypt` draws. */
  const IV_LENGTH: nat := 16
  /** Length in bytes of the GCM authentication tag appended to the ciphertext. */
  const AUTH_TAG_LENGTH: nat := 16
  /** The fixed code handed out in demo or development configuration. */
  const DEMO_CODE := "677485"

  /** Abstract cryptographic primitives.
      `ctrEncrypt(key, iv, text)` is AES-256 in GCM's counter mode applied to
      the UTF-8 bytes of `text`; `ctrDecrypt` undoes it; `gcmTag(key, iv, ct)`
      is the GCM tag over the ciphertext (section 7.1 of NIST SP 800-38D:
      with no additional data the tag depends only on key, IV and
      ciphertext). */
  datatype Primitives = Primitives(
    sha256: string -> Bytes,
    ctrEncrypt: (Bytes, Bytes, string) -> Bytes,
    ctrDecrypt: (Bytes, Bytes, Bytes) -> string,
    gcmTag: (Bytes, Bytes, Bytes) -> Bytes,
    bcryptHash: (string, Bytes) -> string,
    bcryptCompare: (string, string) -> bool
  )

  /** What the model assumes of the primitives: digest and tag sizes, that
      decryption inverts encryption under the same key and IV, and that a
      bcrypt hash verifies against the password it was made from. */
  ghost predicate Sound(p: Primitives) {
    && (forall s :: |p.sha256(s)| == 32)
    && (forall k, iv, t :: p.ctrDecrypt(k, iv, p.ctrEncrypt(k, iv, t)) == t)
    && (forall k, iv, c :: |p.gcmTag(k, iv, c)| == AUTH_TAG_LENGTH)
    && (forall pw, salt :: p.bcryptCompare(pw, p.bcryptHash(pw, salt)))
  }

  // ---------------------------------------------------------------- hex

  /** A digit of `buffer.toString('hex')`: 0-9 or a-f. */
  predicate IsLowerHexDigit(c: char) {
    '0' <= c <= '9' || 'a' <= c <= 'f'
  }

  function HexChar(n: int): (c: char)
    requires 0 <= n < 16
    ensures IsLowerHexDigit(c)
  {
    if n < 10 then ('0' as int + n) as char else ('a' as int + n - 10) as char
  }

  /** Value of one hex digit, either case, as Node's hex decoder reads it. */
  function HexValue(c: char): Option<int> {
    if '0' <= c <= '9' then Some(c as int - '0' as int)
    else if 'a' <= c <= 'f' then Some(c as int - 'a' as int + 10)
    else if 'A' <= c <= 'F' then Some(c as int - 'A' as int + 10)
    else None
  }

  predicate IsLowerHex(s: string) {
    forall i :: 0 <= i < |s| ==> IsLowerHexDigit(s[i])
  }

  /** `buffer.toString('hex')`: two lower-case digits per byte. */
  function ToHex(bs: Bytes): (h: string)
    ensures |h| == 2 * |bs|
    ensures IsLowerHex(h)
  {
    if |bs| == 0 then []
    else [HexChar(bs[0] as int / 16), HexChar(bs[0] as int % 16)] + ToHex(bs[1..])
  }

  /** `Buffer.from(h, 'hex')`: decodes digit pairs from the left and stops
      at the first pair that is not two hex digits; an odd last digit is
      dropped. */
  function FromHex(h: string): (bs: Bytes)
    ensures |bs| <= |h| / 2
  {
    if |h| < 2 then []
    else match (HexValue(h[0]), HexValue(h[1]))
      case (Some(hi), Some(lo)) => [(hi * 16 + lo) as byte] + FromHex(h[2..])
      case _ => []
  }

  lemma HexValueOfHexChar(n: int)
    requires 0 <= n < 16
    ensures HexValue(HexChar(n)) == Some(n)
  {
  }

  /** A byte's two hex digits read back as the byte. */
  lemma ByteDigits(x: byte)
    ensures HexValue(HexChar(x as int / 16)) == Some(x as int / 16)
    ensures HexValue(HexChar(x as int % 16)) == Some(x as int % 16)
    ensures ((x as int / 16) * 16 + x as int % 16) as byte == x
  {
    HexValueOfHexChar(x as int / 16);
    HexValueOfHexChar(x as int % 16);
  }

  lemma FromHexStep(h: string)
    requires |h| >= 2 && HexValue(h[0]).Some? && HexValue(h[1]).Some?
    ensures FromHex(h) == [(HexValue(h[0]).value * 16 + HexValue(h[1]).value) as byte] + FromHex(h[2..])
  {
  }

  /** Hex decoding inverts hex encoding. */
  lemma {:induction false} FromHexToHex(bs: Bytes)
    ensures FromHex(ToHex(bs)) == bs
  {
    if |bs| > 0 {
      var x := bs[0];
      var h := ToHex(bs);
      var tail := ToHex(bs[1..]);
      assert h == [HexChar(x as int / 16), HexChar(x as int % 16)] + tail;
      assert h[0] == HexChar(x as int / 16) && h[1] == HexChar(x as int % 16) && h[2..] == tail;
      ByteDigits(x);
      FromHexStep(h);
      FromHexToHex(bs[1..]);
      assert bs == [x] + bs[1..];
    }
  }

  lemma {:induction false} ToHexAppend(a: Bytes, b: Bytes)
    ensures ToHex(a + b) == ToHex(a) + ToHex(b)
  {
    if |a| > 0 {
      assert (a + b)[1..] == a[1..] + b;
      ToHexAppend(a[1..], b);
    } else {
      assert a + b == b;
    }
  }

  // --------------------------------------------------------- encryption

  /** What `encrypt` returns: hex ciphertext with the hex tag appended, and
      the hex IV. */
  datatype Sealed = Sealed(encrypted: string, iv: string)

  /** The error `hash.update(undefined)` throws. */
  const MISSING_SECRET :=
    "The \"data\" argument must be of type string or an instance of Buffer, TypedArray, or DataView. Received undefined"

  /** `crypto.createHash('sha256').update(secretKey)` rejects an undefined
      secret; every other secret yields a key. */
  function DeriveKey(p: Primitives, secret: Option<string>): (r: Result<Bytes>)
    ensures r.Failure? <==> secret.None?
    ensures r.Failure? ==> r.error == MISSING_SECRET
  {
    if secret.None? then Failure(MISSING_SECRET)
    else Success(p.sha256(secret.value))
  }

  /** `encrypt(text, secretKey)` with `iv` the 16 fresh random bytes. */
  function Encrypt(p: Primitives, text: string, secret: Option<string>, iv: Bytes): (r: Result<Sealed>)
    requires |iv| == IV_LENGTH
    ensures r.Success? <==> secret.Some?
    ensures r.Failure? ==> r.error == MISSING_SECRET
    ensures r.Success? ==> |r.value.iv| == 2 * IV_LENGTH && FromHex(r.value.iv) == iv
    ensures r.Success? && Sound(p) ==>
      |r.value.encrypted| >= 2 * AUTH_TAG_LENGTH && IsLowerHex(r.value.encrypted)
  {
    var key :- DeriveKey(p, secret);
    var ct := p.ctrEncrypt(key, iv, text);
    var tag := p.gcmTag(key, iv, ct);
    FromHexToHex(iv);
    ToHexAppend(ct, tag);
    Success(Sealed(ToHex(ct) + ToHex(tag), ToHex(iv)))
  }

  /** `encryptedData.slice(0, -32)` and `encryptedData.slice(-32)`: the
      trailing 32 characters are the tag; a shorter string is all tag. */
  function SplitTag(data: string): (r: (string, string))
    ensures r.0 + r.1 == data
    ensures |data| >= 2 * AUTH_TAG_LENGTH ==> |r.1| == 2 * AUTH_TAG_LENGTH
    ensures |data| < 2 * AUTH_TAG_LENGTH ==> r.0 == []
  {
    var n := 2 * AUTH_TAG_LENGTH;
    if |data| >= n then (data[..|data| - n], data[|data| - n..]) else ([], data)
  }

  /** Splitting undoes the framing `encrypt` applies. */
  lemma SplitTagOfFrame(ct: string, tag: string)
    requires |tag| == 2 * AUTH_TAG_LENGTH
    ensures SplitTag(ct + tag) == (ct, tag)
  {
    var d := ct + tag;
    assert d[..|d| - |tag|] == ct;
    assert d[|d| - |tag|..] == tag;
  }

  /** Tag lengths Node's `setAuthTag` accepts for GCM (4, 8 and 12 to 16
      bytes, the lengths section 5.2.1.2 of NIST SP 800-38D allows). */
  predicate ValidTagLength(n: nat) {
    n == 4 || n == 8 || (12 <= n <= 16)
  }

  const AUTH_FAILURE := "Unsupported state or unable to authenticate data"

  /** The error `setAuthTag` throws for a tag of `n` bytes it refuses. */
  function BadTagLength(n: nat): string {
    "Invalid authentication tag length: " + Decimal(n)
  }

  /** The error `decipher.update(text, 'hex')` throws for a hex string of
      odd length `n`. */
  function OddHexLength(n: nat): string {
    "The argument 'encoding' is invalid for data of length " + Decimal(n) + ". Received 'hex'"
  }

  /** `decrypt(encryptedData, ivHex, secretKey)`. */
  function Decrypt(p: Primitives, data: string, ivHex: string, secret: Option<string>): (r: Result<string>)
    ensures secret.None? ==> r == Failure(MISSING_SECRET)
    ensures secret.Some? && |FromHex(ivHex)| == 0 ==> r == Failure("Invalid initialization vector")
    ensures secret.Some? && |FromHex(ivHex)| > 0 && !ValidTagLength(|FromHex(SplitTag(data).1)|) ==>
      r == Failure(BadTagLength(|FromHex(SplitTag(data).1)|))
    ensures secret.Some? && |FromHex(ivHex)| > 0 && ValidTagLength(|FromHex(SplitTag(data).1)|)
            && |SplitTag(data).0| % 2 == 1 ==>
      r == Failure(OddHexLength(|SplitTag(data).0|))
    ensures r.Success? ==> |SplitTag(data).0| % 2 == 0
    ensures r.Success? ==>
      var key := p.sha256(secret.value);
      var iv := FromHex(ivHex);
      var ct := FromHex(SplitTag(data).0);
      var tag := FromHex(SplitTag(data).1);
      && ValidTagLength(|tag|) && |tag| <= |p.gcmTag(key, iv, ct)|
      && tag == p.gcmTag(key, iv, ct)[..|tag|]
      && r.value == p.ctrDecrypt(key, iv, ct)
  {
    var key :- DeriveKey(p, secret);
    var iv := FromHex(ivHex);
    if |iv| == 0 then Failure("Invalid initialization vector")
    else
      var (ctHex, tagHex) := SplitTag(data);
      var tag := FromHex(tagHex);
      if !ValidTagLength(|tag|) then Failure(BadTagLength(|tag|))
      else if |ctHex| % 2 == 1 then Failure(OddHexLength(|ctHex|))
      else
        var ct := FromHex(ctHex);
        var expected := p.gcmTag(key, iv, ct);
        if |tag| > |expected| || tag != expected[..|tag|] then Failure(AUTH_FAILURE)
        else Success(p.ctrDecrypt(key, iv, ct))
  }

  /** Decrypting what `encrypt` produced, with the same secret, gives the
      plaintext back. */
  lemma EncryptDecryptRoundTrip(p: Primitives, text: string, secret: string, iv: Bytes)
    requires Sound(p)
    requires |iv| == IV_LENGTH
    ensures Encrypt(p, text, Some(secret), iv).Success?
    ensures var s := Encrypt(p, text, Some(secret), iv).value;
      Decrypt(p, s.encrypted, s.iv, Some(secret)) == Success(text)
  {
    var key := p.sha256(secret);
    var ct := p.ctrEncrypt(key, iv, text);
    var tag := p.gcmTag(key, iv, ct);
    var s := Encrypt(p, text, Some(secret), iv).value;
    assert s == Sealed(ToHex(ct) + ToHex(tag), ToHex(iv));
    SplitTagOfFrame(ToHex(ct), ToHex(tag));
    FromHexToHex(ct);
    FromHexToHex(tag);
    FromHexToHex(iv);
    assert |tag| == 16;
    assert tag == tag[..|tag|];
    assert p.ctrDecrypt(key, iv, ct) == text;
  }

  /** A full-length tag other than the one GCM computes over the ciphertext
      makes `decrypt` throw instead of returning a plaintext. */
  lemma ForgedTagRejected(p: Primitives, ct: Bytes, forged: Bytes, ivHex: string, secret: string)
    requires Sound(p)
    requires |forged| == AUTH_TAG_LENGTH
    requires |FromHex(ivHex)| > 0
    requires forged != p.gcmTag(p.sha256(secret), FromHex(ivHex), ct)
    ensures Decrypt(p, ToHex(ct) + ToHex(forged), ivHex, Some(secret)) == Failure(AUTH_FAILURE)
  {
    SplitTagOfFrame(ToHex(ct), ToHex(forged));
    FromHexToHex(ct);
    FromHexToHex(forged);
  }

  // ------------------------------------------------- tokens and codes

  /** `generateSecureToken(length)`, with `random` the bytes drawn from
      `crypto.randomBytes(length)`. */
  function GenerateSecureToken(length: nat, random: Bytes): (token: string)
    requires |random| == length
    ensures |token| == 2 * length
    ensures IsLowerHex(token)
    ensures FromHex(token) == random
  {
    FromHexToHex(random);
    ToHex(random)
  }

  /** Whether `generateVerificationCode` uses the fixed demo code. */
  predicate FixedCodeMode(env: Env) {
    env.demoMode == Some("true") || env.nodeEnv == Some("development")
  }

  function DigitChar(d: int): char
    requires 0 <= d < 10
  {
    "0123456789"[d]
  }

  /** `n.toString()` for a non-negative integer. */
  function Decimal(n: nat): (s: string)
    ensures |s| > 0
  {
    if n < 10 then [DigitChar(n)] else Decimal(n / 10) + [DigitChar(n % 10)]
  }

  predicate IsDigits(s: string) {
    forall i :: 0 <= i < |s| ==> '0' <= s[i] <= '9'
  }

  /** The value of a string of decimal digits. */
  function DecimalValue(s: string): nat
    requires IsDigits(s)
  {
    if |s| == 0 then 0 else DecimalValue(s[..|s| - 1]) * 10 + (s[|s| - 1] as int - '0' as int)
  }

  function Pow10(k: nat): (r: nat)
    ensures r >= 1
  {
    if k == 0 then 1 else 10 * Pow10(k - 1)
  }

  /** `toString` renders digits only, and parsing them back gives the number. */
  lemma {:induction false} DecimalRoundTrip(n: nat)
    ensures IsDigits(Decimal(n))
    ensures DecimalValue(Decimal(n)) == n
  {
    if n >= 10 {
      DecimalRoundTrip(n / 10);
      var s := Decimal(n);
      assert s[..|s| - 1] == Decimal(n / 10);
    }
  }

  /** A number between 10^k and 10^(k+1) has k + 1 digits. */
  lemma {:induction false} DecimalLength(n: nat, k: nat)
    requires Pow10(k) <= n < Pow10(k + 1)
    ensures |Decimal(n)| == k + 1
  {
    if k > 0 {
      assert Pow10(k - 1) <= n / 10 < Pow10(k);
      DecimalLength(n / 10, k - 1);
    }
  }

  /** `generateVerificationCode()`, with `random` the value of
      `Math.random()` (in [0, 1)). */
  function GenerateVerificationCode(env: Env, random: real): (code: string)
    requires 0.0 <= random < 1.0
    ensures |code| == 6 && IsDigits(code)
    ensures FixedCodeMode(env) ==> code == DEMO_CODE
    ensures !FixedCodeMode(env) ==> 100000 <= DecimalValue(code) <= 999999
  {
    if FixedCodeMode(env) then DEMO_CODE
    else
      var n := (100000.0 + random * 900000.0).Floor;
      assert 100000 <= n <= 999999;
      DecimalRoundTrip(n);
      DecimalLength(n, 5);
      Decimal(n)
  }

  // ---------------------------------------------------------- passwords

  /** `hashPassword(password)`, with `salt` the random salt bcrypt draws. */
  function HashPassword(p: Primitives, password: string, salt: Bytes): string {
    p.bcryptHash(password, salt)
  }

  /** `verifyPassword(password, hash)`. */
  function VerifyPassword(p: Primitives, password: string, hash: string): bool {
    p.bcryptCompare(password, hash)
  }

  /** A stored hash verifies against the password it was made from. */
  lemma HashThenVerify(p: Primitives, password: string, salt: Bytes)
    requires Sound(p)
    ensures VerifyPassword(p, password, HashPassword(p, password, salt))
  {
  }
}

=== FILE: http.dfy ===
/** The shape of the JSON responses the routes send: a success body, or an
    error status with `{ error, code?, details?, maxLength?, actualLength? }`,
    and the request headers the middleware reads. */
module Http {
  import opened Base
  import opened Store

  datatype ErrorBody = ErrorBody(
    error: string,
    code: Option<string>,
    details: Option<string>,
    maxLength: Option<nat>,
    actualLength: Option<nat>)

  datatype Response<+T> = Ok(body: T) | Fail(status: nat, failure: ErrorBody)

  /** `res.status(status).json({ error })`. */
  function Error<T>(status: nat, error: string): (r: Response<T>)
    ensures r.Fail? && r.status == status && r.failure.error == error
    ensures r.failure.code.None? && r.failure.details.None?
  {
    Fail(status, ErrorBody(error, None, None, None, None))
  }

  /** `res.status(status).json({ error, code })`. */
  function CodedError<T>(status: nat, error: string, code: string): (r: Response<T>)
    ensures r.Fail? && r.status == status && r.failure.error == error && r.failure.code == Some(code)
  {
    Fail(status, ErrorBody(error, Some(code), None, None, None))
  }

  /** A handler's effect on the database together with what it answers. */
  datatype Handled<+T> = Handled(db: Db, response: Response<T>)

  /** The headers and socket addresses a handler sees; `None` is an absent
      header or address. */
  datatype Request = Request(
    authorization: Option<string>,
    forwardedFor: Option<string>,   // x-forwarded-for
    realIp: Option<string>,         // x-real-ip
    connectionAddress: Option<string>,
    socketAddress: Option<string>,
    userAgent: Option<string>)
}

=== FILE: issue_tree.dfy ===
/** The issue tree the assistant maintains for a conversation: a captioned
    node (the source's `label`; `label` is a Dafny keyword) with a status ('completed', 'active', 'pending' or anything else
    the model returned) and ordered children. */
module IssueTree {

  datatype Node = Node(id: string, caption: string, status: string, children: seq<Node>)

  /** The tree a conversation starts from when the client sends none. */
  const DEFAULT_TREE := Node("root", "Research Topic", "pending", [])
}

=== FILE: middleware.dfy ===
/** `auth.middleware.js`: Bearer-token authentication (section 2.1 of
    RFC 6750) and the client address and user-agent helpers. Signature
    checking is an abstract decoder; the expiry test on the `exp` claim
    (section 4.1.4 of RFC 7519) is concrete. */
module AuthMiddleware {
  import opened Base
  import opened Store
  import opened Http

  const BEARER_PREFIX := "Bearer "
  const TOKEN_REQUIRED := "Access token required"
  const TOKEN_EXPIRED_MESSAGE := "Access token expired"
  const TOKEN_EXPIRED := "TOKEN_EXPIRED"
  const INVALID_TOKEN := "Invalid access token"
  const UNKNOWN := "unknown"

  /** Checks a token's signature and format and yields its claims; `None`
      for anything `jwt.verify` rejects before looking at the expiry. */
  type Decoder = string -> Option<AccessClaims>

  /** What `verifyAccessToken` does with a token at time `now`
      (milliseconds): a token whose `exp` second has been reached is
      expired. */
  datatype Verdict = Accepted(claims: AccessClaims) | Expired | Invalid

  function VerifyAccessToken(decode: Decoder, token: string, now: nat): (v: Verdict)
    ensures v.Accepted? <==> decode(token).Some? && now / 1000 < decode(token).value.exp
    ensures v.Expired? <==> decode(token).Some? && now / 1000 >= decode(token).value.exp
    ensures v.Accepted? ==> v.claims == decode(token).value
  {
    match decode(token)
    case None => Invalid
    case Some(c) => if now / 1000 >= c.exp then Expired else Accepted(c)
  }

  /** The token of an `Authorization: Bearer <token>` header. */
  function BearerToken(header: Option<string>): (r: Option<string>)
    ensures r.Some? <==> header.Some? && StartsWith(header.value, BEARER_PREFIX)
    ensures r.Some? ==> header.value == BEARER_PREFIX + r.value
  {
    if header.Some? && StartsWith(header.value, BEARER_PREFIX) then
      assert header.value == header.value[..7] + header.value[7..];
      Some(header.value[7..])
    else None
  }

  /** `requireAuth`: either the request proceeds with the decoded claims
      attached, or it is answered with 401. */
  function RequireAuth(req: Request, decode: Decoder, now: nat): (r: Response<AccessClaims>)
    ensures BearerToken(req.authorization).None? ==> r == Error(401, TOKEN_REQUIRED)
    ensures BearerToken(req.authorization).Some? ==>
      var v := VerifyAccessToken(decode, BearerToken(req.authorization).value, now);
      && (v.Accepted? ==> r == Ok(v.claims))
      && (v.Expired? ==> r == CodedError(401, TOKEN_EXPIRED_MESSAGE, TOKEN_EXPIRED))
      && (v.Invalid? ==> r == Error(401, INVALID_TOKEN))
    ensures r.Fail? ==> r.status == 401
  {
    match BearerToken(req.authorization)
    case None => Error(401, TOKEN_REQUIRED)
    case Some(token) =>
      match VerifyAccessToken(decode, token, now)
      case Accepted(c) => Ok(c)
      case Expired => CodedError(401, TOKEN_EXPIRED_MESSAGE, TOKEN_EXPIRED)
      case Invalid => Error(401, INVALID_TOKEN)
  }

  /** `optionalAuth`: the request always proceeds, with claims attached only
      when the token verifies. */
  function OptionalAuth(req: Request, decode: Decoder, now: nat): (user: Option<AccessClaims>)
    ensures user.Some? <==> RequireAuth(req, decode, now).Ok?
    ensures user.Some? ==> RequireAuth(req, decode, now) == Ok(user.value)
  {
    match BearerToken(req.authorization)
    case None => None
    case Some(token) =>
      match VerifyAccessToken(decode, token, now)
      case Accepted(c) => Some(c)
      case _ => None
  }

  /** An access token issued at `issuedAt` passes `requireAuth` for just
      under fifteen minutes and is reported as expired from the fifteenth
      minute on, provided the decoder returns the claims it was signed
      with. */
  lemma AccessTokenLifetime(req: Request, decode: Decoder, id: UserId, email: string, issuedAt: nat, now: nat)
    requires BearerToken(req.authorization).Some?
    requires decode(BearerToken(req.authorization).value) == Some(IssueAccessToken(id, email, issuedAt))
    ensures now + 1000 <= issuedAt + ACCESS_TOKEN_SECONDS * 1000 ==>
      RequireAuth(req, decode, now) == Ok(IssueAccessToken(id, email, issuedAt))
    ensures now >= issuedAt + ACCESS_TOKEN_SECONDS * 1000 ==>
      RequireAuth(req, decode, now) == CodedError(401, TOKEN_EXPIRED_MESSAGE, TOKEN_EXPIRED)
  {
    var c := IssueAccessToken(id, email, issuedAt);
    assert c.iat * 1000 <= issuedAt < c.iat * 1000 + 1000;
    if now + 1000 <= issuedAt + ACCESS_TOKEN_SECONDS * 1000 {
      assert now < (c.iat + ACCESS_TOKEN_SECONDS) * 1000;
      DivBelow(now, c.exp);
    }
    if now >= issuedAt + ACCESS_TOKEN_SECONDS * 1000 {
      assert now >= c.exp * 1000;
      DivAtLeast(now, c.exp);
    }
  }

  lemma DivBelow(n: nat, k: nat)
    requires n < k * 1000
    ensures n / 1000 < k
  {
  }

  lemma DivAtLeast(n: nat, k: nat)
    requires n >= k * 1000
    ensures n / 1000 >= k
  {
  }

  /** The first comma-separated entry of x-forwarded-for, trimmed. */
  function ForwardedEntry(req: Request): (first: Option<string>)
    ensures first.Some? <==> req.forwardedFor.Some?
    ensures first.Some? ==> first.value == Trim(BeforeFirst(req.forwardedFor.value, ','))
  {
    if req.forwardedFor.Some? then Some(Trim(BeforeFirst(req.forwardedFor.value, ','))) else None
  }

  /** `getClientIp(req)`: the forwarded entry if that is non-empty;
      otherwise x-real-ip, the connection address, the socket address, in
      that order, skipping absent or empty ones; otherwise 'unknown'. */
  function ClientIp(req: Request): (ip: string)
    ensures |ip| > 0
    ensures Truthy(ForwardedEntry(req)) ==> ip == ForwardedEntry(req).value
    ensures !Truthy(ForwardedEntry(req)) && Truthy(req.realIp) ==> ip == req.realIp.value
    ensures !Truthy(ForwardedEntry(req)) && !Truthy(req.realIp) && Truthy(req.connectionAddress) ==>
      ip == req.connectionAddress.value
    ensures (!Truthy(ForwardedEntry(req)) && !Truthy(req.realIp) && !Truthy(req.connectionAddress)
             && Truthy(req.socketAddress)) ==> ip == req.socketAddress.value
    ensures (!Truthy(ForwardedEntry(req)) && !Truthy(req.realIp) && !Truthy(req.connectionAddress)
             && !Truthy(req.socketAddress)) ==> ip == UNKNOWN
  {
    OrElse(ForwardedEntry(req), OrElse(req.realIp, OrElse(req.connectionAddress, OrElse(req.socketAddress, Some(UNKNOWN))))).value
  }

  /** The forwarded address never carries a comma or surrounding white
      space. */
  lemma ForwardedIpIsOneEntry(req: Request)
    requires Truthy(ForwardedEntry(req))
    ensures var ip := ClientIp(req);
      ',' !in ip && !IsSpace(ip[0]) && !IsSpace(ip[|ip| - 1])
  {
    EntryShape(req.forwardedFor.value);
  }

  lemma EntryShape(s: string)
    requires |Trim(BeforeFirst(s, ','))| > 0
    ensures var t := Trim(BeforeFirst(s, ','));
      ',' !in t && !IsSpace(t[0]) && !IsSpace(t[|t| - 1])
  {
    var b := BeforeFirst(s, ',');
    assert ',' !in b;
    TrimEnds(b);
    TrimKeepsChars(b);
  }

  /** `getUserAgent(req)`. */
  function UserAgent(req: Request): (ua: string)
    ensures |ua| > 0
    ensures Truthy(req.userAgent) ==> ua == req.userAgent.value
    ensures !Truthy(req.userAgent) ==> ua == UNKNOWN
  {
    OrElse(req.userAgent, Some(UNKNOWN)).value
  }
}

=== FILE: settings_routes.dfy ===
/** `settings.routes.js`: trial-mode enabling, key status, and the
    validate-then-save decision for API keys. The handlers sit behind
    `requireAuth`; `userId` is the authenticated id. */
module SettingsRoutes {
  import opened Base
  import opened Encryption
  import opened Store
  import opened AuthService
  import opened AiService
  import opened Http

  const TRIAL_ENABLE_FAILED := "Failed to enable trial mode"
  const KEY_FIELDS_REQUIRED := "Provider and API key are required"
  const INVALID_API_KEY := "Invalid API key"
  const REMOVE_FAILED := "Failed to remove API key"

  /** POST /trial-mode/enable. */
  function EnableTrialRoute(db: Db, userId: UserId, now: nat): (h: Handled<TrialGrant>)
    ensures h.db == EnableTrialMode(db, userId, now).db
    ensures h.response.Ok? <==> userId < |db.users|
    ensures h.response.Fail? ==> h.response == Error(500, TRIAL_ENABLE_FAILED)
    ensures h.response.Ok? ==> h.db.users[userId].useTrialMode
  {
    var s := EnableTrialMode(db, userId, now);
    match s.result
    case Failure(_) => Handled(s.db, Error(500, TRIAL_ENABLE_FAILED))
    case Success(grant) => Handled(s.db, Ok(grant))
  }

  /** GET /api-key: whether a key is stored, never the key. */
  function ApiKeyStatusRoute(db: Db, userId: UserId): (r: Response<ApiKeyStatus>)
    ensures r.Ok?
    ensures r.body.hasApiKey <==> userId < |db.users| && Truthy(db.users[userId].apiKeyEncrypted)
    ensures userId < |db.users| ==>
      && r.body.provider == db.users[userId].apiProvider
      && r.body.useTrialMode == db.users[userId].useTrialMode
      && r.body.trialCredits == db.users[userId].trialCredits
  {
    Ok(GetApiKeyStatus(db, userId))
  }

  /** The status does not depend on the stored key material: replacing the
      ciphertext and IV of a stored key by any others leaves the answer
      unchanged. */
  lemma StatusHidesKey(db: Db, userId: UserId, encrypted: string, iv: string)
    requires userId < |db.users| && Truthy(db.users[userId].apiKeyEncrypted) && |encrypted| > 0
    ensures var u := db.users[userId];
      var other := db.(users := db.users[userId := u.(apiKeyEncrypted := Some(encrypted), apiKeyIv := Some(iv))]);
      ApiKeyStatusRoute(other, userId) == ApiKeyStatusRoute(db, userId)
  {
    var u := db.users[userId];
    var other := db.(users := db.users[userId := u.(apiKeyEncrypted := Some(encrypted), apiKeyIv := Some(iv))]);
    assert UserById(other, userId) == Some(other.users[userId]);
    assert UserById(db, userId) == Some(u);
  }

  /** What a successful save answers; `warning` would carry a quota
      message. */
  datatype KeySaved = KeySaved(provider: string, warning: Option<string>)

  /** POST /api-key. `outcome` is the reply to the validation request and
      `iv` the IV the encryption draws. */
  function SaveApiKeyRoute(db: Db, p: Primitives, env: Env, userId: UserId, provider: Option<string>,
                           apiKey: Option<string>, outcome: Outcome, iv: Bytes): (h: Handled<KeySaved>)
    requires |iv| == IV_LENGTH
    ensures !Truthy(provider) || !Truthy(apiKey) ==> h == Handled(db, Error(400, KEY_FIELDS_REQUIRED))
    ensures Truthy(provider) && Truthy(apiKey) && !ValidateApiKey(provider.value, outcome).valid ==>
      h == Handled(db, Fail(400, ErrorBody(INVALID_API_KEY, None, ValidateApiKey(provider.value, outcome).error, None, None)))
    ensures Truthy(provider) && Truthy(apiKey) && ValidateApiKey(provider.value, outcome).valid ==>
      var s := SaveApiKey(db, p, env, userId, provider.value, apiKey.value, iv);
      && h.db == s.db
      && (s.result.Failure? ==> h.response == Error(400, s.result.error))
      && (s.result.Success? ==> h.response == Ok(KeySaved(provider.value, None)))
    // a key is stored only after validation succeeded, and never with a warning
    ensures h.db != db ==> Truthy(provider) && KnownProvider(provider.value) && outcome.Answered?
    ensures h.response.Ok? ==> h.response.body.warning.None?
  {
    if !Truthy(provider) || !Truthy(apiKey) then Handled(db, Error(400, KEY_FIELDS_REQUIRED))
    else
      var name := provider.value;
      var v := ValidateApiKey(name, outcome);
      var saved := SaveApiKey(db, p, env, userId, name, apiKey.value, iv);
      if v.warning && v.isQuotaError then SaveAnswer(saved, name, v.error)
      else if !v.valid then Handled(db, Fail(400, ErrorBody(INVALID_API_KEY, None, v.error, None, None)))
      else SaveAnswer(saved, name, None)
  }

  /** The answer to a save attempt: its error message as a 400, or success
      with the given warning. */
  function SaveAnswer(s: Step<()>, provider: string, warning: Option<string>): (h: Handled<KeySaved>)
    ensures h.db == s.db
    ensures s.result.Failure? ==> h.response == Error(400, s.result.error)
    ensures s.result.Success? ==> h.response == Ok(KeySaved(provider, warning))
  {
    match s.result
    case Failure(e) => Handled(s.db, Error(400, e))
    case Success(_) => Handled(s.db, Ok(KeySaved(provider, warning)))
  }

  /** The save route never answers 'Invalid provider': an unknown provider
      is already refused by validation. */
  lemma UnknownProviderRefusedBeforeStorage(db: Db, p: Primitives, env: Env, userId: UserId, provider: string,
                                            apiKey: string, outcome: Outcome, iv: Bytes)
    requires |iv| == IV_LENGTH && |provider| > 0 && |apiKey| > 0
    requires !KnownProvider(provider)
    ensures var h := SaveApiKeyRoute(db, p, env, userId, Some(provider), Some(apiKey), outcome, iv);
      h.db == db && h.response.Fail? && h.response.failure.error == INVALID_API_KEY
      && h.response.failure.details == Some(UnknownProvider(Some(provider)))
  {
  }

  /** DELETE /api-key. */
  function RemoveApiKeyRoute(db: Db, userId: UserId): (h: Handled<()>)
    ensures h.db == RemoveApiKey(db, userId).db
    ensures h.response.Ok? <==> userId < |db.users|
    ensures h.response.Fail? ==> h.response == Error(500, REMOVE_FAILED)
    ensures h.response.Ok? ==> !Truthy(h.db.users[userId].apiKeyEncrypted) && h.db.users[userId].apiProvider.None?
  {
    var s := RemoveApiKey(db, userId);
    if s.result.Failure? then Handled(s.db, Error(500, REMOVE_FAILED)) else Handled(s.db, Ok(()))
  }

  /** POST /api-key/validate: answers the validation itself and takes no
      database, so it cannot store anything. */
  function ValidateKeyRoute(provider: Option<string>, apiKey: Option<string>, outcome: Outcome): (r: Response<Validation>)
    ensures !Truthy(provider) || !Truthy(apiKey) ==> r == Error(400, KEY_FIELDS_REQUIRED)
    ensures Truthy(provider) && Truthy(apiKey) ==> r == Ok(ValidateApiKey(provider.value, outcome))
    ensures r.Ok? ==> (r.body.valid <==> KnownProvider(provider.value) && outcome.Answered?)
  {
    if !Truthy(provider) || !Truthy(apiKey) then Error(400, KEY_FIELDS_REQUIRED)
    else Ok(ValidateApiKey(provider.value, outcome))
  }
}

=== FILE: store.dfy ===
/** The persistent records the session and credential core reads and
    writes, held in memory: users (indexed by id; this core never deletes
    one), verification codes (in insertion order), refresh tokens (keyed by
    their unique value), and the append-only audit and API-usage logs. */
module Store {
  import opened Base

  type UserId = nat

  datatype User = User(
    email: string,                    // normalised, unique
    name: string,
    avatar: Option<string>,
    passwordHash: string,
    emailVerified: bool,
    emailVerifiedAt: Option<nat>,
    apiProvider: Option<string>,
    apiKeyEncrypted: Option<string>,  // hex ciphertext followed by the hex GCM tag
    apiKeyIv: Option<string>,         // hex IV
    useTrialMode: bool,
    trialCredits: real,
    trialStartedAt: Option<nat>,
    createdAt: nat,
    lastLoginAt: Option<nat>)

  /** A one-time code; `kind` is the purpose ('login' or 'signup'). Times
      are milliseconds. */
  datatype VerificationCode = VerificationCode(
    email: string,
    userId: Option<UserId>,
    code: string,
    kind: string,
    expiresAt: int,
    usedAt: Option<nat>)

  datatype RefreshToken = RefreshToken(
    userId: UserId,
    expiresAt: nat,
    revokedAt: Option<nat>,
    ipAddress: string,
    userAgent: string)

  datatype AuditEntry = AuditEntry(userId: UserId, action: string)

  /** The value `logUsage` is handed for the cost column: nothing, a
      number, or (on the failed-chat path) a message string. */
  datatype CostCell = NoCost | Amount(amount: real) | Text(text: string)

  datatype UsageRecord = UsageRecord(
    userId: UserId,
    provider: Option<string>,
    model: string,
    endpoint: string,
    tokens: nat,
    cost: CostCell,
    duration: nat,
    success: bool,
    error: Option<string>)

  datatype Db = Db(
    users: seq<User>,
    codes: seq<VerificationCode>,
    tokens: map<string, RefreshToken>,
    audit: seq<AuditEntry>,
    usage: seq<UsageRecord>)

  /** The stored provider, ciphertext and IV are present together or absent
      together. */
  predicate KeyFieldsTogether(u: User) {
    && (u.apiKeyEncrypted.Some? <==> u.apiKeyIv.Some?)
    && (u.apiKeyIv.Some? <==> u.apiProvider.Some?)
  }

  /** Invariants the database schema and the core's writes maintain: unique
      emails, every refresh token owned by an existing user, and the
      both-or-neither credential fields. Trial credits are NOT kept
      non-negative (the debit is unclamped). */
  predicate Valid(db: Db) {
    && (forall i, j :: 0 <= i < j < |db.users| ==> db.users[i].email != db.users[j].email)
    && (forall t :: t in db.tokens ==> db.tokens[t].userId < |db.users|)
    && (forall i :: 0 <= i < |db.users| ==> KeyFieldsTogether(db.users[i]))
  }

  /** `prisma.user.findUnique({ where: { email } })`. */
  function FindUserByEmail(users: seq<User>, email: string): (r: Option<UserId>)
    ensures r.Some? ==> r.value < |users| && users[r.value].email == email
    ensures r.Some? ==> forall i :: 0 <= i < r.value ==> users[i].email != email
    ensures r.None? <==> forall i :: 0 <= i < |users| ==> users[i].email != email
  {
    FindUserFrom(users, email, 0)
  }

  function FindUserFrom(users: seq<User>, email: string, from: nat): (r: Option<UserId>)
    requires from <= |users|
    ensures r.Some? ==> from <= r.value < |users| && users[r.value].email == email
    ensures r.Some? ==> forall i :: from <= i < r.value ==> users[i].email != email
    ensures r.None? <==> forall i :: from <= i < |users| ==> users[i].email != email
    decreases |users| - from
  {
    if from == |users| then None
    else if users[from].email == email then Some(from)
    else FindUserFrom(users, email, from + 1)
  }

  /** `prisma.user.findUnique({ where: { id } })`. */
  function UserById(db: Db, id: UserId): (r: Option<User>)
    ensures r.Some? <==> id < |db.users|
    ensures r.Some? ==> r.value == db.users[id]
  {
    if id < |db.users| then Some(db.users[id]) else None
  }

  /** Appends one audit entry (`logAudit`; its failures are swallowed and
      not modelled). */
  function Audit(db: Db, id: UserId, action: string): (r: Db)
    ensures r == db.(audit := db.audit + [AuditEntry(id, action)])
  {
    db.(audit := db.audit + [AuditEntry(id, action)])
  }

  lemma AuditKeepsValid(db: Db, id: UserId, action: string)
    requires Valid(db)
    ensures Valid(Audit(db, id, action))
  {
    assert Audit(db, id, action).users == db.users && Audit(db, id, action).tokens == db.tokens;
  }

  /** The user record as the server returns it (`sanitizeUser`): no
      password hash and no key material. */
  datatype SafeUser = SafeUser(
    id: UserId,
    email: string,
    name: string,
    avatar: Option<string>,
    emailVerified: bool,
    hasApiKey: bool,
    apiProvider: Option<string>,
    useTrialMode: bool,
    trialCredits: real,
    createdAt: nat,
    lastLoginAt: Option<nat>)

  function Sanitize(id: UserId, u: User): (s: SafeUser)
    ensures s.id == id && s.email == u.email && s.name == u.name
    ensures s.hasApiKey <==> Truthy(u.apiKeyEncrypted) || u.useTrialMode
    ensures s.trialCredits == u.trialCredits && s.useTrialMode == u.useTrialMode
  {
    SafeUser(id, u.email, u.name, u.avatar, u.emailVerified,
             Truthy(u.apiKeyEncrypted) || u.useTrialMode,
             u.apiProvider, u.useTrialMode, u.trialCredits, u.createdAt, u.lastLoginAt)
  }

  /** The claims a signed access token carries: `{ id, email }` plus the
      `iat` and `exp` (seconds) that the signer adds. */
  datatype AccessClaims = AccessClaims(id: UserId, email: string, iat: nat, exp: nat)

  /** Lifetime of an access token ('15m'). */
  const ACCESS_TOKEN_SECONDS: nat := 900

  /** `generateAccessToken(user)` at time `now` (milliseconds). */
  function IssueAccessToken(id: UserId, email: string, now: nat): (c: AccessClaims)
    ensures c.id == id && c.email == email
    ensures c.exp == c.iat + ACCESS_TOKEN_SECONDS && c.iat * 1000 <= now < c.iat * 1000 + 1000
  {
    AccessClaims(id, email, now / 1000, now / 1000 + ACCESS_TOKEN_SECONDS)
  }
}
